=== FILE: README.md ===
# mini-vue core in Dafny

A functional model of the core of mini-vue. mini-vue is a small re-implementation of Vue 3 in TypeScript. The model covers the reactivity package: reactive, readonly and shallowReadonly proxies, dependency tracking, `effect`, `stop`, refs and `watchEffect`. It also covers the scheduler's microtask flush and the mount path of the renderer over an abstract host tree that stands for the DOM, including the DOM adapter's `patchProp`. Component emit, provide/inject, slots and the component proxy's `get` are modelled. The template compiler's front end is modelled too: `baseParse`, the `transform` walk and `generate`. Each is stated as pure functions over immutable data, with the properties the code and its tests rely on proved about them.

The model follows the code as written wherever the code and the general design of Vue differ. Several features of the full Vue design are not in this code and are not modelled: `unref`, `proxyRefs`, `computed`, element patching and keyed children diffing.

Layout, one module per source concern:

- `values.dfy`: JavaScript values. Numbers are canonical, so `Object.is` is plain equality. Also `typeof` and truthiness.
- `shared.dfy`: `src/shared/index.ts`.
- `shape_flags.dfy`: `src/shared/shapeFlags.ts`.
- `vnode.dfy`: `src/runtime-core/vnode.ts`.
- `scheduler.dfy`: the queue operations of `src/runtime-core/scheduler.ts`.
- `reactivity.dfy`: one world holding the raw heap, the refs, the dependency store, the effects, `activeEffect`/`shouldTrack`, the scheduler queues and a log of observable calls. It defines the getters and setters, `track`/`trigger`, `run`, `stop`, `watchEffect` and the flush.
- `reactive_invariants.dfy`: the invariant of reachable worlds, proved preserved by every step, by fuel induction that mirrors the mutual recursion.
- `reactive_properties.dfy`: the public promises that follow from the invariant.
- `reactive_scenarios.dfy`: the engine's own test scenarios, over generic worlds.
- `reactive_liveness.dfy`: what the engine does, for effect functions that only read: the values a run returns, who a write notifies and in which order, and which callbacks a flush runs.
- `host.dfy`: the abstract DOM and `src/runtime-dom/index.ts`.
- `renderer.dfy`: `src/runtime-core/render.ts`.
- `emit.dfy`, `inject.dfy`, `slots.dfy` and `public_instance.dfy`: the component helpers.
- `template_ast.dfy`, `parse.dfy`, `transform.dfy` and `codegen.dfy`: the compiler.

Effects can re-trigger themselves without end. Every step of the mutually recursive reactive semantics therefore spends one unit of `fuel`, and `Exhausted` is the outcome when the fuel runs out. A thrown JavaScript exception is the outcome `Thrown`. It carries the world as it was when the exception escaped, because the code has no `try/finally`.

## Model

| member | source | states |
|---|---|---|
| `Values.SameValueVersusStrict` | src/shared/index.ts:18-20 | `Object.is`, used by `isChanged`, differs from `===` exactly on NaN and on the two zeros |
| `Shared.IsObjectCases` | src/shared/index.ts:6-10 | `isObject` holds exactly for objects and proxies of objects (not functions, not null); `isString` exactly for strings |
| `Shared.IsChangedCases` | src/shared/index.ts:18-20 | NaN is unchanged from NaN, +0 is changed from -0, and every value is unchanged from itself |
| `Shared.Camelize` | src/shared/index.ts:36-40 | the result is never longer than the input, is non-empty for non-empty input, and is the input itself when there is no hyphen; the replacement itself is stated by the five lemmas below |
| `Shared.CamelizeAppend` | src/shared/index.ts:36-40 | camelize works piece by piece: cutting the input after any character but a hyphen and camelizing the two pieces gives the same result, since the left-to-right global replace never matches across such a cut |
| `Shared.CamelizeReplaces` | src/shared/index.ts:36-40 | a hyphen followed by a word character, and not preceded by an unmatched hyphen, is replaced by that character upper-cased, and the text on either side is camelized on its own |
| `Shared.CamelizeKeepsDash` | src/shared/index.ts:36-40 | a hyphen followed by a character that is neither a word character nor a hyphen stays, together with that character |
| `Shared.CamelizeDashDash` | src/shared/index.ts:36-40 | a hyphen followed by another hyphen stays, and the second hyphen is camelized with what follows it (`a--b` becomes `a-B`) |
| `Shared.CamelizeTrailingDash` | src/shared/index.ts:36-40 | a hyphen at the end of the input stays |
| `Shared.CamelizeHyphenate` | src/shared/index.ts:36-40 | camelize inverts hyphenation (`addFoo` to `add-foo`) for every name without hyphens |
| `Shared.CamelizeNotIdempotent` | src/shared/index.ts:36-40 | `--a` camelizes to `-A` and then to `A`, so camelize is not idempotent |
| `Shared.CamelizeExamples` | src/shared/index.ts:31-40 | `add` stays `add`; `add-foo` becomes `addFoo`, as the doc comment promises |
| `Shared.Capitalize` | src/shared/index.ts:47-49 | same length and same tail; the first character is the input's first character upper-cased, so no longer lower-case; the result differs from the input exactly when the input started lower-case |
| `Shared.CapitalizeIdempotent` | src/shared/index.ts:47-49 | capitalizing twice is capitalizing once |
| `Shared.ToHandlerKey` | src/shared/index.ts:56-58 | the key is `on`, then the upper-cased first character, then the rest of the name unchanged |
| `ShapeFlags.FlagValues` | src/shared/shapeFlags.ts:1-6 | the flag values 1, 2, 4 and 8 of the enum; the value 16 of SLOT_CHILDREN is cited with `ShapeFlags.SlotFlagValue` |
| `ShapeFlags.SlotFlagValue` | lib/mini-vue.cjs.js:289 | SLOT_CHILDREN, which the enum lacks, is 16 in the bundled build: the bit after ARRAY_CHILDREN |
| `ShapeFlags.FlagsDisjoint` | src/shared/shapeFlags.ts:1-6 | every flag is a single non-zero bit, and distinct flags share no bit |
| `ShapeFlags.CombineAndTest` | src/shared/shapeFlags.ts:8-17 | or-ing a type flag with a children flag keeps both testable with `&` and sets no other flag |
| `VNodes.GetShapeFlag` | src/runtime-core/vnode.ts:36-40 | the flag is ELEMENT exactly for a string type, and otherwise STATEFUL_COMPONENT, including for the Fragment and Text symbols |
| `VNodes.CreateVNode` | src/runtime-core/vnode.ts:6-29 | type, props and children are kept and `el` starts null; each flag is set exactly when its condition holds (SLOT_CHILDREN: a non-string type with object-typed children) |
| `VNodes.TextAndArrayExclusive` | src/runtime-core/vnode.ts:15-19 | no vnode carries both TEXT_CHILDREN and ARRAY_CHILDREN |
| `VNodes.CreateTextVNode` | src/runtime-core/vnode.ts:32-34 | a Text-typed vnode with empty props and the string as children |
| `Scheduler.QueueFlush` | src/runtime-core/scheduler.ts:26-28 | the flush becomes pending; a new microtask is scheduled exactly when none was pending; the queues are untouched |
| `Scheduler.QueueFlushOnce` | src/runtime-core/scheduler.ts:26-28 | a second request schedules nothing and changes nothing |
| `Scheduler.QueuePreFlushCb` | src/runtime-core/scheduler.ts:10-14 | the callback is appended to the pre-flush list and a flush is pending |
| `Scheduler.PreFlushKeepsDuplicates` | src/runtime-core/scheduler.ts:10-14 | queueing one callback twice leaves two more occurrences of it, with no de-duplication |
| `Scheduler.QueueJob` | src/runtime-core/scheduler.ts:16-24 | the job is in the queue afterwards; the queue is unchanged when it held the job and extended by it otherwise; a duplicate-free queue stays duplicate-free |
| `Scheduler.QueueJobIdempotent` | src/runtime-core/scheduler.ts:16-24 | queueing the same job twice is queueing it once |
| `Scheduler.Shift` | src/runtime-core/scheduler.ts:36 | the oldest job and the rest of the queue, or nothing on an empty queue |
| `Reactivity.Track` | packages/reactivity/src/effect.ts:58-79 | when not tracking, nothing changes; when tracking, the active effect ends up in the set, added once at the end; the set is appended to the effect's list even if already there; other sets are unchanged |
| `Reactivity.MakeProxy` | packages/reactivity/src/reactive.ts:66-78 | a proxy is created exactly for object, function or proxy targets and is never the target itself; a primitive target throws TypeError |
| `Reactivity.Get` | packages/reactivity/src/reactive.ts:4-24 | the flag keys answer from the variant; shallowReadonly returns the raw value; a nested object comes back wrapped as reactive or readonly; only the mutable variant tracks a primitive value; reading from null or undefined throws |
| `Reactivity.IsReactive` | packages/reactivity/src/reactive.ts:86-88 | true exactly for a mutable proxy; a raw object answers its own `__v_isReactive` property; null and undefined throw |
| `Reactivity.IsReadonly` | packages/reactivity/src/reactive.ts:90-92 | true exactly for a readonly or shallowReadonly proxy; null and undefined throw |
| `Reactivity.IsProxy` | packages/reactivity/src/reactive.ts:95-97 | every proxy answers true; a raw object answers the disjunction of its two flag properties |
| `Reactivity.Set` | packages/reactivity/src/reactive.ts:26-64 | a raw write stores the value; a readonly proxy only warns and reports success; a mutable proxy writes first and then throws when the key has no subscriber set; a primitive target throws |
| `Reactivity.Trigger` | packages/reactivity/src/effect.ts:87-91 | a key that was never tracked throws TypeError; an empty set does nothing |
| `Reactivity.TriggerEffects` | packages/reactivity/src/effect.ts:93-101 | keeps the world valid; past the end of the set nothing more happens |
| `Reactivity.Dispatch` | packages/reactivity/src/effect.ts:94-100 | an effect with a scheduler only has the scheduler called (a log entry and, for watchEffect, its job queued as a pre-flush callback); one without a scheduler is run |
| `Reactivity.StartRun` | packages/reactivity/src/effect.ts:12-18 | an active effect switches tracking on and becomes the active effect; a stopped one touches neither flag |
| `Reactivity.RunEffect` | packages/reactivity/src/effect.ts:12-24 | the function's run is the first logged event; it returns one value per read; an active effect that returns leaves tracking off (which values: `ReactiveLiveness.RunEffectReads`) |
| `Reactivity.NewRef` | src/reactivity/ref.ts:4-10 | a new cell holding the value, with its own new, empty subscriber set |
| `Reactivity.RefGet` | src/reactivity/ref.ts:11-16 | the corrected getter returns the stored value always, and subscribes the active effect when tracking |
| `Reactivity.RefGetAsWritten` | src/reactivity/ref.ts:11-16 | the getter as written returns undefined when not tracking, and agrees with `RefGet` otherwise |
| `Reactivity.RefSet` | src/reactivity/ref.ts:17-24 | a value equal under `Object.is` (SameValue on the model's values, where a proxy is its kind and target) changes nothing; a new value with no subscribers is only stored |
| `Reactivity.CreateEffect` | packages/reactivity/src/effect.ts:41-54 | exactly one new effect; its first run is the first logged event, and tracking is off when it returns |
| `Reactivity.WatchEffect` | packages/runtime-core/src/apiWatch.ts:7-23 | one new effect run at once, as for `effect`, with the pre-flush scheduler |
| `Reactivity.Remove` | packages/reactivity/src/effect.ts:29-31 | the set without the effect, still duplicate-free; in a duplicate-free set holding it, the result is the set with that one position cut out, so the other subscribers keep their insertion order, as `Set.prototype.delete` keeps it; a set without it is unchanged |
| `Reactivity.Stop` | packages/reactivity/src/effect.ts:26-37 | the first call removes the effect from every set it joined, empties its list, logs onStop if given and marks it stopped; later calls change nothing; every set on the effect's list becomes exactly that set with the effect removed (the others in their order), and every other set is unchanged |
| `Reactivity.Tick` | src/runtime-core/scheduler.ts:29-39 | without a pending flush nothing runs; a completed turn leaves the job queue empty |
| `Reactivity.TickAsWritten` | src/runtime-core/scheduler.ts:29-46 | the turn as written: the same promises as `Tick`, but the pre-flush list is never emptied |
| `Reactivity.Drain` | src/runtime-core/scheduler.ts:35-38 | a completed job loop leaves the queue empty |
| `ReactiveInvariants.TrackReach` | packages/reactivity/src/effect.ts:75-79 | tracking keeps the invariant: every subscriber lists the set among its dependencies |
| `ReactiveInvariants.GetStep` | packages/reactivity/src/reactive.ts:4-24 | a read keeps the invariant, only grows subscriber sets and dependency lists at their ends, and leaves every stopped effect quiet |
| `ReactiveInvariants.SetStep` | packages/reactivity/src/reactive.ts:26-32 | any write, with every effect it triggers, keeps the invariant; sets and lists only grow at their ends; no stopped effect runs, is scheduled, or gets work queued |
| `ReactiveInvariants.TriggerEffectsStep` | packages/reactivity/src/effect.ts:93-101 | the same for a walk over a subscriber set |
| `ReactiveInvariants.DispatchStep` | packages/reactivity/src/effect.ts:94-100 | notifying an effect keeps the invariant and leaves every other stopped effect quiet |
| `ReactiveInvariants.RunEffectStep` | packages/reactivity/src/effect.ts:12-24 | running an effect keeps the invariant; if tracking was off before, it is off after a normal return |
| `ReactiveInvariants.RefSetStep` | src/reactivity/ref.ts:17-24 | a ref write and its notifications keep the invariant and leave stopped effects quiet |
| `ReactiveInvariants.FlushPreStep` | src/runtime-core/scheduler.ts:42-46 | the pre-flush pass keeps the invariant, only extends the two queues, and a stopped effect with no queued work stays quiet |
| `ReactiveInvariants.DrainStep` | src/runtime-core/scheduler.ts:35-38 | the job loop keeps the invariant, and a stopped effect with no queued work stays quiet |
| `ReactiveInvariants.TickStep` | src/runtime-core/scheduler.ts:29-39 | a microtask turn keeps the invariant and a stopped effect with no queued work stays quiet; a turn that flushes and ends with no flush pending has emptied the pre-flush list, and one that ends with a new flush pending called a scheduler |
| `ReactiveLiveness.GetReads` | packages/reactivity/src/reactive.ts:4-24 | a read changes only subscriber sets and dependency lists, leaves alone every set the active effect is already in (all of them when nothing tracks), and returns exactly the value the heap holds, wrapped for a nested object; it throws exactly on null and undefined |
| `ReactiveLiveness.ExecOpReads` | packages/reactivity/src/effect.ts:20 | one read of a property or of a ref tracks only, and returns what the heap or the ref cell holds |
| `ReactiveLiveness.ExecOpsReads` | packages/reactivity/src/effect.ts:20 | a function that only reads returns the values the heap and the ref cells hold, in order, and throws exactly when one of its reads does |
| `ReactiveLiveness.RunEffectReads` | packages/reactivity/src/effect.ts:12-24 | `run` of an effect whose function only reads logs its one run and nothing else, queues nothing, keeps the heap and the ref cells, leaves the sets it is in unchanged, and returns the values read |
| `ReactiveLiveness.DispatchReads` | packages/reactivity/src/effect.ts:94-100 | notifying an active subscriber logs exactly one event, its scheduler call if it has a scheduler and its run otherwise, and leaves the subscriber set, the heap and the ref cells as they were |
| `ReactiveLiveness.TriggerEffectsReads` | packages/reactivity/src/effect.ts:93-101 | the walk from an index notifies each remaining subscriber once, in insertion order, and logs nothing else |
| `ReactiveLiveness.TriggerReads` | packages/reactivity/src/effect.ts:87-91 | `trigger` completes only for a tracked key, and then every subscriber has been notified once, in insertion order, by its scheduler or by running it |
| `ReactiveLiveness.TriggerNotifies` | packages/reactivity/src/effect.ts:87-101 | the same in every reachable world |
| `ReactiveLiveness.SetNotifies` | packages/reactivity/src/reactive.ts:26-32 | a write through a reactive proxy stores the value and then notifies every subscriber of the key once, in insertion order |
| `ReactiveLiveness.RefSetNotifies` | src/reactivity/ref.ts:17-24 | writing a different value to a ref stores it and then notifies every subscriber of the ref once, in insertion order |
| `ReactiveLiveness.FlushPreReads` | src/runtime-core/scheduler.ts:42-46 | the pre-flush pass runs each callback from the index on once, in list order, and queues nothing |
| `ReactiveLiveness.DrainReads` | src/runtime-core/scheduler.ts:35-38 | the job loop runs every queued job once, oldest first, and leaves the queue empty |
| `ReactiveLiveness.TickRunsAll` | src/runtime-core/scheduler.ts:29-39 | a turn with a flush pending runs every pre-flush callback in list order before any job, then every job oldest first, and leaves both queues empty and no flush pending |
| `ReactiveLiveness.TickAsWrittenRunsAll` | src/runtime-core/scheduler.ts:29-46 | the turn as written logs the same runs in the same order, but keeps the pre-flush list |
| `ReactiveProperties.InitialReach` | packages/reactivity/src/effect.ts:1-2 | the initial world satisfies the invariant, with tracking off |
| `ReactiveProperties.NewRefKeepsReach` | src/reactivity/ref.ts:7-10 | `ref(v)` keeps the invariant, and the new cell has no subscribers |
| `ReactiveProperties.CreateEffectKeepsReach` | packages/reactivity/src/effect.ts:41-54 | `effect(fn)` keeps the invariant, and no stopped effect runs during the first run |
| `ReactiveProperties.StopKeepsReach` | packages/reactivity/src/effect.ts:26-37 | stopping any effect but the one currently tracking keeps the invariant and leaves the effect in no subscriber set |
| `ReactiveProperties.StopIdempotent` | packages/reactivity/src/effect.ts:26-37 | stopping twice is stopping once; at most one onStop call is logged |
| `ReactiveProperties.StoppedEffectIgnoresSet` | packages/reactivity/__tests__/effect.spec.ts:77-97 | after `stop(runner)`, no write through any proxy runs the effect, calls its scheduler, or queues work for it |
| `ReactiveProperties.StoppedEffectIgnoresRefSet` | src/reactivity/ref.ts:17-24 | the same for writes to a ref |
| `ReactiveProperties.StoppedEffectIgnoresTick` | src/runtime-core/scheduler.ts:29-39 | a flush does not run a stopped effect that has no queued work |
| `ReactiveScenarios.RunAge` | packages/reactivity/src/effect.ts:12-24 | running the age effect returns the current age, logs one run, leaves tracking off, and appends the age key to its dependency list again while the subscriber set stays as it was |
| `ReactiveScenarios.RunStoppedAge` | packages/reactivity/src/effect.ts:13-15 | a stopped effect's run still calls its function, but changes nothing beyond the log |
| `ReactiveScenarios.CreateAge` | packages/reactivity/__tests__/effect.spec.ts:11-26 | `effect(fn)` runs `fn` once through `run` (never the scheduler) and subscribes it to `age` |
| `ReactiveScenarios.SetReruns` | packages/reactivity/__tests__/effect.spec.ts:11-26 | `user.age = n` stores `n`, and then the effect runs once more and sees it |
| `ReactiveScenarios.SetSchedules` | packages/reactivity/__tests__/effect.spec.ts:43-75 | with a scheduler, the write stores the value and calls the scheduler once instead of the function |
| `ReactiveScenarios.SchedulerThenRunner` | packages/reactivity/__tests__/effect.spec.ts:43-75 | the scheduler is called and the function is not; calling the runner afterwards runs the function on the new value |
| `ReactiveScenarios.RunnerAfterSchedule` | packages/reactivity/__tests__/effect.spec.ts:71-74 | after the scheduler call, the runner runs the function on the new value |
| `ReactiveScenarios.TickRunsWatch` | src/runtime-core/tests/apiWatch.spec.ts:15-22 | the turn after `state.count++` runs the watch once and leaves both queues empty |
| `ReactiveScenarios.TickAsWrittenKeepsWatch` | src/runtime-core/scheduler.ts:42-46 | the turn as written also runs the watch once, but leaves its callback queued |
| `ReactiveScenarios.WatchEffectRunsBeforeFlush` | src/runtime-core/tests/apiWatch.spec.ts:6-23 | `watchEffect` runs at once; the write only queues it; the next turn runs it on the new value |
| `ReactiveScenarios.StoppedWatchStaysStill` | src/runtime-core/tests/apiWatch.spec.ts:25-37 | after the returned stop closure runs, a write neither schedules nor requests a flush, and the next turn does nothing |
| `ReactiveScenarios.StaleCallbackRunsStoppedEffect` | src/runtime-core/scheduler.ts:42-46 | as written, a later flush runs a stopped watchEffect's function again |
| `ReactiveScenarios.StoppedWatchNotRerun` | src/runtime-core/scheduler.ts:29-46 | with the list emptied after each pass, a later flush runs nothing for a stopped watchEffect |
| `ReactiveScenarios.RefSetReruns` | src/reactivity/tests/ref.spec.ts:6-23 | `a.value = v` stores `v` and reruns the effect once; writing the same value again changes nothing |
| `ReactiveScenarios.ThrowLeavesTrackingOn` | packages/reactivity/src/effect.ts:12-24 | a function that throws leaves tracking on, so a read after `stop` re-subscribes the stopped effect |
| `ReactiveScenarios.RefReadOutsideEffect` | src/reactivity/ref.ts:11-16 | outside an effect the getter as written answers undefined for `ref(1)`, while the corrected one answers 1 |
| `Host.CreateElement` | src/runtime-dom/index.ts:3-5 | one fresh element with no attributes, listeners, children or parent; nothing else changes |
| `Host.Append` | src/runtime-core/render.ts:84 | the child's parent becomes the element; a child that had no parent becomes the element's last child, and no other node changes |
| `Host.SetElementText` | src/runtime-core/render.ts:65 | every old child stays in the store with no parent; the empty string leaves no child and creates nothing; any other string creates one fresh text node holding it, parented to the element, as its only child; every other node is unchanged |
| `Host.SetElementTextRoundTrip` | src/runtime-core/render.ts:65 | reading the text back after setting it gives the same string, and the element has text children only |
| `Host.SetAttribute` | src/runtime-dom/index.ts:17 | the attribute holds the value, the other attributes are kept, and nothing else changes |
| `Host.RemoveAttribute` | src/runtime-dom/index.ts:15 | the attribute is gone, the other attributes are kept, and nothing else changes |
| `Host.AddEventListener` | src/runtime-dom/index.ts:12 | the pair of event and handler joins the listeners, unless the handler is null or undefined; nothing else changes |
| `Host.EventName` | src/runtime-dom/index.ts:11 | the key without its first two characters, each lower-cased |
| `Host.PatchProp` | src/runtime-dom/index.ts:7-20 | an `on[A-Z]` key adds the value (unless null or undefined) as a listener under the lower-cased rest of the key and leaves the attributes alone; otherwise a falsy value removes the attribute and a truthy one sets it; no other node changes |
| `Host.PatchPropIdempotent` | src/runtime-dom/index.ts:7-20 | applying a prop twice is applying it once, and the previous value makes no difference |
| `Host.HandlerKeyRoundTrip` | src/runtime-dom/index.ts:8-11 | the handler key built for an event is event-shaped exactly when the event starts with a letter, and maps back to the lower-cased event |
| `Host.Insert` | src/runtime-dom/index.ts:22-24 | the node becomes the last child of the parent and records it as its parent; it leaves the child list of its previous parent, whose other children keep their order, and a re-inserted child moves to the end of the same list; no other node changes |
| `Host.InsertIdempotent` | src/runtime-dom/index.ts:22-24 | appending the same node to the same parent twice leaves the tree of a single append, in any host where a listed child names its parent |
| `Renderer.Patch` | src/runtime-core/render.ts:9-31 | a mount only adds fresh nodes and appends its roots to the container; a Fragment with array children is exactly the mount of that list into the container, and one without throws; a Text vnode always mounts one text node holding its string; an element vnode mounts one element with its tag, its non-event props as attributes and its event props as listeners; a non-string element type fails |
| `Renderer.ProcessElement` | src/runtime-core/render.ts:58-85 | one new element with the tag, the non-event props as attributes and the event props as listeners, appended to the container and recorded in `el`; a non-string tag fails, and so do array-flagged children that are not an array |
| `Renderer.ProcessElementText` | src/runtime-core/render.ts:62-68 | the new element's children: an empty text gives none, any other text one text node holding it; with neither flag it has none |
| `Renderer.ProcessElementChildren` | src/runtime-core/render.ts:65-68 | array children: mounting the list into the new element succeeded, and the element's children are exactly the roots it produced, in order, with the vnode's children the mounted vnodes |
| `Renderer.FillElement` | src/runtime-core/render.ts:62-69 | only the new element changes, and only its children; array-flagged children that are not an array throw; mounted array children are exactly the element's children |
| `Renderer.FillElementText` | src/runtime-core/render.ts:62-65 | text children become the element's text: none for the empty string, otherwise one text node holding it; with neither flag the element stays empty |
| `Renderer.FillElementChildren` | src/runtime-core/render.ts:65-68 | array children are the list mount into the element: its failure is the element's failure, and otherwise the host, the roots and the vnode's children are what the list mount produced |
| `Renderer.ProcessComponent` | src/runtime-core/render.ts:93-117 | a definition without `setup` or without `render` leaves no render function on the instance and throws; otherwise the rendered subtree is mounted into the container, its failure is the component's failure, and the component's vnode takes the subtree's `el` |
| `Renderer.MountChildren` | src/runtime-core/render.ts:87-91 | the container gains exactly the children's roots, in order, and nothing else changes but fresh nodes; one result per child |
| `Renderer.MountChildrenOne` | src/runtime-core/render.ts:87-91 | mounting a one-child list is patching that child: same host, vnode, roots and error |
| `Renderer.MountChildrenAppend` | src/runtime-core/render.ts:87-91 | mounting `xs + ys` mounts `xs` and then `ys` into the host it left, with vnodes and roots concatenated; the first error is the error of the whole |
| `Renderer.MountProp` | src/runtime-core/render.ts:72-81 | an event-shaped key adds a listener under the lower-cased event name; any other key sets the attribute to the value as is |
| `Renderer.ApplyProps` | src/runtime-core/render.ts:70-82 | every non-event prop becomes an attribute with its value, and every event prop a listener; tag, children and the other nodes are kept |
| `Renderer.FoldPropsAnyOrder` | src/runtime-core/render.ts:71-82 | the props loop gives the same attributes and listeners whatever order it visits the keys in |
| `Emit.HandlerName` | src/runtime-core/componentEmit.ts:7-23 | a name exists exactly for a non-empty event; it is `on`, then the camelized event's first character upper-cased, then the rest of the camelized event |
| `Emit.EmitEvent` | src/runtime-core/componentEmit.ts:23-25 | a truthy function under the handler name is called once with the arguments in order; a truthy non-function throws; a missing or falsy one is skipped; an empty event throws |
| `Emit.HandlerNameExamples` | src/runtime-core/componentEmit.ts:3-23 | `add` reaches `onAdd`, and `add-foo` reaches `onAddFoo` |
| `Emit.HyphenatedReachesSameHandler` | src/runtime-core/componentEmit.ts:7-11 | the hyphenated spelling of a camel-case name reaches the same handler as the name |
| `Emit.EmitExample` | src/runtime-core/componentEmit.ts:23-25 | `emit('add-foo', ...args)` calls the function under `onAddFoo` with the arguments, and does nothing when there is none |
| `Inject.Lookup` | packages/runtime-core/src/apiInject.ts:25-26 | an owned key answers its own value; a key missing along the whole chain answers nothing |
| `Inject.InheritedIsNotOwn` | src/shared/index.ts:28-29 | `hasOwn` sees one table: on the owning table it agrees with the chain lookup, while a fresh table created over it does not own the key although the lookup through it finds the same value |
| `Inject.LookupIsFirstOwner` | packages/runtime-core/src/apiInject.ts:25-26 | `key in table` followed by `table[key]` finds exactly the first owner along the prototype chain |
| `Inject.Provide` | packages/runtime-core/src/apiInject.ts:3-17 | without an instance nothing happens; otherwise the instance's own table holds the value, and no other instance or table changes |
| `Inject.ProvideSparesParent` | packages/runtime-core/src/apiInject.ts:9-14 | provide never writes the parent's table; a new table is created exactly when the instance still shares it |
| `Inject.ProvideAtRootInPlace` | packages/runtime-core/src/apiInject.ts:9-15 | a root compares its table with a fresh `{}`, so it writes in place and creates no table |
| `Inject.ProvideOverrides` | packages/runtime-core/src/apiInject.ts:12-15 | after provide, the instance's table answers the new value for the key and every other key as before |
| `Inject.NewChild` | packages/runtime-core/src/apiInject.ts:9-12 | a child instance starts out sharing its parent's table, the aliasing `provides === parentProvides` tests |
| `Inject.InjectValue` | packages/runtime-core/src/apiInject.ts:19-32 | no instance gives undefined; a root throws on its missing parent; an instance with a parent always succeeds: a key found along the parent's chain answers that value, and otherwise a truthy default is returned, or called when it is a function, and a falsy one gives undefined |
| `Inject.InjectIgnoresOwnProvide` | packages/runtime-core/src/apiInject.ts:24 | inject reads the parent's provisions, so the instance's own provide never changes what it injects |
| `Inject.ProviderExample` | packages/runtime-core/src/apiInject.ts:3-32 | a three-level provider chain: the middle instance still injects its parent's key1, the leaf sees the nearest provision, and defaults apply to keys nobody provides |
| `Slots.NormalizeSlotValue` | packages/runtime-core/src/componentSlots.ts:19-21 | an array passes through; anything else becomes a one-element array |
| `Slots.NormalizeIdempotent` | packages/runtime-core/src/componentSlots.ts:19-21 | normalizing a normalized result changes nothing |
| `Slots.InitSlots` | packages/runtime-core/src/componentSlots.ts:3-17 | nothing without SLOT_CHILDREN; otherwise every key of the children gets a wrapping entry and other entries are kept; array children give index keys |
| `Slots.RenderSlots` | packages/runtime-core/helpers/renderSlots.ts:3-8 | a missing key gives undefined; a wrapped entry whose slot is not a function throws; a wrapped slot function is always rendered: called once with the props, its normalized result becomes the children of a Fragment with empty props |
| `Slots.InitThenRender` | packages/runtime-core/helpers/renderSlots.ts:3-8 | after initSlots, rendering a slot calls the user's function once; a vnode placed directly under the key is not callable and throws |
| `Slots.InitSlotsOfCreated` | packages/runtime-core/src/componentSlots.ts:6-9 | a component created with object children gets one entry per key; an element never gets any |
| `PublicInstance.PublicGet` | src/runtime-core/componentPublicInstance.ts:1-21 | a setup-state key answers its value first; only `$el` falls through to the vnode's element; anything else gives undefined |
| `PublicInstance.StateShadowsEl` | src/runtime-core/componentPublicInstance.ts:8-10 | the setup state shadows `$el` |
| `PublicInstance.ElAfterMount` | src/runtime-core/render.ts:116 | after mount, `this.$el` is the host element of the rendered subtree |
| `Parse.TrimIsInfix` | src/compiler-core/src/parse.ts:87 | `trim` yields the infix of the string with only white space around it |
| `Parse.TrimIdempotent` | src/compiler-core/src/parse.ts:87 | trimming twice is trimming once |
| `Parse.IndexOf` | src/compiler-core/src/parse.ts:76-79 | -1, or the first occurrence at or after the start index |
| `Parse.ParseTag` | src/compiler-core/src/parse.ts:57-69 | succeeds exactly on a source starting with `<`; the tag is the longest run of ASCII letters after `<` or `</`, and the source resumes one character after it; otherwise reading the failed match throws |
| `Parse.ParseElement` | src/compiler-core/src/parse.ts:50-54 | the element takes the start tag's name and has no children; it succeeds exactly when `<` follows the start tag, and consumes the end tag whatever its name |
| `Parse.ParseInterpolation` | src/compiler-core/src/parse.ts:72-102 | with a `}}` after the opening, the content is the trimmed text between them and the source resumes after the `}}` |
| `Parse.ParseText` | src/compiler-core/src/parse.ts:35-47 | the whole remaining source is one text node, and nothing is left |
| `Parse.ParseChildrenBy` | src/compiler-core/src/parse.ts:13-32 | a success yields exactly one node; only an element can fail, never text or an interpolation |
| `Parse.BaseParse` | src/compiler-core/src/parse.ts:8-11 | a root with exactly one child and no codegen node |
| `Parse.BaseParseAsWritten` | src/compiler-core/src/parse.ts:8-32 | the parse as written: a root with exactly one child and no codegen node, when it succeeds |
| `Parse.ElementTestsDiffer` | src/compiler-core/src/parse.ts:20-22 | the element test as written and the corrected one differ on exactly one input, the lone `<` |
| `Parse.LoneAngleBracket` | src/compiler-core/src/parse.ts:22 | as written, `<` throws; corrected, it is one text node |
| `Parse.ParseTextRoundTrip` | src/compiler-core/src/parse.ts:35-47 | a source that is neither an interpolation nor an element parses to one text node holding exactly the source |
| `Parse.ParseInterpolationRoundTrip` | src/compiler-core/src/parse.ts:72-102 | `{{ c }}rest` parses to an interpolation of the trimmed `c`, and leaves exactly `rest` |
| `Parse.UnclosedInterpolation` | src/compiler-core/src/parse.ts:76-92 | without `}}`, the negative lengths make `slice` count from the end: all but the last three characters, with the last one left over |
| `Parse.ParseElementRoundTrip` | src/compiler-core/src/parse.ts:50-69 | `<tag></any>rest` parses to an element with the tag and no children, and leaves exactly `rest` |
| `Parse.MissingEndTagThrows` | src/compiler-core/src/parse.ts:50-64 | a start tag followed by anything but `<` throws, as for `<div>hi</div>` |
| `Transform.ContextTransforms` | src/compiler-core/src/transform.ts:8-13 | a missing options object throws; a missing `nodeTransforms` is the empty list |
| `Transform.ApplyAllAppend` | src/compiler-core/src/transform.ts:19-23 | running a list of transforms is running its first part and then the rest, in order |
| `Transform.Traverse` | src/compiler-core/src/transform.ts:15-31 | the nodes handed to the transforms are exactly the pre-order of the tree, parent before children and children left to right; a leaf comes out as all transforms applied to it |
| `Transform.TraverseList` | src/compiler-core/src/transform.ts:25-30 | each child is walked independently, in order |
| `Transform.TransformRoot` | src/compiler-core/src/transform.ts:1-6 | no options object throws; with options the walk succeeds |
| `Transform.TraverseIdentity` | src/compiler-core/src/transform.ts:15-31 | with no transforms the walk changes nothing |
| `Transform.TransformWithoutTransforms` | src/compiler-core/src/transform.ts:8-13 | options without `nodeTransforms` leave the tree unchanged; no options object throws |
| `Transform.VisitsOncePerNode` | src/compiler-core/src/transform.ts:15-31 | there are as many visits as nodes, whatever the transforms do |
| `Transform.ReplacedChildrenStillVisited` | src/compiler-core/src/transform.ts:16 | a transform that replaces the children does not change what is visited: the old children are walked, and the new list stays |
| `Transform.TextPluginOnParsedText` | src/compiler-core/tests/transform.spec.ts:1-19 | parsing plain text and running the text plugin appends the suffix to the one text node |
| `Codegen.Push` | src/compiler-core/src/codegen.ts:34-36 | push only appends: the old code is a prefix and the new source is the suffix |
| `Codegen.PreambleText` | src/compiler-core/src/codegen.ts:4-9 | the import line is `const { toDisplayString: _toDisplayString } = Vue` |
| `Codegen.GetNode` | src/compiler-core/src/codegen.ts:26-29 | a missing node throws; otherwise the node's content is pushed between single quotes |
| `Codegen.Generate` | src/compiler-core/src/codegen.ts:1-24 | succeeds exactly for a root with a codegen node; the code's length is the head, the content and three characters |
| `Codegen.GenerateShape` | src/compiler-core/src/codegen.ts:1-24 | the code is the head, then the content in single quotes verbatim, then `}` |
| `Codegen.GenerateUnwrap` | src/compiler-core/src/codegen.ts:19-20 | the content can be read back from the generated code exactly, whatever characters it holds |
| `Codegen.GenerateInjective` | src/compiler-core/src/codegen.ts:19-20 | distinct contents give distinct code |
| `Codegen.ParsedTreeHasNoCodegenNode` | src/compiler-core/src/codegen.ts:26-29 | nothing the parser produces carries a codegen node, so generating code for a parsed tree throws |

## Left out

- I/O and the browser: `document`, `console.warn`/`console.log` and Promises. The DOM is an abstract node store. A readonly warning and each effect run or scheduler call is an entry in a log. `nextTick` is one explicit call of `Tick`, the microtask the flush would run.
- Reactivity.Set, Reactivity.Trigger, Reactivity.TriggerEffects, Reactivity.Dispatch, Reactivity.RunEffect, Reactivity.RefSet, Reactivity.Tick, Reactivity.FlushPre and Reactivity.Drain: each takes a `fuel` bound. When it runs out the outcome is `Exhausted`, which the source never produces. An effect that writes a key it reads recurses without end in JavaScript, and the model stops there.
- Reactivity.Tick: models the flush with the pre-flush list emptied after each pass (see Findings). `Reactivity.TickAsWritten` is the source's version.
- Reactivity.RefGet: models the corrected getter (see Findings). `Reactivity.RefGetAsWritten` is the source's version. Effect functions read refs through the corrected getter too (`Reactivity.ExecOp`), so a stopped effect's ref read gives the stored value where src/reactivity/ref.ts:13 gives undefined.
- Parse.BaseParse: models the corrected element test (see Findings). `Parse.BaseParseAsWritten` is the source's version.
- Reactivity.RunEffect: its own contract states how many values a run returns. That they are the values the heap and the ref cells hold is stated by `ReactiveLiveness.RunEffectReads`, and only for functions that only read.
- Reactivity.Set, Reactivity.Trigger, Reactivity.TriggerEffects, Reactivity.RefSet, Reactivity.Tick, Reactivity.TickAsWritten and Reactivity.Drain: their own contracts and the invariants state safety. Who is notified, in which order, and which callbacks a flush runs is stated in `ReactiveLiveness`, for worlds whose effect functions only read. A function that writes notifies further effects from inside the walk, and what that logs is not characterized.
- Shared.Camelize: its own contract states the length and the hyphen-free case. What happens at each hyphen is stated by `Shared.CamelizeReplaces` (a word character follows), `Shared.CamelizeKeepsDash` (another character follows), `Shared.CamelizeDashDash` (a hyphen follows) and `Shared.CamelizeTrailingDash` (nothing follows), and `Shared.CamelizeAppend` puts the pieces together; between them they cover every input.
- An effect's function is a sequence of property reads and writes. Its return value is the sequence of values read. Arbitrary user code, `Object.assign` of unknown options, and `runner.effect` as an object are not modelled. The `onStop` option is a boolean that logs `StopHook` when set.
- Key iteration order: maps stand for property tables. `FoldPropsAnyOrder` shows the props loop does not depend on the order.
- Components: of `createComponentInstance` and `setupComponent` (src/runtime-core/component.ts) only the choice whether the instance gets a render function is modelled. A component definition records whether it has a `setup` and the vnode its `render` returns; what `setup` computes is not modelled. Props proxies and `getCurrentInstance` are parameters (`current`, `setupState`, `props`).
- Inject.NewRoot and Inject.NewChild: the code that gives a new instance its `parent` and `provides` (`createComponentInstance`) is not part of this model. These two functions state it as an assumption: a root gets a fresh empty table of its own, and a child starts out sharing its parent's table, which is what the `provides === parentProvides` test in `provide` expects.
- Transform: a node transform is a function from a node's value to its new value. A transform that mutates other nodes, or a children array in place, is not modelled.
- The transform test expects element children, and the parser never produces them. The codegen test's `transform(ast)` call passes no options, which throws (`Transform.TransformWithoutTransforms`), and nothing ever sets `codegenNode` (`Codegen.ParsedTreeHasNoCodegenNode`). Neither test scenario is modelled end to end.
- `computed`, `isRef`, `unRef`, `proxyRefs`, nested ref objects, element patching and children diffing are not in the modelled source files.
- Shared.Capitalize and Emit.HandlerName: case mapping covers ASCII letters only. Other characters are left as they are.
- Host.PatchProp, Host.EventName, Renderer.MountProp and Renderer.ApplyProps: the event name is lower-cased for ASCII letters only, where `toLowerCase` maps every Unicode letter.
- Inject.Lookup: a provides table has no `Object.prototype` at the end of its chain, so inherited names such as `toString` are never found, where `key in parentProvides` finds them.
- Inject.InjectValue: for the same reason, an inherited name gives the default or undefined, where the source returns the inherited value.
- PublicInstance.PublicGet: setup state and `publicPropertiesMap` have no inherited names. In the source `key in setupState` is true for `toString`, and `publicPropertiesMap['constructor']` is a truthy function that gets called.
- Slots.RenderSlots: an entry `initSlots` did not write is taken to be a non-function. In the source an inherited name such as `toString` is a function, and a Fragment of its result is rendered.
- Renderer.Patch and Renderer.MountChildren: an `Err` outcome carries no host. The nodes a failing mount had already appended, such as the first child of a Fragment whose second child throws, are not modelled.
- Renderer.MountChildren: array children are vnodes only. A string child, which `patch` skips because it has no shape flag, and a null child, which throws when `patch` reads its `type`, are not modelled.
- Transform.Traverse and Transform.ReplacedChildrenStillVisited: whether a transform replaced a node's children is decided by value equality, where JavaScript uses object identity. A transform that sets `node.children` to a new array sharing child objects gets those objects transformed in place in the source; the model leaves the new list untransformed.
- String, number and regular-expression semantics are used only as far as the core needs them: `slice`, `indexOf`, `trim`, `\w`, `[a-z]/i`, `Object.is` and truthiness. Strings are sequences of code points, so `slice` and `indexOf` count code points where JavaScript counts UTF-16 code units; the offsets in `Parse.UnclosedInterpolation` differ on characters outside the Basic Multilingual Plane.
- Host.AddEventListener: an element's listeners are a set of event and handler pairs, so the order in which `addEventListener` registered them is not kept.
- Reactivity.MakeProxy, Reactivity.Get and Reactivity.RefSet: a proxy is a value made of its kind and target, with no identity of its own. Two `reactive()` calls on one object, or two nested reads of one raw object, give proxies that `Object.is` tells apart and the model treats as one. So a ref write of such a second proxy changes nothing in the model, and the dependencies keyed by a proxy used as a target are shared between such proxies.
- Reactivity.Get: only own properties of raw objects are modelled. An inherited name such as `toString` or `constructor` reads as undefined and is tracked as a missing key, and a property of a primitive such as `"abc".length` reads as undefined.
- Host.CreateElement: the tag name is not validated, so an empty name or one containing a space creates an element where `document.createElement` throws an InvalidCharacterError.
- Host.AddEventListener: a handler that is a primitive other than null or undefined is registered, where `addEventListener` throws a TypeError.
- Host.PatchProp: inherits both gaps above; an event prop with a primitive handler adds a listener instead of throwing.
- Host.SetAttribute: the attribute stores the value itself, where the DOM stores `String(v)`; the number 1 and the string "1" are different attributes in the model and the same one in the DOM. Nothing in the modelled code reads an attribute back.
- Renderer.Patch: an element vnode with an invalid tag string, or with a primitive event handler, mounts in the model where the DOM call throws.
- Renderer.ProcessElement: an invalid tag string creates an element and a primitive event handler becomes a listener; the DOM throws InvalidCharacterError or TypeError there, and only a non-string type gives an `Err`.
- Renderer.MountProp: a primitive event handler other than null or undefined becomes a listener, where `addEventListener` throws a TypeError.
- Renderer.ApplyProps: as for MountProp, a primitive event handler is registered instead of throwing.

## Findings

| source | as written | input that shows it | evidently intended | confidence | as-written member | corrected member |
|---|---|---|---|---|---|---|
| src/reactivity/ref.ts:13 | the `value` getter returns before reaching `_value` when no effect is tracking | `ref(1).value` read outside any effect gives `undefined`; ref.spec.ts:48-51 expects `unRef(ref(1))` to be 1 | skip only the tracking outside an effect, and always return the stored value | not executed; high | `Reactivity.RefGetAsWritten`, `ReactiveScenarios.RefReadOutsideEffect` | `Reactivity.RefGet` |
| src/runtime-core/scheduler.ts:42-46 | `flushPreFlushCbs` never empties `activePreFlushCbs`, so every later flush runs every callback ever queued | a watchEffect that was flushed once and then stopped: any later flush request runs its function again | empty the list after each pass, so that a stopped watchEffect never runs again | not executed; high | `Reactivity.TickAsWritten`, `ReactiveScenarios.StaleCallbackRunsStoppedEffect` | `Reactivity.Tick`, `ReactiveScenarios.StoppedWatchNotRerun` |
| src/compiler-core/src/parse.ts:22 | `/[a-z]/i.test(s[1])` on the source `<` tests the string "undefined", takes `<` for a start tag, and the end-tag parse then throws on the failed match | `baseParse("<")` throws TypeError | a lone `<` is text, as when `s[1]` is any other non-letter | not executed; medium | `Parse.BaseParseAsWritten`, `Parse.LoneAngleBracket` | `Parse.BaseParse`, `Parse.ParseTextRoundTrip` |

=== FILE: codegen.dfy ===
/** Code generation (src/compiler-core/src/codegen.ts): the render function
    source for a root whose `codegenNode` holds the one node to render. The
    code is built by appending pieces to a context's `code` string; the
    node's `content` is put between single quotes as it is, without any
    escaping. */
module Codegen {
  import opened Wrappers
  import opened TemplateAst
  import Parse

  /** `createCodegenContext()`: the code built so far. */
  datatype CodegenContext = CodegenContext(code: string)

  /** `context.push(source)`: appends, and changes nothing already there. */
  function Push(c: CodegenContext, source: string): (r: CodegenContext)
    ensures c.code <= r.code && |r.code| == |c.code| + |source|
    ensures r.code[|c.code|..] == source
  {
    CodegenContext(c.code + source)
  }

  const VUE_BINDING: string := "Vue"
  const HELPERS: seq<string> := ["toDisplayString"]
  const FUNCTION_NAME: string := "render"
  const ARGS: seq<string> := ["_ctx", "_cache"]

  /** `aliasHelper(s)`: `s: _s`. */
  function AliasHelper(s: string): (r: string)
    ensures |r| == 2 * |s| + 3 && r[..|s|] == s && r[|s| + 3..] == s
  {
    s + ": _" + s
  }

  /** `Array.prototype.join(sep)`. */
  function Join(xs: seq<string>, sep: string): (r: string)
    ensures |xs| == 1 ==> r == xs[0]
  {
    if |xs| == 0 then ""
    else if |xs| == 1 then xs[0]
    else xs[0] + sep + Join(xs[1..], sep)
  }

  function MapAlias(xs: seq<string>): (r: seq<string>)
    ensures |r| == |xs| && forall i :: 0 <= i < |xs| ==> r[i] == AliasHelper(xs[i])
  {
    if |xs| == 0 then [] else [AliasHelper(xs[0])] + MapAlias(xs[1..])
  }

  /** The helper import line. */
  function Preamble(): string {
    "const { " + Join(MapAlias(HELPERS), ", ") + " } = " + VUE_BINDING
  }

  /** The import line spelled out. */
  lemma PreambleText()
    ensures Preamble() == "const { toDisplayString: _toDisplayString } = Vue"
  {
    AliasText();
    assert MapAlias(HELPERS) == ["toDisplayString: _toDisplayString"];
    PreambleJoin();
  }

  /** The two string facts `PreambleText` is assembled from, kept apart so
      that each is proved on its own. */
  lemma AliasText()
    ensures AliasHelper("toDisplayString") == "toDisplayString: _toDisplayString"
  {
  }

  lemma PreambleJoin()
    ensures "const { " + "toDisplayString: _toDisplayString" + " } = " + VUE_BINDING
      == "const { toDisplayString: _toDisplayString } = Vue"
  {
  }

  /** Everything the code holds before the node's quoted content. */
  function Head(): string {
    Preamble() + "\n" + "return " + "function " + FUNCTION_NAME + "(" + Join(ARGS, ", ") + "){" + "return "
  }

  /** What `${node.content}` spells: a text node's string; an
      interpolation's `content` is its expression object, which prints as
      `[object Object]`; other nodes have no `content`. */
  function NodeContent(n: AstNode): (r: string)
    ensures n.Text? ==> r == n.content
  {
    match n
    case Text(s) => s
    case Interpolation(_) => "[object Object]"
    case _ => "undefined"
  }

  /** `getNode(node, context)`: reading `content` of a missing node throws. */
  function GetNode(node: Option<AstNode>, c: CodegenContext): (r: Result<CodegenContext>)
    ensures node.None? <==> r == Err(TypeError)
    ensures node.Some? ==> r == Ok(Push(c, "'" + NodeContent(node.value) + "'"))
  {
    match node
    case None => Err(TypeError)
    case Some(n) => Ok(Push(c, "'" + NodeContent(n) + "'"))
  }

  /** `generate(ast)`: the `code` of the result. Only a root carries a
      `codegenNode`. */
  function Generate(ast: AstNode): (r: Result<string>)
    ensures r.Ok? <==> ast.Root? && ast.codegenNode.Some?
    ensures r.Err? ==> r.error == TypeError
    ensures r.Ok? ==> |r.value| == |Head()| + |NodeContent(ast.codegenNode.value)| + 3
  {
    var c := CodegenContext("");
    var c := Push(c, Preamble());
    var c := Push(c, "\n");
    var c := Push(c, "return ");
    var c := Push(c, "function " + FUNCTION_NAME + "(" + Join(ARGS, ", ") + "){");
    var c := Push(c, "return ");
    var node := if ast.Root? then ast.codegenNode else None;
    var c :- GetNode(node, c);
    var c := Push(c, "}");
    Ok(c.code)
  }

  /** The content back out of generated code: the text between the quote
      after the head and the closing `'}`. */
  function UnwrapRender(code: string): (r: Option<string>)
    ensures r.Some? ==> |code| == |Head()| + |r.value| + 3
  {
    var h := |Head()|;
    if |code| >= h + 3 && code[..h] == Head() && code[h] == '\'' && code[|code| - 2..] == "'}"
    then Some(code[h + 1..|code| - 2])
    else None
  }

  /** The generated code is the head, then the node's content in quotes,
      verbatim, then the end of the function. */
  lemma GenerateShape(ast: AstNode)
    requires ast.Root? && ast.codegenNode.Some?
    ensures Generate(ast) == Ok(Head() + "'" + NodeContent(ast.codegenNode.value) + "'}")
  {
    var s := NodeContent(ast.codegenNode.value);
    var tail := "function " + FUNCTION_NAME + "(" + Join(ARGS, ", ") + "){";
    assert "" + Preamble() + "\n" + "return " + tail + "return " + ("'" + s + "'") + "}"
      == Head() + "'" + s + "'}";
  }

  /** Unwrapping generated code gives back the node's content exactly,
      whatever characters it holds. */
  lemma GenerateUnwrap(ast: AstNode)
    requires ast.Root? && ast.codegenNode.Some?
    ensures Generate(ast).Ok?
    ensures UnwrapRender(Generate(ast).value) == Some(NodeContent(ast.codegenNode.value))
  {
    GenerateShape(ast);
    var s := NodeContent(ast.codegenNode.value);
    var code := Head() + "'" + s + "'}";
    var h := |Head()|;
    assert code[..h] == Head();
    assert code[h] == '\'';
    assert code[|code| - 2..] == "'}";
    assert code[h + 1..|code| - 2] == s;
  }

  /** Distinct contents give distinct code. */
  lemma GenerateInjective(a: AstNode, b: AstNode)
    requires a.Root? && a.codegenNode.Some? && b.Root? && b.codegenNode.Some?
    requires NodeContent(a.codegenNode.value) != NodeContent(b.codegenNode.value)
    ensures Generate(a) != Generate(b)
  {
    GenerateUnwrap(a);
    GenerateUnwrap(b);
  }

  /** Nothing in the parser or the transform pass sets `codegenNode`, so
      generating code for a parsed tree throws. */
  lemma ParsedTreeHasNoCodegenNode(src: string)
    requires Parse.BaseParse(src).Ok?
    ensures Generate(Parse.BaseParse(src).value) == Err(TypeError)
  {
  }
}

=== FILE: emit.dfy ===
/** `emit` (src/runtime-core/componentEmit.ts): an event name such as
    `add-foo` is turned into the prop name `onAddFoo`, and the handler
    found there, if any, is called with the emitted arguments. The file
    defines its own copies of camelize, capitalize and toHandlerKey; they
    behave as the shared ones, which are used here. */
module Emit {
  import opened Values
  import opened Wrappers
  import opened Shared

  /** A call of a user handler with its arguments. */
  datatype Call = Call(handler: Value, args: seq<Value>)

  /** The prop name the handler of `event` lives under. Capitalizing the
      empty string reads `undefined.toUpperCase` and throws. */
  function HandlerName(event: string): (r: Result<string>)
    ensures r.Ok? <==> |event| > 0
    ensures r.Ok? ==> |r.value| >= 3 && r.value[..2] == "on" && !IsLower(r.value[2])
    ensures r.Ok? ==> |r.value| == |Camelize(event)| + 2
    ensures r.Ok? ==> r.value[2] == Upper(Camelize(event)[0]) && r.value[3..] == Camelize(event)[1..]
  {
    var name := Camelize(event);
    if |name| == 0 then Err(TypeError) else Ok(ToHandlerKey(name))
  }

  /** `emit(instance, event, ...args)` over the instance's props: a truthy
      handler is called once with the arguments in order (a truthy
      non-function throws when called); a missing or falsy one is skipped.
      The props themselves are never written. */
  function EmitEvent(props: map<string, Value>, event: string, args: seq<Value>): (r: Result<Option<Call>>)
    ensures |event| == 0 ==> r == Err(TypeError)
    ensures r.Ok? && r.value.Some? ==>
      && HandlerName(event).Ok? && HandlerName(event).value in props
      && r.value.value == Call(props[HandlerName(event).value], args)
      && TypeOf(r.value.value.handler) == "function"
    ensures r.Ok? && r.value.None? ==>
      HandlerName(event).Ok? && (HandlerName(event).value !in props || !Truthy(props[HandlerName(event).value]))
    ensures |event| > 0 && HandlerName(event).value in props ==>
      var h := props[HandlerName(event).value];
      && (Truthy(h) && TypeOf(h) == "function" ==> r == Ok(Some(Call(h, args))))
      && (!Truthy(h) ==> r == Ok(None))
      && (Truthy(h) && TypeOf(h) != "function" ==> r == Err(TypeError))
    ensures |event| > 0 && HandlerName(event).value !in props ==> r == Ok(None)
  {
    var name :- HandlerName(event);
    var handler := if name in props then props[name] else Undefined;
    if !Truthy(handler) then Ok(None)
    else if TypeOf(handler) == "function" then Ok(Some(Call(handler, args)))
    else Err(TypeError)
  }

  /** The names of the emit example: `add` reaches `onAdd` and `add-foo`
      reaches `onAddFoo`. */
  lemma HandlerNameExamples()
    ensures HandlerName("add") == Ok("onAdd")
    ensures HandlerName("add-foo") == Ok("onAddFoo")
  {
    HandlerNameAdd();
    HandlerNameAddFoo();
  }

  lemma HandlerNameAdd()
    ensures HandlerName("add") == Ok("onAdd")
  {
    CamelizeExamples();
    HandlerNameOf("add", "add", "Add");
    assert "on" + "Add" == "onAdd";
  }

  lemma HandlerNameAddFoo()
    ensures HandlerName("add-foo") == Ok("onAddFoo")
  {
    CamelizeAddFoo();
    HandlerNameOf("add-foo", "addFoo", "AddFoo");
    OnAddFoo();
  }

  /** The string fact `HandlerNameAddFoo` ends with, proved on its own. */
  lemma OnAddFoo()
    ensures "on" + "AddFoo" == "onAddFoo"
  {
  }

  lemma HandlerNameOf(event: string, camel: string, c: string)
    requires Camelize(event) == camel && |camel| > 0
    requires |c| == |camel| && c[0] == Upper(camel[0]) && c[1..] == camel[1..]
    ensures HandlerName(event) == Ok("on" + c)
  {
    CapitalizeExample(camel, c);
  }

  lemma CapitalizeExample(s: string, c: string)
    requires |s| > 0 && |c| == |s| && c[0] == Upper(s[0]) && c[1..] == s[1..]
    ensures ToHandlerKey(s) == "on" + c
  {
    assert Capitalize(s) == c;
  }

  /** Emitting the hyphenated spelling of a camel-case name reaches the
      same handler as the name itself. */
  lemma HyphenatedReachesSameHandler(name: string)
    requires |name| > 0 && '-' !in name
    ensures HandlerName(Hyphenate(name)) == HandlerName(name) == Ok(ToHandlerKey(name))
  {
    CamelizeHyphenate(name);
  }

  /** With a function under `onAddFoo`, `emit('add-foo', 1, 2)` calls it
      once with 1 and 2; with nothing there the emit does nothing. */
  lemma EmitExample(props: map<string, Value>, f: Value, args: seq<Value>)
    requires f.Func?
    ensures EmitEvent(props["onAddFoo" := f], "add-foo", args) == Ok(Some(Call(f, args)))
    ensures "onAddFoo" !in props ==> EmitEvent(props, "add-foo", args) == Ok(None)
  {
    HandlerNameExamples();
  }
}

=== FILE: host.dfy ===
/** An abstract host tree standing for the DOM, with the operations the
    renderer and the DOM adapter (src/runtime-dom/index.ts) perform on it:
    create an element or a text node, append a node to a parent, set an
    element's text, set or remove an attribute, add an event listener. */
module Host {
  import opened Values
  import opened Wrappers
  import opened Shared

  type NodeId = nat

  /** Listeners form a set of (event, handler) pairs, as `addEventListener`
      ignores a second registration of the same pair. */
  datatype NodeData =
    | Element(tag: string, attrs: map<string, Value>, listeners: set<(string, Value)>, children: seq<NodeId>)
    | TextNode(text: string)

  datatype Node = Node(parent: Option<NodeId>, data: NodeData)

  /** The node store; `next` is the identity the next created node gets. */
  datatype Host = Host(nodes: map<NodeId, Node>, next: NodeId)

  predicate Valid(h: Host) {
    forall id :: id in h.nodes ==> id < h.next
  }

  predicate IsElement(h: Host, id: NodeId) {
    id in h.nodes && h.nodes[id].data.Element?
  }

  function Without(s: seq<NodeId>, x: NodeId): (r: seq<NodeId>)
    ensures forall y :: y in r <==> y in s && y != x
  {
    if |s| == 0 then [] else if s[0] == x then Without(s[1..], x) else [s[0]] + Without(s[1..], x)
  }

  // ---------------------------------------------------------------------
  // Node creation

  /** `document.createElement(tag)`: a fresh element with no attributes,
      listeners, children or parent. */
  function CreateElement(h: Host, tag: string): (r: (Host, NodeId))
    requires Valid(h)
    ensures Valid(r.0) && r.1 == h.next && r.0.next == h.next + 1
    ensures r.0.nodes == h.nodes[h.next := Node(None, Element(tag, map[], {}, []))]
  {
    (Host(h.nodes[h.next := Node(None, Element(tag, map[], {}, []))], h.next + 1), h.next)
  }

  /** `document.createTextNode(text)`. */
  function CreateText(h: Host, text: string): (r: (Host, NodeId))
    requires Valid(h)
    ensures Valid(r.0) && r.1 == h.next && r.0.next == h.next + 1
    ensures r.0.nodes == h.nodes[h.next := Node(None, TextNode(text))]
  {
    (Host(h.nodes[h.next := Node(None, TextNode(text))], h.next + 1), h.next)
  }

  // ---------------------------------------------------------------------
  // Tree edits

  /** Removes `child` from the child list of its current parent, if any. */
  function Detach(h: Host, child: NodeId): (r: Host)
    requires Valid(h) && child in h.nodes
    ensures Valid(r) && r.next == h.next && r.nodes.Keys == h.nodes.Keys
    ensures h.nodes[child].parent == None ==> r == h
  {
    var p := h.nodes[child].parent;
    if p.Some? && IsElement(h, p.value) then
      var pn := h.nodes[p.value];
      Host(h.nodes[p.value := pn.(data := pn.data.(children := Without(pn.data.children, child)))], h.next)
    else h
  }

  /** `parent.append(child)`: the child leaves its previous parent and
      becomes the last child of `parent`. */
  function Append(h: Host, parent: NodeId, child: NodeId): (r: Host)
    requires Valid(h) && IsElement(h, parent) && child in h.nodes && child != parent
    ensures Valid(r) && r.next == h.next && r.nodes.Keys == h.nodes.Keys
    ensures IsElement(r, parent) && r.nodes[child].parent == Some(parent)
    ensures h.nodes[child].parent == None ==>
      && r.nodes[parent] == h.nodes[parent].(data := h.nodes[parent].data.(children := h.nodes[parent].data.children + [child]))
      && r.nodes[child] == h.nodes[child].(parent := Some(parent))
      && (forall id :: id in h.nodes && id != parent && id != child ==> r.nodes[id] == h.nodes[id])
  {
    var h1 := Detach(h, child);
    var pn := h1.nodes[parent];
    var cn := h1.nodes[child];
    Host(h1.nodes[parent := pn.(data := pn.data.(children := pn.data.children + [child]))]
                 [child := cn.(parent := Some(parent))], h1.next)
  }

  /** The `textContent` setter on an element: every previous child is
      detached; a non-empty string becomes the one text child. */
  function SetElementText(h: Host, el: NodeId, text: string): (r: Host)
    requires Valid(h) && IsElement(h, el)
    ensures Valid(r) && IsElement(r, el) && h.next <= r.next
    ensures r.nodes[el].data == h.nodes[el].data.(children := r.nodes[el].data.children)
    ensures r.nodes[el].parent == h.nodes[el].parent
    ensures text == "" ==> r.nodes[el].data.children == []
    ensures text != "" ==>
      (&& |r.nodes[el].data.children| == 1
       && r.nodes[el].data.children[0] in r.nodes
       && r.nodes[r.nodes[el].data.children[0]].data == TextNode(text))
    ensures text == "" ==> r.next == h.next && r.nodes.Keys == h.nodes.Keys
    ensures text != "" ==>
      && h.next !in h.nodes && r.next == h.next + 1 && r.nodes.Keys == h.nodes.Keys + {h.next}
      && r.nodes[el].data.children == [h.next] && r.nodes[h.next] == Node(Some(el), TextNode(text))
    ensures forall c :: c in h.nodes[el].data.children && c != el && c in h.nodes ==> r.nodes[c] == h.nodes[c].(parent := None)
    ensures forall id :: id in h.nodes && id != el && id !in h.nodes[el].data.children ==> r.nodes[id] == h.nodes[id]
  {
    var old_ := h.nodes[el].data.children;
    var detached := map id | id in h.nodes :: if id in old_ && id != el then h.nodes[id].(parent := None) else h.nodes[id];
    var h1 := Host(detached, h.next);
    if text == "" then
      Host(h1.nodes[el := h.nodes[el].(data := h.nodes[el].data.(children := []))], h1.next)
    else
      var t := h1.next;
      Host(h1.nodes[t := Node(Some(el), TextNode(text))][el := h.nodes[el].(data := h.nodes[el].data.(children := [t]))], t + 1)
  }

  /** The text of an element's text children, in order: its `textContent`
      when it has no element children. */
  function ChildText(h: Host, ids: seq<NodeId>): string {
    if |ids| == 0 then ""
    else
      var first := if ids[0] in h.nodes && h.nodes[ids[0]].data.TextNode? then h.nodes[ids[0]].data.text else "";
      first + ChildText(h, ids[1..])
  }

  /** Setting `textContent` and reading it back gives the same string: the
      element is left with text children only, holding exactly `text`. */
  lemma SetElementTextRoundTrip(h: Host, el: NodeId, text: string)
    requires Valid(h) && IsElement(h, el)
    ensures var r := SetElementText(h, el, text);
      && (forall c :: c in r.nodes[el].data.children ==> c in r.nodes && r.nodes[c].data.TextNode?)
      && ChildText(r, r.nodes[el].data.children) == text
  {
  }

  /** `el.setAttribute(key, v)`: the attribute is set, replacing any
      earlier value; nothing else changes. */
  function SetAttribute(h: Host, el: NodeId, key: string, v: Value): (r: Host)
    requires Valid(h) && IsElement(h, el)
    ensures Valid(r) && IsElement(r, el) && r.next == h.next && r.nodes.Keys == h.nodes.Keys
    ensures key in r.nodes[el].data.attrs && r.nodes[el].data.attrs[key] == v
    ensures forall k :: k != key ==> (k in r.nodes[el].data.attrs <==> k in h.nodes[el].data.attrs)
    ensures forall k :: k != key && k in h.nodes[el].data.attrs ==> r.nodes[el].data.attrs[k] == h.nodes[el].data.attrs[k]
    ensures r.nodes[el] == h.nodes[el].(data := h.nodes[el].data.(attrs := r.nodes[el].data.attrs))
    ensures forall id :: id in h.nodes && id != el ==> r.nodes[id] == h.nodes[id]
  {
    var n := h.nodes[el];
    Host(h.nodes[el := n.(data := n.data.(attrs := n.data.attrs[key := v]))], h.next)
  }

  /** `el.removeAttribute(key)`: the attribute is gone, whether or not it
      was there; nothing else changes. */
  function RemoveAttribute(h: Host, el: NodeId, key: string): (r: Host)
    requires Valid(h) && IsElement(h, el)
    ensures Valid(r) && IsElement(r, el) && r.next == h.next && r.nodes.Keys == h.nodes.Keys
    ensures key !in r.nodes[el].data.attrs
    ensures forall k :: k != key ==> (k in r.nodes[el].data.attrs <==> k in h.nodes[el].data.attrs)
    ensures forall k :: k != key && k in h.nodes[el].data.attrs ==> r.nodes[el].data.attrs[k] == h.nodes[el].data.attrs[k]
    ensures r.nodes[el] == h.nodes[el].(data := h.nodes[el].data.(attrs := r.nodes[el].data.attrs))
    ensures forall id :: id in h.nodes && id != el ==> r.nodes[id] == h.nodes[id]
  {
    var n := h.nodes[el];
    Host(h.nodes[el := n.(data := n.data.(attrs := n.data.attrs - {key}))], h.next)
  }

  /** `addEventListener(event, handler)`: a null or undefined handler
      registers nothing. */
  function AddEventListener(h: Host, el: NodeId, event: string, handler: Value): (r: Host)
    requires Valid(h) && IsElement(h, el)
    ensures Valid(r) && IsElement(r, el) && r.next == h.next && r.nodes.Keys == h.nodes.Keys
    ensures handler.Null? || handler.Undefined? ==> r == h
    ensures !handler.Null? && !handler.Undefined? ==>
      r.nodes[el].data.listeners == h.nodes[el].data.listeners + {(event, handler)}
    ensures r.nodes[el] == h.nodes[el].(data := h.nodes[el].data.(listeners := r.nodes[el].data.listeners))
    ensures forall id :: id in h.nodes && id != el ==> r.nodes[id] == h.nodes[id]
  {
    if handler.Null? || handler.Undefined? then h
    else
      var n := h.nodes[el];
      Host(h.nodes[el := n.(data := n.data.(listeners := n.data.listeners + {(event, handler)}))], h.next)
  }

  // ---------------------------------------------------------------------
  // Event-shaped prop keys

  /** `/^on[A-Z]/.test(key)`. */
  predicate IsOn(key: string) {
    |key| >= 3 && key[0] == 'o' && key[1] == 'n' && IsUpper(key[2])
  }

  /** `key.slice(2).toLowerCase()`. */
  function EventName(key: string): (r: string)
    requires |key| >= 2
    ensures |r| == |key| - 2
    ensures forall i :: 0 <= i < |r| ==> r[i] == Lower(key[i + 2])
  {
    LowerAll(key[2..])
  }

  /** The handler key emit derives for an event is event-shaped exactly when
      the event starts with a letter, and the renderer maps it back to the
      lower-cased event name. */
  lemma HandlerKeyRoundTrip(event: string)
    requires |event| > 0
    ensures IsOn(ToHandlerKey(event)) <==> IsLetter(event[0])
    ensures EventName(ToHandlerKey(event)) == LowerAll(event)
  {
    var k := ToHandlerKey(event);
    assert k[2..] == [Upper(event[0])] + event[1..];
  }

  // ---------------------------------------------------------------------
  // The DOM adapter

  /** `patchProp(el, key, prevVal, nextVal)`: an event-shaped key adds a
      listener; otherwise a falsy value removes the attribute and a truthy
      one sets it. The previous value is not consulted. */
  function PatchProp(h: Host, el: NodeId, key: string, prevVal: Value, nextVal: Value): (r: Host)
    requires Valid(h) && IsElement(h, el)
    ensures Valid(r) && IsElement(r, el) && r.next == h.next && r.nodes.Keys == h.nodes.Keys
    ensures forall id :: id in h.nodes && id != el ==> r.nodes[id] == h.nodes[id]
    ensures r.nodes[el].parent == h.nodes[el].parent
    ensures r.nodes[el].data.tag == h.nodes[el].data.tag
    ensures r.nodes[el].data.children == h.nodes[el].data.children
    ensures h.nodes[el].data.listeners <= r.nodes[el].data.listeners
    ensures IsOn(key) ==>
      && r.nodes[el].data.attrs == h.nodes[el].data.attrs
      && r.nodes[el].data.listeners ==
           h.nodes[el].data.listeners + (if nextVal.Null? || nextVal.Undefined? then {} else {(EventName(key), nextVal)})
    ensures !IsOn(key) ==> r.nodes[el].data.listeners == h.nodes[el].data.listeners
    ensures !IsOn(key) && !Truthy(nextVal) ==> r.nodes[el].data.attrs == h.nodes[el].data.attrs - {key}
    ensures !IsOn(key) && Truthy(nextVal) ==> r.nodes[el].data.attrs == h.nodes[el].data.attrs[key := nextVal]
  {
    if IsOn(key) then AddEventListener(h, el, EventName(key), nextVal)
    else if !Truthy(nextVal) then RemoveAttribute(h, el, key)
    else SetAttribute(h, el, key, nextVal)
  }

  /** Applying the same prop twice is the same as applying it once, and the
      previous value makes no difference. */
  lemma PatchPropIdempotent(h: Host, el: NodeId, key: string, p1: Value, p2: Value, nextVal: Value)
    requires Valid(h) && IsElement(h, el)
    ensures PatchProp(PatchProp(h, el, key, p1, nextVal), el, key, p2, nextVal) == PatchProp(h, el, key, p1, nextVal)
    ensures PatchProp(h, el, key, p1, nextVal) == PatchProp(h, el, key, p2, nextVal)
  {
    var r1 := PatchProp(h, el, key, p1, nextVal);
    var r2 := PatchProp(r1, el, key, p2, nextVal);
    assert r2.nodes[el] == r1.nodes[el];
    assert r2.nodes == r1.nodes;
  }

  /** `insert(el, parent)`: `parent.append(el)`. The node leaves the child
      list of its previous parent, keeping the order of the others, and
      becomes the last child of `parent`; no other node changes. */
  function Insert(h: Host, el: NodeId, parent: NodeId): (r: Host)
    requires Valid(h) && IsElement(h, parent) && el in h.nodes && el != parent
    ensures Valid(r) && IsElement(r, parent) && r.next == h.next && r.nodes.Keys == h.nodes.Keys
    ensures r.nodes[el].parent == Some(parent)
    ensures h.nodes[el].parent != Some(el) ==> r.nodes[el] == h.nodes[el].(parent := Some(parent))
    ensures r.nodes[parent] == h.nodes[parent].(data := h.nodes[parent].data.(children := r.nodes[parent].data.children))
    ensures h.nodes[el].parent == Some(parent) ==>
      r.nodes[parent].data.children == Without(h.nodes[parent].data.children, el) + [el]
    ensures h.nodes[el].parent != Some(parent) ==>
      r.nodes[parent].data.children == h.nodes[parent].data.children + [el]
    ensures el !in h.nodes[parent].data.children || h.nodes[el].parent == Some(parent) ==>
      r.nodes[parent].data.children == Without(h.nodes[parent].data.children, el) + [el]
    ensures var p := h.nodes[el].parent;
      p.Some? && p.value != parent && p.value != el && IsElement(h, p.value) ==>
        r.nodes[p.value] == h.nodes[p.value].(data := h.nodes[p.value].data.(children := Without(h.nodes[p.value].data.children, el)))
    ensures forall id :: id in h.nodes && id != el && id != parent && h.nodes[el].parent != Some(id) ==> r.nodes[id] == h.nodes[id]
  {
    WithoutAbsent(h.nodes[parent].data.children, el);
    Append(h, parent, el)
  }

  lemma WithoutAbsent(s: seq<NodeId>, x: NodeId)
    ensures x !in s ==> Without(s, x) == s
  {
  }

  /** Inserting twice is inserting once, in a host where a node listed as
      a child of `parent` has `parent` as its parent, as in every DOM tree. */
  lemma InsertIdempotent(h: Host, el: NodeId, parent: NodeId)
    requires Valid(h) && IsElement(h, parent) && el in h.nodes && el != parent
    requires el in h.nodes[parent].data.children ==> h.nodes[el].parent == Some(parent)
    ensures Insert(Insert(h, el, parent), el, parent) == Insert(h, el, parent)
  {
    var r1 := Insert(h, el, parent);
    var r2 := Insert(r1, el, parent);
    var kids := r1.nodes[parent].data.children;
    var w := Without(h.nodes[parent].data.children, el);
    assert kids == w + [el];
    assert el !in w;
    WithoutAppend(w, el);
    WithoutAbsent(w, el);
    assert r2.nodes[parent] == r1.nodes[parent];
    assert r2.nodes[el] == r1.nodes[el];
    assert r2.nodes == r1.nodes;
  }

  lemma WithoutAppend(s: seq<NodeId>, x: NodeId)
    ensures Without(s + [x], x) == Without(s, x)
  {
    if |s| > 0 {
      assert (s + [x])[1..] == s[1..] + [x];
      WithoutAppend(s[1..], x);
    } else {
      assert [x][1..] == [];
    }
  }
}

=== FILE: inject.dfy ===
/** provide/inject (packages/runtime-core/src/apiInject.ts). Each component
    instance points at a `provides` table; a table has own entries and may
    delegate missing keys to a prototype table (`Object.create`). A child
    instance starts with its parent's table (the aliasing the copy-on-first-
    provide test relies on); its first `provide` gives it a fresh table that
    delegates to the parent's. Tables live in one store and are named by
    their index; a table's prototype always has a smaller index, because
    `Object.create` can only delegate to a table that already exists. */
module Inject {
  import opened Values
  import opened Wrappers
  import Shared

  type TableId = nat
  type InstanceId = nat

  datatype Table = Table(own: map<string, Value>, proto: Option<TableId>)
  datatype Instance = Instance(parent: Option<InstanceId>, table: TableId)
  datatype Tree = Tree(tables: seq<Table>, instances: seq<Instance>)

  /** Prototypes and parents were created before what points at them. */
  predicate Valid(t: Tree) {
    && (forall i :: 0 <= i < |t.tables| && t.tables[i].proto.Some? ==> t.tables[i].proto.value < i)
    && (forall c :: 0 <= c < |t.instances| ==> t.instances[c].table < |t.tables|)
    && (forall c :: 0 <= c < |t.instances| && t.instances[c].parent.Some? ==> t.instances[c].parent.value < c)
  }

  /** A root instance with a fresh empty table. */
  function NewRoot(t: Tree): (r: (Tree, InstanceId))
    requires Valid(t)
    ensures Valid(r.0) && r.1 == |t.instances| && |r.0.instances| == r.1 + 1 && r.0.instances[r.1].parent == None
    ensures r.0.tables == t.tables + [Table(map[], None)] && r.0.instances[r.1].table == |t.tables|
  {
    (Tree(t.tables + [Table(map[], None)], t.instances + [Instance(None, |t.tables|)]), |t.instances|)
  }

  /** A child instance, sharing its parent's table. */
  function NewChild(t: Tree, parent: InstanceId): (r: (Tree, InstanceId))
    requires Valid(t) && parent < |t.instances|
    ensures Valid(r.0) && r.1 == |t.instances| && r.0.tables == t.tables
    ensures r.0.instances == t.instances + [Instance(Some(parent), t.instances[parent].table)]
  {
    (t.(instances := t.instances + [Instance(Some(parent), t.instances[parent].table)]), |t.instances|)
  }

  /** `key in table` followed by `table[key]`: the first table along the
      prototype chain that owns the key answers. */
  function Lookup(t: Tree, tid: TableId, key: string): (r: Option<Value>)
    requires Valid(t) && tid < |t.tables|
    ensures key in t.tables[tid].own ==> r == Some(t.tables[tid].own[key])
    ensures t.tables[tid].proto.None? && key !in t.tables[tid].own ==> r == None
    decreases tid
  {
    var tb := t.tables[tid];
    if key in tb.own then Some(tb.own[key])
    else if tb.proto.None? then None
    else Lookup(t, tb.proto.value, key)
  }

  /** The prototype chain from a table: the table, its prototype, and so on. */
  function Chain(t: Tree, tid: TableId): (r: seq<TableId>)
    requires Valid(t) && tid < |t.tables|
    ensures |r| > 0 && r[0] == tid
    ensures forall j :: 0 <= j < |r| ==> r[j] < |t.tables| && r[j] <= tid
    decreases tid
  {
    var tb := t.tables[tid];
    if tb.proto.None? then [tid] else [tid] + Chain(t, tb.proto.value)
  }

  /** `hasOwn` consults one table where `key in` walks the prototype chain.
      On a table that owns the key the two agree; a table created empty
      over it, as `Object.create(parentProvides)` creates one, does not own
      the key, yet the lookup through it finds the same value. */
  lemma InheritedIsNotOwn(t: Tree, p: TableId, key: string)
    requires Valid(t) && p < |t.tables| && Shared.HasOwn(t.tables[p].own, key)
    ensures Lookup(t, p, key) == Some(t.tables[p].own[key])
    ensures var t' := t.(tables := t.tables + [Table(map[], Some(p))]);
      && Valid(t')
      && !Shared.HasOwn(t'.tables[|t.tables|].own, key)
      && Lookup(t', |t.tables|, key) == Some(t.tables[p].own[key])
  {
  }

  /** The key's owner is the `j`th table of the chain, and no table before it
      owns the key. */
  ghost predicate FirstOwner(t: Tree, chain: seq<TableId>, j: nat, key: string)
    requires forall i :: 0 <= i < |chain| ==> chain[i] < |t.tables|
  {
    && j < |chain| && key in t.tables[chain[j]].own
    && forall i :: 0 <= i < j ==> key !in t.tables[chain[i]].own
  }

  /** `provide(key, value)`. Without a current instance nothing happens. An
      instance still sharing its parent's table first gets a fresh table
      delegating to the parent's; a root compares its table with a fresh
      `{}` and so always writes in place. */
  function Provide(t: Tree, current: Option<InstanceId>, key: string, value: Value): (r: Tree)
    requires Valid(t) && (current.Some? ==> current.value < |t.instances|)
    ensures Valid(r) && |r.instances| == |t.instances|
    ensures current.None? ==> r == t
    ensures current.Some? ==>
      var c := current.value;
      var own := r.instances[c].table;
      && own < |r.tables| && |r.tables| >= |t.tables|
      && key in r.tables[own].own && r.tables[own].own[key] == value
      && (forall x :: 0 <= x < |t.instances| && x != c ==> r.instances[x] == t.instances[x])
      && (forall i :: 0 <= i < |t.tables| && i != own ==> r.tables[i] == t.tables[i])
  {
    if current.None? then t
    else
      var c := current.value;
      var inst := t.instances[c];
      var shared := inst.parent.Some? && inst.table == t.instances[inst.parent.value].table;
      if shared then
        var newId := |t.tables|;
        var tb := Table(map[key := value], Some(inst.table));
        Tree(t.tables + [tb], t.instances[c := inst.(table := newId)])
      else
        var tb := t.tables[inst.table];
        t.(tables := t.tables[inst.table := tb.(own := tb.own[key := value])])
  }

  /** What `inject` returns: a provided value, the default as given, the
      result of calling a function default, or `undefined`. */
  datatype Injected = Found(v: Value) | DefaultValue(v: Value) | DefaultCalled(f: Value) | NotFound

  /** `inject(key, defaultVal)`: without a current instance, `undefined`.
      Otherwise the PARENT's table is consulted, so a root instance reads
      `null.provides` and throws. A missing key falls back to a truthy
      default, called when it is a function. */
  function InjectValue(t: Tree, current: Option<InstanceId>, key: string, default: Value): (r: Result<Injected>)
    requires Valid(t) && (current.Some? ==> current.value < |t.instances|)
    ensures current.None? ==> r == Ok(NotFound)
    ensures current.Some? && t.instances[current.value].parent.None? ==> r == Err(TypeError)
    ensures r.Ok? && r.value.Found? ==>
      var p := t.instances[current.value].parent.value;
      Lookup(t, t.instances[p].table, key) == Some(r.value.v)
    ensures r.Ok? && (r.value.DefaultValue? || r.value.DefaultCalled?) ==>
      Truthy(default) && Lookup(t, t.instances[t.instances[current.value].parent.value].table, key).None?
    ensures r.Ok? && r.value.DefaultCalled? ==> TypeOf(default) == "function" && r.value.f == default
    ensures r.Ok? && r.value.DefaultValue? ==> TypeOf(default) != "function" && r.value.v == default
    ensures r.Ok? && r.value.NotFound? && current.Some? ==> !Truthy(default)
    ensures current.Some? && t.instances[current.value].parent.Some? ==>
      var found := Lookup(t, t.instances[t.instances[current.value].parent.value].table, key);
      && r.Ok?
      && (found.Some? ==> r == Ok(Found(found.value)))
      && (found.None? && Truthy(default) && TypeOf(default) == "function" ==> r == Ok(DefaultCalled(default)))
      && (found.None? && Truthy(default) && TypeOf(default) != "function" ==> r == Ok(DefaultValue(default)))
      && (found.None? && !Truthy(default) ==> r == Ok(NotFound))
  {
    if current.None? then Ok(NotFound)
    else
      var inst := t.instances[current.value];
      if inst.parent.None? then Err(TypeError)
      else
        match Lookup(t, t.instances[inst.parent.value].table, key)
        case Some(v) => Ok(Found(v))
        case None =>
          if !Truthy(default) then Ok(NotFound)
          else if TypeOf(default) == "function" then Ok(DefaultCalled(default))
          else Ok(DefaultValue(default))
  }

  // ---------------------------------------------------------------------
  // Lookup along the chain

  /** `Lookup` finds exactly the first owner along the prototype chain. */
  lemma {:induction false} LookupIsFirstOwner(t: Tree, tid: TableId, key: string)
    requires Valid(t) && tid < |t.tables|
    ensures Lookup(t, tid, key).Some? <==> exists j: nat :: FirstOwner(t, Chain(t, tid), j, key)
    ensures forall j: nat :: FirstOwner(t, Chain(t, tid), j, key) ==>
      Lookup(t, tid, key) == Some(t.tables[Chain(t, tid)[j]].own[key])
    decreases tid
  {
    var tb := t.tables[tid];
    var ch := Chain(t, tid);
    if key in tb.own {
      assert FirstOwner(t, Chain(t, tid), 0, key);
      assert exists j: nat :: FirstOwner(t, Chain(t, tid), j, key);
      assert forall j: nat :: FirstOwner(t, ch, j, key) ==> j == 0;
    } else if tb.proto.None? {
      forall j: nat | j < |ch| ensures !FirstOwner(t, ch, j, key) {
        assert ch == [tid];
      }
    } else {
      var p := tb.proto.value;
      LookupIsFirstOwner(t, p, key);
      var rest := Chain(t, p);
      assert ch == [tid] + rest;
      forall j: nat | FirstOwner(t, ch, j, key)
        ensures j > 0 && FirstOwner(t, rest, j - 1, key)
      {
        assert j != 0;
        forall i | 0 <= i < j - 1 ensures key !in t.tables[rest[i]].own {
          assert rest[i] == ch[i + 1];
        }
      }
      forall j: nat | FirstOwner(t, rest, j, key) ensures FirstOwner(t, ch, j + 1, key) {
        forall i | 0 <= i < j + 1 ensures key !in t.tables[ch[i]].own {
          if i > 0 { assert ch[i] == rest[i - 1]; }
        }
      }
      if Lookup(t, tid, key).Some? {
        var j: nat :| FirstOwner(t, rest, j, key);
        assert FirstOwner(t, ch, j + 1, key);
      }
    }
  }

  /** Lookups only read tables at or below the start of the chain, so a
      change above it is invisible. */
  lemma {:induction false} LookupFrame(t: Tree, t': Tree, tid: TableId, key: string)
    requires Valid(t) && Valid(t') && tid < |t.tables| && tid < |t'.tables|
    requires forall i :: 0 <= i <= tid ==> t'.tables[i] == t.tables[i]
    ensures Lookup(t', tid, key) == Lookup(t, tid, key)
    decreases tid
  {
    var tb := t.tables[tid];
    if key !in tb.own && tb.proto.Some? {
      LookupFrame(t, t', tb.proto.value, key);
    }
  }

  // ---------------------------------------------------------------------
  // What provide promises

  /** A `provide` never writes to the parent's table: the copy happens
      exactly when the instance still shares it. */
  lemma ProvideSparesParent(t: Tree, c: InstanceId, key: string, value: Value)
    requires Valid(t) && c < |t.instances| && t.instances[c].parent.Some?
    ensures var p := t.instances[c].parent.value;
      var r := Provide(t, Some(c), key, value);
      && r.tables[t.instances[p].table] == t.tables[t.instances[p].table]
      && r.instances[p] == t.instances[p]
      && (t.instances[c].table == t.instances[p].table <==> |r.tables| == |t.tables| + 1)
  {
  }

  /** A root writes into its own table and creates none. */
  lemma ProvideAtRootInPlace(t: Tree, c: InstanceId, key: string, value: Value)
    requires Valid(t) && c < |t.instances| && t.instances[c].parent.None?
    ensures var r := Provide(t, Some(c), key, value);
      && r.instances == t.instances && |r.tables| == |t.tables|
      && r.tables[t.instances[c].table].own == t.tables[t.instances[c].table].own[key := value]
  {
  }

  /** After `provide(key, value)` the instance's own table answers `value`
      for the key and answers every other key as before: the fresh table
      delegates to the one the instance was sharing. */
  lemma ProvideOverrides(t: Tree, c: InstanceId, key: string, value: Value, other: string)
    requires Valid(t) && c < |t.instances| && other != key
    ensures var r := Provide(t, Some(c), key, value);
      && Lookup(r, r.instances[c].table, key) == Some(value)
      && Lookup(r, r.instances[c].table, other) == Lookup(t, t.instances[c].table, other)
  {
    var r := Provide(t, Some(c), key, value);
    var old_tid := t.instances[c].table;
    if r.instances[c].table != old_tid {
      LookupFrame(t, r, old_tid, other);
    } else {
      var tb := t.tables[old_tid];
      if other !in tb.own && tb.proto.Some? {
        LookupFrame(t, r, tb.proto.value, other);
      }
    }
  }

  /** `inject` does not see the caller's own provisions: a `provide` in an
      instance whose table is its parent's or was created after it leaves
      every later `inject` in that instance unchanged. */
  lemma InjectIgnoresOwnProvide(t: Tree, c: InstanceId, key: string, value: Value, k: string, default: Value)
    requires Valid(t) && c < |t.instances| && t.instances[c].parent.Some?
    requires var p := t.instances[c].parent.value;
      t.instances[c].table >= t.instances[p].table
    ensures var r := Provide(t, Some(c), key, value);
      InjectValue(r, Some(c), k, default) == InjectValue(t, Some(c), k, default)
  {
    var r := Provide(t, Some(c), key, value);
    var p := t.instances[c].parent.value;
    LookupFrame(t, r, t.instances[p].table, k);
  }

  // ---------------------------------------------------------------------
  // The provide/inject example: Provider1 > Provider2 > Customer

  /** Provider1 provides key1 and key2; Provider2 provides its own key1 and
      still injects its parent's; Customer sees Provider2's key1, Provider1's
      key2, and the defaults for the keys nobody provides. */
  lemma ProviderExample(t0: Tree, val1: Value, val2: Value, newVal1: Value, val3: Value, val4: Value)
    requires Valid(t0) && Truthy(val3) && TypeOf(val3) != "function" && val4.Func?
    ensures
      var (t1, p1) := NewRoot(t0);
      var t2 := Provide(Provide(t1, Some(p1), "key1", val1), Some(p1), "key2", val2);
      var (t3, p2) := NewChild(t2, p1);
      var t4 := Provide(t3, Some(p2), "key1", newVal1);
      var (t5, cu) := NewChild(t4, p2);
      && InjectValue(t4, Some(p2), "key1", Undefined) == Ok(Found(val1))
      && InjectValue(t5, Some(cu), "key1", Undefined) == Ok(Found(newVal1))
      && InjectValue(t5, Some(cu), "key2", Undefined) == Ok(Found(val2))
      && InjectValue(t5, Some(cu), "key3", val3) == Ok(DefaultValue(val3))
      && InjectValue(t5, Some(cu), "key4", val4) == Ok(DefaultCalled(val4))
  {
    var (t1, p1) := NewRoot(t0);
    var root := |t0.tables|;
    var t2 := Provide(Provide(t1, Some(p1), "key1", val1), Some(p1), "key2", val2);
    assert t2.tables[root] == Table(map["key1" := val1, "key2" := val2], None);
    var (t3, p2) := NewChild(t2, p1);
    var t4 := Provide(t3, Some(p2), "key1", newVal1);
    assert t4.tables[root + 1] == Table(map["key1" := newVal1], Some(root));
    assert t4.tables[root] == t2.tables[root];
    var (t5, cu) := NewChild(t4, p2);
    assert t5.instances[cu].parent == Some(p2) && t5.instances[p2].table == root + 1;
    assert Lookup(t5, root + 1, "key2") == Lookup(t5, root, "key2");
    assert Lookup(t5, root + 1, "key3") == None by {
      assert Lookup(t5, root + 1, "key3") == Lookup(t5, root, "key3");
    }
    assert Lookup(t5, root + 1, "key4") == None by {
      assert Lookup(t5, root + 1, "key4") == Lookup(t5, root, "key4");
    }
  }
}

=== FILE: parse.dfy ===
/** The template parser (src/compiler-core/src/parse.ts). `baseParse`
    produces a root with exactly one child: an interpolation when the
    source starts with `{{`, an element when it starts with `<` and a
    letter, and otherwise a text node holding the whole source. The rest of
    the source after the first node is dropped. String operations follow
    JavaScript: `slice` clamps negative and oversized indices, `indexOf`
    answers -1 when nothing is found, and `trim` strips the ECMAScript
    white space and line terminators. */
module Parse {
  import opened Wrappers
  import opened Shared
  import opened TemplateAst

  // ---------------------------------------------------------------------
  // JavaScript string operations

  /** `s.slice(start)`. */
  function Drop(s: string, start: int): (r: string)
    ensures 0 <= start <= |s| ==> r == s[start..]
    ensures start < 0 && -start <= |s| ==> r == s[|s| + start..]
    ensures start > |s| ==> r == ""
  {
    var k := if start < 0 then (if |s| + start < 0 then 0 else |s| + start) else (if start > |s| then |s| else start);
    s[k..]
  }

  /** `s.slice(0, end)`. */
  function Take(s: string, end: int): (r: string)
    ensures 0 <= end <= |s| ==> r == s[..end]
    ensures end < 0 ==> r == s[..(if |s| + end < 0 then 0 else |s| + end)]
    ensures end > |s| ==> r == s
  {
    var k := if end < 0 then (if |s| + end < 0 then 0 else |s| + end) else (if end > |s| then |s| else end);
    s[..k]
  }

  predicate OccursAt(s: string, pat: string, i: nat) {
    i + |pat| <= |s| && s[i..i + |pat|] == pat
  }

  /** `s.indexOf(pat, from)`: the first occurrence at or after `from`. */
  function IndexOf(s: string, pat: string, from: nat): (r: int)
    ensures r == -1 || (from <= r && OccursAt(s, pat, r))
    ensures r == -1 ==> forall i :: from <= i <= |s| ==> !OccursAt(s, pat, i)
    ensures r >= 0 ==> forall i :: from <= i < r ==> !OccursAt(s, pat, i)
    decreases |s| + 1 - from
  {
    if from > |s| then -1
    else if OccursAt(s, pat, from) then from
    else IndexOf(s, pat, from + 1)
  }

  /** The characters `String.prototype.trim` removes: ECMAScript WhiteSpace
      (tab, vertical tab, form feed, the byte-order mark and every space
      separator) and LineTerminator. */
  predicate IsJsSpace(c: char) {
    || c == '\t' || c == '\n' || c == '\U{000B}' || c == '\U{000C}' || c == '\r'
    || c == ' ' || c == '\U{00A0}' || c == '\U{1680}' || ('\U{2000}' <= c <= '\U{200A}')
    || c == '\U{2028}' || c == '\U{2029}' || c == '\U{202F}' || c == '\U{205F}'
    || c == '\U{3000}' || c == '\U{FEFF}'
  }

  function TrimStart(s: string): (r: string)
    ensures |r| <= |s| && r == s[|s| - |r|..]
    ensures forall i :: 0 <= i < |s| - |r| ==> IsJsSpace(s[i])
    ensures |r| > 0 ==> !IsJsSpace(r[0])
  {
    if |s| > 0 && IsJsSpace(s[0]) then TrimStart(s[1..]) else s
  }

  function TrimEnd(s: string): (r: string)
    ensures |r| <= |s| && r == s[..|r|]
    ensures forall i :: |r| <= i < |s| ==> IsJsSpace(s[i])
    ensures |r| > 0 ==> !IsJsSpace(r[|r| - 1])
  {
    if |s| > 0 && IsJsSpace(s[|s| - 1]) then TrimEnd(s[..|s| - 1]) else s
  }

  /** Only white space before `i` and from `j` on. */
  predicate SpaceAround(s: string, i: nat, j: nat)
    requires i <= j <= |s|
  {
    && (forall k :: 0 <= k < i ==> IsJsSpace(s[k]))
    && (forall k :: j <= k < |s| ==> IsJsSpace(s[k]))
  }

  /** `s.trim()`: white space removed from both ends. */
  function Trim(s: string): (r: string)
    ensures |r| <= |s|
    ensures |r| > 0 ==> !IsJsSpace(r[0]) && !IsJsSpace(r[|r| - 1])
  {
    TrimEnd(TrimStart(s))
  }

  /** The trimmed string is the infix of `s` with only white space around
      it. */
  lemma TrimIsInfix(s: string)
    ensures exists i: nat, j: nat :: i <= j <= |s| && Trim(s) == s[i..j] && SpaceAround(s, i, j)
  {
    var a := TrimStart(s);
    var r := TrimEnd(a);
    var i := |s| - |a|;
    var j := i + |r|;
    assert r == s[i..j];
    forall k | j <= k < |s| ensures IsJsSpace(s[k]) {
      assert s[k] == a[k - i];
    }
    assert SpaceAround(s, i, j);
  }

  /** A string with no white space at its ends is its own trim. */
  lemma TrimKeepsTrimmed(s: string)
    requires |s| == 0 || (!IsJsSpace(s[0]) && !IsJsSpace(s[|s| - 1]))
    ensures Trim(s) == s
  {
  }

  lemma TrimIdempotent(s: string)
    ensures Trim(Trim(s)) == Trim(s)
  {
    TrimKeepsTrimmed(Trim(s));
  }

  // ---------------------------------------------------------------------
  // The parser

  /** `/^<\/?([a-z]*)/i.exec(s)`: the length of the match and the tag (the
      longest run of ASCII letters after `<` and an optional `/`), or no
      match when `s` does not start with `<`. */
  function TagMatch(s: string): (r: Option<(nat, string)>)
    ensures r.Some? <==> |s| > 0 && s[0] == '<'
    ensures r.Some? ==> r.value.0 <= |s| && forall i :: 0 <= i < |r.value.1| ==> IsLetter(r.value.1[i])
  {
    if |s| == 0 || s[0] != '<' then None
    else
      var j := if |s| > 1 && s[1] == '/' then 2 else 1;
      var tag := LetterRun(s[j..]);
      Some((j + |tag|, tag))
  }

  /** The longest prefix made of ASCII letters. */
  function LetterRun(s: string): (r: string)
    ensures |r| <= |s| && r == s[..|r|]
    ensures forall i :: 0 <= i < |r| ==> IsLetter(r[i])
    ensures |r| < |s| ==> !IsLetter(s[|r|])
  {
    if |s| > 0 && IsLetter(s[0]) then [s[0]] + LetterRun(s[1..]) else []
  }

  /** `parseTag`: the match is consumed and one more character after it.
      A source that does not start with `<` makes `match[1]` read from
      `null` and throw. */
  function ParseTag(src: string): (r: Result<(string, string)>)
    ensures r.Ok? <==> |src| > 0 && src[0] == '<'
    ensures r.Ok? ==> |r.value.1| < |src|
    ensures r.Ok? ==>
      var j := if |src| > 1 && src[1] == '/' then 2 else 1;
      var tag := r.value.0;
      && j + |tag| <= |src| && src[j..j + |tag|] == tag
      && (forall i :: 0 <= i < |tag| ==> IsLetter(tag[i]))
      && (j + |tag| < |src| ==> !IsLetter(src[j + |tag|]) && r.value.1 == src[j + |tag| + 1..])
      && (j + |tag| == |src| ==> r.value.1 == "")
  {
    match TagMatch(src)
    case None => Err(TypeError)
    case Some((len, tag)) => Ok((tag, Drop(Drop(src, len), 1)))
  }

  /** `parseElement`: a start tag, then an end tag whose name is not
      checked; the element gets no children. */
  function ParseElement(src: string): (r: Result<(AstNode, string)>)
    requires |src| > 0 && src[0] == '<'
    ensures r.Ok? ==> r.value.0.Element? && r.value.0.elementChildren.Absent?
    ensures r.Ok? ==> r.value.0.tag == ParseTag(src).value.0
    ensures var rest := ParseTag(src).value.1;
      && (r.Ok? <==> |rest| > 0 && rest[0] == '<')
      && (r.Ok? ==> r.value.1 == ParseTag(rest).value.1)
  {
    var (tag, rest) := ParseTag(src).value;
    var (_, rest2) :- ParseTag(rest);
    Ok((Element(tag, Absent), rest2))
  }

  /** `parseInterpolation`: the text between `{{` and the first `}}` after
      it, trimmed. When there is no `}}`, `indexOf` answers -1 and the
      negative lengths that follow make `slice` count from the end. */
  function ParseInterpolation(src: string): (r: (AstNode, string))
    ensures r.0.Interpolation?
    ensures var close := IndexOf(src, "}}", 2);
      close >= 2 ==> r.0.expression == Trim(src[2..close]) && r.1 == src[close + 2..]
  {
    var close := IndexOf(src, "}}", 2);
    var src1 := Drop(src, 2);
    var rawLength := close - 2;
    var content := Trim(Take(src1, rawLength));
    assert close >= 2 ==> src1 == src[2..] && src1[..rawLength] == src[2..close] && src1[rawLength + 2..] == src[close + 2..];
    (Interpolation(content), Drop(src1, rawLength + 2))
  }

  /** `parseText`: the whole remaining source. */
  function ParseText(src: string): (r: (AstNode, string))
    ensures r == (Text(src), "")
  {
    (Text(src), "")
  }

  /** The element test of the corrected parser: `<` followed by a letter. */
  predicate StartsElement(s: string) {
    |s| >= 2 && s[0] == '<' && IsLetter(s[1])
  }

  /** The element test as written: `/[a-z]/i.test(s[1])` converts a
      missing `s[1]` to the string "undefined", which contains letters. */
  predicate StartsElementAsWritten(s: string) {
    |s| >= 1 && s[0] == '<' && (|s| < 2 || IsLetter(s[1]))
  }

  /** `parseChildren` with the given element test: exactly one node, and
      the source left after it. */
  function ParseChildrenBy(src: string, element: bool): (r: Result<(seq<AstNode>, string)>)
    requires element ==> |src| > 0 && src[0] == '<'
    ensures r.Ok? ==> |r.value.0| == 1
    ensures r.Err? ==> element && !(|src| >= 2 && src[..2] == "{{")
  {
    if |src| >= 2 && src[..2] == "{{" then
      var (node, rest) := ParseInterpolation(src);
      Ok(([node], rest))
    else if element then
      var (node, rest) :- ParseElement(src);
      Ok(([node], rest))
    else
      var (node, rest) := ParseText(src);
      Ok(([node], rest))
  }

  /** `baseParse`, corrected: `<` with nothing after it is text. */
  function BaseParse(content: string): (r: Result<AstNode>)
    ensures r.Ok? ==> r.value.Root? && |r.value.children| == 1 && r.value.codegenNode == None
  {
    var (nodes, _) :- ParseChildrenBy(content, StartsElement(content));
    Ok(Root(nodes, None))
  }

  /** `baseParse` as written. */
  function BaseParseAsWritten(content: string): (r: Result<AstNode>)
    ensures r.Ok? ==> r.value.Root? && |r.value.children| == 1 && r.value.codegenNode == None
  {
    var (nodes, _) :- ParseChildrenBy(content, StartsElementAsWritten(content));
    Ok(Root(nodes, None))
  }

  // ---------------------------------------------------------------------
  // What the parser promises

  /** The two element tests differ on exactly one input: the lone `<`. */
  lemma ElementTestsDiffer(s: string)
    ensures StartsElementAsWritten(s) != StartsElement(s) <==> s == "<"
  {
  }

  /** As written, the lone `<` is taken for a start tag, and parsing the
      missing end tag throws; corrected, it is a text node. */
  lemma LoneAngleBracket()
    ensures BaseParseAsWritten("<") == Err(TypeError)
    ensures BaseParse("<") == Ok(Root([Text("<")], None))
  {
    assert ParseTag("<") == Ok(("", ""));
    assert ParseTag("") == Err(TypeError);
    assert ParseChildrenBy("<", false) == Ok(([Text("<")], ""));
  }

  /** Text: a source that is neither an interpolation nor an element is one
      text node with the source as written. */
  lemma ParseTextRoundTrip(s: string)
    requires !(|s| >= 2 && s[..2] == "{{") && !StartsElement(s)
    ensures BaseParse(s) == Ok(Root([Text(s)], None))
  {
  }

  /** Interpolation: `{{` + c + `}}` + rest parses to an interpolation of
      the trimmed `c`, and the source is advanced past the closing `}}`. */
  lemma ParseInterpolationRoundTrip(c: string, rest: string)
    requires '}' !in c
    ensures var src := "{{" + c + "}}" + rest;
      ParseChildrenBy(src, StartsElement(src)) == Ok(([Interpolation(Trim(c))], rest))
  {
    var src := "{{" + c + "}}" + rest;
    assert src[..2] == "{{";
    forall i | 2 <= i < 2 + |c| ensures !OccursAt(src, "}}", i) {
      assert src[i] == c[i - 2];
    }
    assert OccursAt(src, "}}", 2 + |c|) by {
      assert src[2 + |c|..2 + |c| + 2] == "}}";
    }
    assert IndexOf(src, "}}", 2) == 2 + |c| by {
      IndexOfFirst(src, "}}", 2, 2 + |c|);
    }
    var src1 := Drop(src, 2);
    assert src1 == c + "}}" + rest;
    assert Take(src1, |c|) == c;
    assert Drop(src1, |c| + 2) == rest;
  }

  /** `indexOf` finds the first occurrence when the ones before are ruled
      out. */
  lemma {:induction false} IndexOfFirst(s: string, pat: string, from: nat, at: nat)
    requires from <= at && OccursAt(s, pat, at)
    requires forall i :: from <= i < at ==> !OccursAt(s, pat, i)
    ensures IndexOf(s, pat, from) == at
    decreases at - from
  {
    if from < at {
      IndexOfFirst(s, pat, from + 1, at);
    }
  }

  /** Without `}}` the interpolation takes all but the last three
      characters after `{{`, and leaves the last character as the rest. */
  lemma UnclosedInterpolation(t: string)
    requires |t| >= 3 && '}' !in t
    ensures ParseInterpolation("{{" + t) == (Interpolation(Trim(t[..|t| - 3])), t[|t| - 1..])
  {
    var src := "{{" + t;
    NoClose(src, 2);
    assert IndexOf(src, "}}", 2) == -1;
    assert Drop(src, 2) == t;
    assert Take(t, -3) == t[..|t| - 3];
    assert Drop(t, -1) == t[|t| - 1..];
  }

  /** With no `}` at or after `from`, `indexOf("}}", from)` finds nothing. */
  lemma {:induction false} NoClose(s: string, from: nat)
    requires forall i :: from <= i < |s| ==> s[i] != '}'
    ensures IndexOf(s, "}}", from) == -1
    decreases |s| + 1 - from
  {
    if from <= |s| {
      if from + 2 <= |s| {
        assert s[from..from + 2][0] == s[from];
      }
      NoClose(s, from + 1);
    }
  }

  /** Element: `<tag>` immediately followed by an end tag parses to an
      element with that tag and consumes both tags. */
  lemma ParseElementRoundTrip(tag: string, endTag: string, rest: string)
    requires |tag| > 0 && forall i :: 0 <= i < |tag| ==> IsLetter(tag[i])
    requires forall i :: 0 <= i < |endTag| ==> IsLetter(endTag[i])
    ensures var src := "<" + tag + ">" + "</" + endTag + ">" + rest;
      ParseChildrenBy(src, StartsElement(src)) == Ok(([Element(tag, Absent)], rest))
  {
    var after := "</" + endTag + ">" + rest;
    var src := "<" + tag + ">" + after;
    assert src == "<" + tag + ">" + "</" + endTag + ">" + rest;
    assert StartsElement(src) && !(src[..2] == "{{");
    StartTag(tag, after);
    EndTag(endTag, rest);
  }

  /** `parseTag` on `<tag>` followed by anything consumes exactly `<tag>`. */
  lemma StartTag(tag: string, after: string)
    requires forall i :: 0 <= i < |tag| ==> IsLetter(tag[i])
    ensures ParseTag("<" + tag + ">" + after) == Ok((tag, after))
  {
    var src := "<" + tag + ">" + after;
    assert src[1..] == tag + (">" + after);
    LetterRunOf(tag, ">" + after);
    assert Drop(Drop(src, 1 + |tag|), 1) == after;
  }

  /** `parseTag` on `</tag>` followed by anything consumes exactly `</tag>`. */
  lemma EndTag(tag: string, rest: string)
    requires forall i :: 0 <= i < |tag| ==> IsLetter(tag[i])
    ensures ParseTag("</" + tag + ">" + rest) == Ok((tag, rest))
  {
    var src := "</" + tag + ">" + rest;
    assert src[2..] == tag + (">" + rest);
    LetterRunOf(tag, ">" + rest);
    assert Drop(Drop(src, 2 + |tag|), 1) == rest;
  }

  /** The letter run of letters followed by a non-letter is those letters. */
  lemma {:induction false} LetterRunOf(letters: string, tail: string)
    requires forall i :: 0 <= i < |letters| ==> IsLetter(letters[i])
    requires |tail| > 0 && !IsLetter(tail[0])
    ensures LetterRun(letters + tail) == letters
  {
    if |letters| > 0 {
      assert (letters + tail)[1..] == letters[1..] + tail;
      LetterRunOf(letters[1..], tail);
    }
  }

  /** A start tag not immediately followed by `<` throws: there is no end
      tag to match, as in `<div>hi</div>`. */
  lemma MissingEndTagThrows(tag: string, t: string)
    requires |tag| > 0 && forall i :: 0 <= i < |tag| ==> IsLetter(tag[i])
    requires |t| == 0 || t[0] != '<'
    ensures var src := "<" + tag + ">" + t;
      ParseChildrenBy(src, StartsElement(src)) == Err(TypeError)
  {
    var src := "<" + tag + ">" + t;
    assert StartsElement(src) && !(src[..2] == "{{");
    StartTag(tag, t);
  }
}

=== FILE: public_instance.dfy ===
/** The component proxy's `get` (src/runtime-core/componentPublicInstance.ts):
    `this.key` in a render function looks in the setup state first and then
    in the table of public accessors, which holds only `$el`. */
module PublicInstance {
  import opened Values
  import opened Wrappers
  import opened VNodes
  import opened Host
  import opened Renderer

  /** What `this.key` yields: a setup-state value, the component's host
      element (`null` until mounted), or `undefined`. */
  datatype PublicValue = StateValue(v: Value) | ElementOf(el: Option<HostId>) | NoValue

  /** The names in `publicPropertiesMap`. */
  const PUBLIC_KEYS: set<string> := {"$el"}

  /** `componentPublicInstance.get({ _: instance }, key)`. */
  function PublicGet(setupState: map<string, Value>, vnode: VNode, key: string): (r: PublicValue)
    ensures key in setupState <==> r.StateValue?
    ensures r.StateValue? ==> r.v == setupState[key]
    ensures r.ElementOf? <==> key !in setupState && key in PUBLIC_KEYS
    ensures r.ElementOf? ==> r.el == vnode.el
  {
    if key in setupState then StateValue(setupState[key])
    else if key == "$el" then ElementOf(vnode.el)
    else NoValue
  }

  /** The setup state shadows the public accessors, `$el` included. */
  lemma StateShadowsEl(setupState: map<string, Value>, vnode: VNode, v: Value)
    ensures PublicGet(setupState["$el" := v], vnode, "$el") == StateValue(v)
    ensures "$el" !in setupState ==> PublicGet(setupState, vnode, "$el") == ElementOf(vnode.el)
  {
  }

  /** After a component is mounted, `this.$el` on its vnode is the host
      element of the subtree its render function returned. */
  lemma ElAfterMount(h: Host, v: VNode, container: NodeId, setupState: map<string, Value>)
    requires Valid(h) && IsElement(h, container) && "$el" !in setupState
    requires v.vtype.Component? && HasInstanceRender(v.vtype.def)
    ensures var r := ProcessComponent(h, v, container);
      var sub := Patch(h, v.vtype.def.render.value, container);
      r.Ok? ==> sub.Ok? && PublicGet(setupState, r.value.vnode, "$el") == ElementOf(sub.value.vnode.el)
  {
  }
}

=== FILE: reactive_invariants.dfy ===
/** The invariants of the reactive engine and the proofs that every step of
    it keeps them: subscriber sets and dependency lists agree, a stopped
    effect is subscribed nowhere, and tracking is on only inside an active
    effect's run. From these follows the promise of `stop`: once stopped,
    an effect is never re-run or scheduled by a write. */
module ReactiveInvariants {
  import opened Values
  import opened Wrappers
  import opened Shared
  import opened Scheduler
  import opened Reactivity

  // ---------------------------------------------------------------------
  // Predicates

  /** The invariant of the worlds reachable without an escaped exception:
      every subscriber lists the set it is in among its dependencies, a
      stopped effect has no dependencies, and tracking is on only for an
      active effect. */
  ghost predicate Reach(w: World) {
    && Valid(w)
    && (forall d, i :: d in w.deps && 0 <= i < |w.deps[d]| ==> d in w.effects[w.deps[d][i]].deps)
    && (forall e :: 0 <= e < |w.effects| && !w.effects[e].active ==> w.effects[e].deps == [])
    && (w.shouldTrack ==> w.activeEffect.Some? && w.effects[w.activeEffect.value].active)
  }

  /** An effect record changed only by new dependencies. */
  predicate SameEffect(a: Effect, b: Effect) {
    a.body == b.body && a.active == b.active && a.scheduler == b.scheduler && a.onStop == b.onStop && a.deps <= b.deps
  }

  /** What a synchronous step does to the bookkeeping: effects and refs
      keep their identities, subscriber sets and dependency lists only grow
      at their ends (so no set loses a member while it is being iterated),
      and the log is only extended. */
  ghost predicate Grows(w: World, w': World) {
    && |w'.effects| == |w.effects| && |w'.refs| == |w.refs|
    && (forall e :: 0 <= e < |w.effects| ==> SameEffect(w.effects[e], w'.effects[e]))
    && (forall d :: d in w.deps ==> d in w'.deps && w.deps[d] <= w'.deps[d])
    && w.log <= w'.log
  }

  /** Some scheduler was called between the two logs. */
  ghost predicate SomeScheduled(before: seq<Event>, after: seq<Event>) {
    exists i :: |before| <= i < |after| && after[i].Scheduled?
  }

  /** Only a scheduler call sets the pending flag. */
  ghost predicate PendingByScheduler(w: World, w': World) {
    w'.jobs.pending ==> w.jobs.pending || SomeScheduled(w.log, w'.log)
  }

  /** A pending flush stays pending, and a callback is only added to the
      pre-flush list together with a pending flush. */
  ghost predicate FlushKept(w: World, w': World) {
    (w.jobs.pending ==> w'.jobs.pending) && (|w.jobs.preFlush| < |w'.jobs.preFlush| ==> w'.jobs.pending)
  }

  /** A synchronous step only appends to the two queues. */
  ghost predicate JobsGrow(w: World, w': World) {
    w.jobs.queue <= w'.jobs.queue && w.jobs.preFlush <= w'.jobs.preFlush && PendingByScheduler(w, w') && FlushKept(w, w')
  }

  /** Neither queue holds work for effect `x`. */
  ghost predicate NoJobsOf(w: World, x: EffectId) {
    (forall j :: j in w.jobs.queue ==> j.e != x) && (forall j :: j in w.jobs.preFlush ==> j.e != x)
  }

  /** Between two worlds, effect `x` neither ran nor was scheduled, and no
      work for it was queued. */
  ghost predicate Quiet(w: World, w': World, x: EffectId) {
    && (forall i :: |w.log| <= i < |w'.log| ==> w'.log[i] != Ran(x) && w'.log[i] != Scheduled(x))
    && (NoJobsOf(w, x) ==> NoJobsOf(w', x))
  }

  /** Every stopped effect other than `except` stays quiet. */
  ghost predicate QuietAll(w: World, w': World, except: int) {
    forall x :: 0 <= x < |w.effects| && x != except && !w.effects[x].active ==> Quiet(w, w', x)
  }

  /** One synchronous step from `w` to `w'`, which may run effect `except`
      itself. */
  ghost predicate Step(w: World, w': World, except: int) {
    && Valid(w') && Grows(w, w') && JobsGrow(w, w')
    && (Reach(w) ==> Reach(w') && QuietAll(w, w', except))
  }

  ghost predicate Post<T>(w: World, r: Outcome<T>, except: int) {
    !r.Exhausted? ==> Step(w, r.w, except) && (r.Done? && !w.shouldTrack ==> !r.w.shouldTrack)
  }

  /** `a` cannot be a stopped effect other than `e`. */
  ghost predicate Covered(w: World, a: int, e: int) {
    a == e || a < 0 || a >= |w.effects| || w.effects[a].active
  }

  // ---------------------------------------------------------------------
  // Composition

  lemma QuietTrans(w1: World, w2: World, w3: World, x: EffectId)
    requires w1.log <= w2.log <= w3.log
    requires Quiet(w1, w2, x) && Quiet(w2, w3, x)
    ensures Quiet(w1, w3, x)
  {
    forall i | |w1.log| <= i < |w3.log|
      ensures w3.log[i] != Ran(x) && w3.log[i] != Scheduled(x)
    {
      if i < |w2.log| {
        assert w3.log[i] == w2.log[i];
      }
    }
  }

  lemma PendingTrans(w1: World, w2: World, w3: World)
    requires w1.log <= w2.log <= w3.log
    requires PendingByScheduler(w1, w2) && PendingByScheduler(w2, w3)
    ensures PendingByScheduler(w1, w3)
  {
    if w3.jobs.pending && !w1.jobs.pending {
      if w2.jobs.pending {
        var i :| |w1.log| <= i < |w2.log| && w2.log[i].Scheduled?;
        assert w3.log[i] == w2.log[i];
      } else {
        var i :| |w2.log| <= i < |w3.log| && w3.log[i].Scheduled?;
      }
    }
  }

  lemma GrowsTrans(w1: World, w2: World, w3: World)
    requires Grows(w1, w2) && Grows(w2, w3)
    ensures Grows(w1, w3)
  {
  }

  lemma StepTrans(w: World, w1: World, w2: World, e1: int, e2: int, e: int)
    requires Step(w, w1, e1) && Step(w1, w2, e2)
    requires Reach(w) ==> Covered(w, e1, e) && Covered(w, e2, e)
    ensures Step(w, w2, e)
  {
    GrowsTrans(w, w1, w2);
    PendingTrans(w, w1, w2);
    if Reach(w) {
      forall x | 0 <= x < |w.effects| && x != e && !w.effects[x].active
        ensures Quiet(w, w2, x)
      {
        assert SameEffect(w.effects[x], w1.effects[x]);
        QuietTrans(w, w1, w2, x);
      }
    }
  }

  /** A step that changes nothing the invariants look at but the tracking
      flag, switched off. */
  lemma TrackingOffStep(w: World)
    requires Valid(w)
    ensures Step(w, w.(shouldTrack := false), -1)
  {
  }

  // ---------------------------------------------------------------------
  // track and get

  lemma TrackStep(w: World, d: DepKey)
    requires Valid(w) && (d.RefKey? ==> d.r < |w.refs|)
    ensures Step(w, Track(w, d), -1)
  {
    if IsTracking(w) {
      TrackGrows(w, d);
      if Reach(w) {
        TrackReach(w, d);
        TrackQuiet(w, d);
      }
    }
  }

  /** Tracking only adds to the end of one set and one dependency list. */
  lemma TrackGrows(w: World, d: DepKey)
    requires Valid(w) && IsTracking(w) && (d.RefKey? ==> d.r < |w.refs|)
    ensures Grows(w, Track(w, d)) && JobsGrow(w, Track(w, d))
  {
    var r := Track(w, d);
    assert r.log == w.log && r.jobs == w.jobs && r.refs == w.refs;
    forall x | 0 <= x < |w.effects|
      ensures SameEffect(w.effects[x], r.effects[x])
    {
    }
  }

  /** Tracking neither runs nor schedules anything. */
  lemma TrackQuiet(w: World, d: DepKey)
    requires Valid(w) && (d.RefKey? ==> d.r < |w.refs|)
    ensures QuietAll(w, Track(w, d), -1)
  {
    var r := Track(w, d);
    assert r.log == w.log && r.jobs == w.jobs;
  }

  lemma TrackReach(w: World, d: DepKey)
    requires Reach(w) && IsTracking(w) && (d.RefKey? ==> d.r < |w.refs|)
    ensures Reach(Track(w, d))
  {
    var r := Track(w, d);
    forall d', i | d' in r.deps && 0 <= i < |r.deps[d']|
      ensures d' in r.effects[r.deps[d'][i]].deps
    {
      TrackBackLink(w, d, d', i);
    }
  }

  /** After tracking, every subscriber of a set still lists that set. */
  lemma TrackBackLink(w: World, d: DepKey, d': DepKey, i: nat)
    requires Reach(w) && IsTracking(w) && (d.RefKey? ==> d.r < |w.refs|)
    requires d' in Track(w, d).deps && i < |Track(w, d).deps[d']|
    ensures d' in Track(w, d).effects[Track(w, d).deps[d'][i]].deps
  {
    var r := Track(w, d);
    var e := w.activeEffect.value;
    var x := r.deps[d'][i];
    if x != e {
      assert d' in w.deps && x in w.deps[d'] by {
        if d' == d && d in w.deps && e !in w.deps[d] {
          assert r.deps[d] == w.deps[d] + [e];
        }
      }
      var k :| 0 <= k < |w.deps[d']| && w.deps[d'][k] == x;
      assert d' in w.effects[x].deps;
      assert r.effects[x] == w.effects[x];
    } else if d' != d {
      assert x in w.deps[d'];
      var k :| 0 <= k < |w.deps[d']| && w.deps[d'][k] == x;
      assert d' in w.effects[x].deps;
    }
  }

  lemma GetStep(w: World, obj: Value, key: string)
    requires Valid(w)
    ensures Step(w, Reactivity.Get(w, obj, key).w, -1)
  {
    if obj.Proxy? && key != IS_REACTIVE && key != IS_READONLY {
      GetStep(w, obj.target, key);
      GetProxyStep(w, obj.kind, obj.target, key);
    } else {
      assert Reactivity.Get(w, obj, key).w == w;
      StayStep(w);
    }
  }

  /** A read through a proxy: the read of its target, then tracking. */
  lemma GetProxyStep(w: World, kind: ProxyKind, t: Value, key: string)
    requires Valid(w) && key != IS_REACTIVE && key != IS_READONLY
    requires Step(w, Reactivity.Get(w, t, key).w, -1)
    ensures Step(w, Reactivity.Get(w, Proxy(kind, t), key).w, -1)
  {
    var inner := Reactivity.Get(w, t, key);
    GetProxyWorld(w, kind, t, key);
    if inner.Done? && kind == Mutable && !IsObject(inner.val) {
      TrackStep(inner.w, TargetKey(t, key));
      StepTrans(w, inner.w, Track(inner.w, TargetKey(t, key)), -1, -1, -1);
    }
  }

  /** The world after a read through a proxy: the one after the read of its
      target, tracked when the proxy is mutable and the value primitive. */
  lemma GetProxyWorld(w: World, kind: ProxyKind, t: Value, key: string)
    requires Valid(w) && key != IS_REACTIVE && key != IS_READONLY
    ensures var inner := Reactivity.Get(w, t, key);
      Reactivity.Get(w, Proxy(kind, t), key).w ==
        if inner.Done? && kind == Mutable && !IsObject(inner.val) then Track(inner.w, TargetKey(t, key)) else inner.w
  {
  }

  /** Changing nothing is a step. */
  lemma StayStep(w: World)
    requires Valid(w)
    ensures Step(w, w, -1)
  {
  }

  // ---------------------------------------------------------------------
  // Small steps

  /** A step that only writes the heap. */
  lemma WritePropStep(w: World, k: HeapKey, key: string, v: Value)
    requires Valid(w)
    ensures Step(w, WriteProp(w, k, key, v), -1)
  {
    var r := WriteProp(w, k, key, v);
    assert r == w.(heap := r.heap);
    assert Reach(w) ==> Reach(r);
  }

  /** A step that only logs an event other than a run or a scheduler call. */
  lemma LogStep(w: World, ev: Event)
    requires Valid(w) && !ev.Ran? && !ev.Scheduled?
    ensures Step(w, w.(log := w.log + [ev]), -1)
  {
    var r := w.(log := w.log + [ev]);
    forall x | 0 <= x < |w.effects| && !w.effects[x].active
      ensures Quiet(w, r, x)
    {
      assert forall i :: |w.log| <= i < |r.log| ==> r.log[i] == ev;
    }
  }

  /** Calling effect `e`'s scheduler: logs the call and appends work for
      `e` only. */
  lemma ScheduleStep(w: World, e: EffectId, jobs: Queues<Job>)
    requires Valid(w) && e < |w.effects|
    requires w.jobs.queue <= jobs.queue && w.jobs.preFlush <= jobs.preFlush
    requires forall j :: j in jobs.queue && j !in w.jobs.queue ==> j.e == e
    requires forall j :: j in jobs.preFlush && j !in w.jobs.preFlush ==> j.e == e
    requires jobs.pending || jobs == w.jobs
    ensures Step(w, w.(log := w.log + [Scheduled(e)], jobs := jobs), e)
  {
    var r := w.(log := w.log + [Scheduled(e)], jobs := jobs);
    assert r.log[|w.log|].Scheduled?;
    assert forall j :: j in jobs.queue ==> j in w.jobs.queue || j.e == e;
    assert forall j :: j in jobs.preFlush ==> j in w.jobs.preFlush || j.e == e;
    forall x | 0 <= x < |w.effects| && x != e && !w.effects[x].active
      ensures Quiet(w, r, x)
    {
      assert forall i :: |w.log| <= i < |r.log| ==> r.log[i] == Scheduled(e);
    }
  }

  /** Entering an effect's run. */
  lemma StartRunStep(w: World, e: EffectId)
    requires Valid(w) && e < |w.effects|
    ensures Step(w, StartRun(w, e), e)
  {
    var r := StartRun(w, e);
    forall x | 0 <= x < |w.effects| && x != e && !w.effects[x].active
      ensures Quiet(w, r, x)
    {
      assert forall i :: |w.log| <= i < |r.log| ==> r.log[i] == Ran(e);
    }
  }

  /** A step made under `e`'s exemption when `e` is active is a step with
      no exemption. */
  lemma Widen(w: World, w': World, e: int)
    requires Step(w, w', e)
    requires Reach(w) ==> Covered(w, e, -1)
    ensures Step(w, w', -1)
  {
  }

  // ---------------------------------------------------------------------
  // The core keeps the invariants

  lemma {:induction false} SetStep(w: World, obj: Value, key: string, v: Value, fuel: nat)
    requires Valid(w)
    ensures Post(w, Set(w, obj, key, v, fuel), -1)
    decreases fuel, 1
  {
    match obj
    case Obj(id) => WritePropStep(w, ObjKey(id), key, v);
    case Func(fid) => WritePropStep(w, FuncKey(fid), key, v);
    case Proxy(kind, t) =>
      if kind != Mutable {
        LogStep(w, Warned(key));
      } else if fuel > 0 {
        SetMutableStep(w, t, key, v, fuel);
      }
    case _ =>
  }

  /** The setter of a mutable proxy: the write, then the trigger. */
  lemma {:induction false} SetMutableStep(w: World, t: Value, key: string, v: Value, fuel: nat)
    requires Valid(w) && fuel > 0
    ensures Post(w, Set(w, Proxy(Mutable, t), key, v, fuel), -1)
    decreases fuel, 0
  {
    var p := Set(w, t, key, v, fuel - 1);
    SetStep(w, t, key, v, fuel - 1);
    if p.Done? {
      PostFacts(w, p);
      var q := Trigger(p.w, TargetKey(t, key), fuel - 1);
      TriggerStep(p.w, TargetKey(t, key), fuel - 1);
      PostThen(w, p, q);
      assert Set(w, Proxy(Mutable, t), key, v, fuel) == if q.Done? then Done(q.w, p.val) else q.PropagateFailure();
    } else {
      assert Set(w, Proxy(Mutable, t), key, v, fuel) == p.PropagateFailure();
    }
  }

  lemma {:induction false} TriggerStep(w: World, d: DepKey, fuel: nat)
    requires Valid(w)
    ensures Post(w, Trigger(w, d, fuel), -1)
    decreases fuel
  {
    if fuel > 0 && d in w.deps {
      TriggerEffectsStep(w, d, 0, fuel - 1);
    }
  }

  lemma {:induction false} TriggerEffectsStep(w: World, d: DepKey, i: nat, fuel: nat)
    requires Valid(w) && d in w.deps
    ensures Post(w, TriggerEffects(w, d, i, fuel), -1)
    decreases fuel, 2
  {
    if fuel > 0 && i < |w.deps[d]| {
      var p := Dispatch(w, w.deps[d][i], fuel - 1);
      DispatchAtStep(w, d, i, fuel - 1);
      if p.Done? {
        TriggerEffectsTail(w, p, d, i, fuel);
        assert TriggerEffects(w, d, i, fuel) == TriggerEffects(p.w, d, i + 1, fuel - 1);
      } else {
        assert TriggerEffects(w, d, i, fuel) == p.PropagateFailure();
      }
    }
  }

  lemma {:induction false} TriggerEffectsTail(w: World, p: Outcome<()>, d: DepKey, i: nat, fuel: nat)
    requires p.Done? && Post(w, p, -1) && d in w.deps && fuel > 0
    ensures Post(w, TriggerEffects(p.w, d, i + 1, fuel - 1), -1)
    decreases fuel, 1
  {
    PostFacts(w, p);
    TriggerEffectsStep(p.w, d, i + 1, fuel - 1);
    PostThen(w, p, TriggerEffects(p.w, d, i + 1, fuel - 1));
  }

  /** Notifying a subscriber of a set: it is active, so the step exempts
      no stopped effect. */
  lemma {:induction false} DispatchAtStep(w: World, d: DepKey, i: nat, fuel: nat)
    requires Valid(w) && d in w.deps && i < |w.deps[d]|
    ensures Post(w, Dispatch(w, w.deps[d][i], fuel), -1)
    decreases fuel, 1
  {
    var e := w.deps[d][i];
    var p := Dispatch(w, e, fuel);
    DispatchStep(w, e, fuel);
    if Reach(w) {
      assert d in w.effects[e].deps;
      assert w.effects[e].active;
    }
    if !p.Exhausted? {
      Widen(w, p.w, e);
    }
  }

  lemma {:induction false} DispatchStep(w: World, e: EffectId, fuel: nat)
    requires Valid(w) && e < |w.effects|
    ensures Post(w, Dispatch(w, e, fuel), e)
    decreases fuel, 0
  {
    match w.effects[e].scheduler
    case SpyScheduler => ScheduleStep(w, e, w.jobs);
    case PreFlushScheduler => ScheduleStep(w, e, QueuePreFlushCb(w.jobs, WatchJob(e)));
    case JobScheduler => ScheduleStep(w, e, QueueJob(w.jobs, RunnerJob(e)));
    case NoScheduler =>
      if fuel > 0 {
        RunEffectStep(w, e, fuel - 1);
      }
  }

  lemma {:induction false} RunEffectStep(w: World, e: EffectId, fuel: nat)
    requires Valid(w) && e < |w.effects|
    ensures Post(w, RunEffect(w, e, fuel), e)
    decreases fuel
  {
    if fuel > 0 {
      var w1 := StartRun(w, e);
      StartRunStep(w, e);
      var r := ExecOps(w1, w.effects[e].body, fuel - 1);
      ExecOpsStep(w1, w.effects[e].body, fuel - 1);
      if !r.Exhausted? {
        StepTrans(w, w1, r.w, e, -1, e);
        if r.Done? && w.effects[e].active {
          TrackingOffStep(r.w);
          StepTrans(w, r.w, r.w.(shouldTrack := false), e, -1, e);
        }
      }
    }
  }

  lemma {:induction false} ExecOpsStep(w: World, ops: seq<Op>, fuel: nat)
    requires Valid(w) && BodyValid(|w.refs|, ops)
    ensures Post(w, ExecOps(w, ops, fuel), -1)
    decreases fuel
  {
    if fuel > 0 && |ops| > 0 {
      var p := ExecOp(w, ops[0], fuel - 1);
      ExecOpStep(w, ops[0], fuel - 1);
      if p.Done? {
        PostFacts(w, p);
        BodyValidTail(|w.refs|, ops);
        ExecOpsStep(p.w, ops[1..], fuel - 1);
        PostThen(w, p, ExecOps(p.w, ops[1..], fuel - 1));
      }
    }
  }

  lemma {:induction false} ExecOpStep(w: World, op: Op, fuel: nat)
    requires Valid(w) && (op.ReadRef? || op.WriteRef? ==> op.r < |w.refs|)
    ensures Post(w, ExecOp(w, op, fuel), -1)
    decreases fuel
  {
    if fuel > 0 {
      match op
      case Read(obj, key) => GetStep(w, obj, key);
      case Write(obj, key, v) => SetStep(w, obj, key, v, fuel - 1);
      case ReadRef(rid) => TrackStep(w, RefKey(rid));
      case WriteRef(rid, v) => RefSetStep(w, rid, v, fuel - 1);
    }
  }

  lemma {:induction false} RefSetStep(w: World, rid: RefId, v: Value, fuel: nat)
    requires Valid(w) && rid < |w.refs|
    ensures Post(w, RefSet(w, rid, v, fuel), -1)
    decreases fuel, 1
  {
    if SameValue(w.refs[rid], v) {
      StayStep(w);
    } else if fuel > 0 {
      RefNotifyStep(w, rid, v, fuel - 1);
      assert RefSet(w, rid, v, fuel) == TriggerEffects(w.(refs := w.refs[rid := v]), RefKey(rid), 0, fuel - 1);
    }
  }

  /** The new value stored, then the ref's subscribers notified. */
  lemma {:induction false} RefNotifyStep(w: World, rid: RefId, v: Value, fuel: nat)
    requires Valid(w) && rid < |w.refs|
    ensures Valid(w.(refs := w.refs[rid := v]))
    ensures Post(w, TriggerEffects(w.(refs := w.refs[rid := v]), RefKey(rid), 0, fuel), -1)
    decreases fuel, 3
  {
    var w1 := w.(refs := w.refs[rid := v]);
    RefWriteStep(w, rid, v);
    TriggerEffectsStep(w1, RefKey(rid), 0, fuel);
    PostAfter(w, w1, TriggerEffects(w1, RefKey(rid), 0, fuel));
  }

  /** A step that keeps the tracking flag, then an outcome from there. */
  lemma PostAfter<T>(w: World, w1: World, r: Outcome<T>)
    requires Step(w, w1, -1) && w1.shouldTrack == w.shouldTrack && Post(w1, r, -1)
    ensures Post(w, r, -1)
  {
    if !r.Exhausted? {
      StepTrans(w, w1, r.w, -1, -1, -1);
    }
  }

  /** What a finished step leaves in place. */
  lemma PostFacts<T>(w: World, p: Outcome<T>)
    requires p.Done? && Post(w, p, -1)
    ensures Valid(p.w) && |p.w.refs| == |w.refs| && |p.w.effects| == |w.effects| && w.deps.Keys <= p.w.deps.Keys
  {
  }

  /** The rest of a valid body is valid. */
  lemma BodyValidTail(n: nat, ops: seq<Op>)
    requires |ops| > 0 && BodyValid(n, ops)
    ensures BodyValid(n, ops[1..])
  {
    forall i | 0 <= i < |ops[1..]|
      ensures ops[1..][i].ReadRef? || ops[1..][i].WriteRef? ==> ops[1..][i].r < n
    {
      assert ops[1..][i] == ops[i + 1];
    }
  }

  /** A step to a finished outcome, then an outcome from there. */
  lemma PostThen<T, U>(w: World, p: Outcome<T>, q: Outcome<U>)
    requires p.Done? && Post(w, p, -1) && Post(p.w, q, -1)
    ensures Post(w, q, -1)
  {
    if !q.Exhausted? {
      StepTrans(w, p.w, q.w, -1, -1, -1);
    }
  }

  /** Storing a new value in a ref, before its subscribers are notified. */
  lemma RefWriteStep(w: World, rid: RefId, v: Value)
    requires Valid(w) && rid < |w.refs|
    ensures Step(w, w.(refs := w.refs[rid := v]), -1)
  {
  }

  // ---------------------------------------------------------------------
  // The flush

  /** Effect `x` is stopped, has no queued work, and stays quiet. */
  ghost predicate QuietJobs(w: World, w': World) {
    forall x :: 0 <= x < |w.effects| && !w.effects[x].active && NoJobsOf(w, x) ==> Quiet(w, w', x)
  }

  /** What a part of the flush keeps: the bookkeeping only grows, the
      pre-flush list is only extended, and a stopped effect with no queued
      work stays quiet. */
  ghost predicate FlushStep(w: World, w': World) {
    && Valid(w') && Grows(w, w') && w.jobs.preFlush <= w'.jobs.preFlush && PendingByScheduler(w, w') && FlushKept(w, w')
    && (Reach(w) ==> Reach(w') && QuietJobs(w, w'))
  }

  ghost predicate FlushPost<T>(w: World, r: Outcome<T>) {
    !r.Exhausted? ==> FlushStep(w, r.w) && (r.Done? && !w.shouldTrack ==> !r.w.shouldTrack)
  }

  lemma FlushPostFacts<T>(w: World, p: Outcome<T>)
    requires p.Done? && FlushPost(w, p)
    ensures Valid(p.w)
  {
  }

  lemma FlushTrans(w: World, w1: World, w2: World)
    requires FlushStep(w, w1) && FlushStep(w1, w2)
    ensures FlushStep(w, w2)
  {
    GrowsTrans(w, w1, w2);
    PendingTrans(w, w1, w2);
    if Reach(w) {
      forall x | 0 <= x < |w.effects| && !w.effects[x].active && NoJobsOf(w, x)
        ensures Quiet(w, w2, x)
      {
        assert SameEffect(w.effects[x], w1.effects[x]);
        QuietTrans(w, w1, w2, x);
      }
    }
  }

  /** Running the work of effect `e`, which is queued in `w`, after a part
      of the flush from `w` to `w1`. */
  lemma RunJobStep(w: World, w1: World, w2: World, e: EffectId)
    requires FlushStep(w, w1) && Step(w1, w2, e)
    requires (exists j :: j in w.jobs.queue && j.e == e) || (exists j :: j in w.jobs.preFlush && j.e == e)
    ensures FlushStep(w, w2)
  {
    GrowsTrans(w, w1, w2);
    PendingTrans(w, w1, w2);
    if Reach(w) {
      forall x | 0 <= x < |w.effects| && !w.effects[x].active && NoJobsOf(w, x)
        ensures Quiet(w, w2, x)
      {
        assert x != e;
        assert SameEffect(w.effects[x], w1.effects[x]);
        QuietTrans(w, w1, w2, x);
      }
    }
  }

  /** One pre-flush callback. */
  lemma RunPreStep(w: World, i: nat, fuel: nat)
    requires Valid(w) && i < |w.jobs.preFlush|
    ensures var p := RunEffect(w, w.jobs.preFlush[i].e, fuel);
      FlushPost(w, p) && (!p.Exhausted? ==> w.jobs.queue <= p.w.jobs.queue)
  {
    var e := w.jobs.preFlush[i].e;
    var p := RunEffect(w, e, fuel);
    RunEffectStep(w, e, fuel);
    if !p.Exhausted? {
      assert w.jobs.preFlush[i] in w.jobs.preFlush;
      assert FlushStep(w, w);
      RunJobStep(w, w, p.w, e);
    }
  }

  /** `flushPreFlushCbs` keeps the invariants and runs no job. */
  lemma {:induction false} FlushPreStep(w: World, i: nat, fuel: nat)
    requires Valid(w)
    ensures FlushPost(w, FlushPre(w, i, fuel))
    ensures !FlushPre(w, i, fuel).Exhausted? ==> w.jobs.queue <= FlushPre(w, i, fuel).w.jobs.queue
    decreases fuel, 1
  {
    if fuel > 0 && i < |w.jobs.preFlush| {
      var p := RunEffect(w, w.jobs.preFlush[i].e, fuel - 1);
      RunPreStep(w, i, fuel - 1);
      if p.Done? {
        FlushPreTail(w, p, i, fuel);
        assert FlushPre(w, i, fuel) == FlushPre(p.w, i + 1, fuel - 1);
      } else {
        assert FlushPre(w, i, fuel) == p.PropagateFailure();
      }
    }
  }

  lemma {:induction false} FlushPreTail(w: World, p: Outcome<seq<Value>>, i: nat, fuel: nat)
    requires p.Done? && FlushPost(w, p) && w.jobs.queue <= p.w.jobs.queue && fuel > 0
    ensures FlushPost(w, FlushPre(p.w, i + 1, fuel - 1))
    ensures !FlushPre(p.w, i + 1, fuel - 1).Exhausted? ==> w.jobs.queue <= FlushPre(p.w, i + 1, fuel - 1).w.jobs.queue
    decreases fuel, 0
  {
    FlushPostFacts(w, p);
    var q := FlushPre(p.w, i + 1, fuel - 1);
    FlushPreStep(p.w, i + 1, fuel - 1);
    if !q.Exhausted? {
      FlushTrans(w, p.w, q.w);
    }
  }

  /** The first job of the queue. */
  lemma RunFirstJobStep(w: World, fuel: nat)
    requires Valid(w) && |w.jobs.queue| > 0
    ensures var p := RunEffect(w.(jobs := Shift(w.jobs).1), w.jobs.queue[0].e, fuel);
      FlushPost(w, p)
  {
    var rest := Shift(w.jobs).1;
    var e := w.jobs.queue[0].e;
    var w1 := w.(jobs := rest);
    assert forall j :: j in rest.queue ==> j in w.jobs.queue;
    assert FlushStep(w, w1) by {
      forall x | 0 <= x < |w.effects| && !w.effects[x].active && NoJobsOf(w, x)
        ensures Quiet(w, w1, x)
      {
      }
    }
    var p := RunEffect(w1, e, fuel);
    RunEffectStep(w1, e, fuel);
    if !p.Exhausted? {
      assert w.jobs.queue[0] in w.jobs.queue;
      RunJobStep(w, w1, p.w, e);
    }
  }

  /** The job loop keeps the invariants. */
  lemma {:induction false} DrainStep(w: World, fuel: nat)
    requires Valid(w)
    ensures FlushPost(w, Drain(w, fuel))
    decreases fuel, 1
  {
    if fuel > 0 && |w.jobs.queue| > 0 {
      var p := RunEffect(w.(jobs := Shift(w.jobs).1), w.jobs.queue[0].e, fuel - 1);
      RunFirstJobStep(w, fuel - 1);
      if p.Done? {
        DrainTail(w, p, fuel);
        assert Drain(w, fuel) == Drain(p.w, fuel - 1);
      } else {
        assert Drain(w, fuel) == p.PropagateFailure();
      }
    }
  }

  lemma {:induction false} DrainTail(w: World, p: Outcome<seq<Value>>, fuel: nat)
    requires p.Done? && FlushPost(w, p) && fuel > 0
    ensures FlushPost(w, Drain(p.w, fuel - 1))
    decreases fuel, 0
  {
    FlushPostFacts(w, p);
    DrainStep(p.w, fuel - 1);
    FlushPostTrans(w, p, Drain(p.w, fuel - 1));
  }

  lemma FlushPostTrans<T, U>(w: World, p: Outcome<T>, q: Outcome<U>)
    requires p.Done? && FlushPost(w, p) && FlushPost(p.w, q)
    ensures FlushPost(w, q)
  {
    if !q.Exhausted? {
      FlushTrans(w, p.w, q.w);
    }
  }

  /** A microtask turn keeps the invariants; a stopped effect with no queued
      work does not run; a flush is left pending only if some scheduler
      asked for one while this one ran; and when none is left pending, no
      callback is left in the pre-flush list. */
  lemma TickStep(w: World, fuel: nat)
    requires Valid(w)
    ensures TickPost(w, Tick(w, fuel))
  {
    if w.jobs.pending {
      var w0 := w.(jobs := w.jobs.(pending := false));
      var p := FlushPre(w0, 0, fuel);
      FlushPreStep(w0, 0, fuel);
      if p.Done? {
        TickDrain(w, w0, p.w, fuel);
        assert Tick(w, fuel) == Drain(p.w.(jobs := p.w.jobs.(preFlush := [])), fuel);
      } else {
        if p.Thrown? {
          TickFirstPart(w, w0, p.w);
        }
        assert Tick(w, fuel) == p.PropagateFailure();
      }
    }
  }

  /** What `TickStep` promises. */
  ghost predicate TickPost(w: World, r: Outcome<()>) {
    && (!r.Exhausted? ==> Valid(r.w) && Grows(w, r.w) && (Reach(w) ==> Reach(r.w) && QuietJobs(w, r.w)))
    && (r.Done? && !w.shouldTrack ==> !r.w.shouldTrack)
    && (r.Done? && w.jobs.pending && r.w.jobs.pending ==> SomeScheduled(w.log, r.w.log))
    && (r.Done? && w.jobs.pending && !r.w.jobs.pending ==> r.w.jobs.preFlush == [])
  }

  /** The pre-flush part of a tick, seen from the world before the flag was
      cleared. */
  lemma TickFirstPart(w: World, w0: World, w1: World)
    requires w0 == w.(jobs := w.jobs.(pending := false)) && Valid(w)
    requires FlushStep(w0, w1)
    ensures Valid(w1) && Grows(w, w1) && (Reach(w) ==> Reach(w1) && QuietJobs(w, w1))
  {
    if Reach(w) {
      assert Reach(w0);
      forall x | 0 <= x < |w.effects| && !w.effects[x].active && NoJobsOf(w, x)
        ensures Quiet(w, w1, x)
      {
        assert NoJobsOf(w0, x);
      }
    }
  }

  lemma TickDrain(w: World, w0: World, w1: World, fuel: nat)
    requires w0 == w.(jobs := w.jobs.(pending := false)) && Valid(w) && w.jobs.pending
    requires FlushStep(w0, w1) && (!w.shouldTrack ==> !w1.shouldTrack)
    ensures TickPost(w, Drain(w1.(jobs := w1.jobs.(preFlush := [])), fuel))
  {
    var w2 := w1.(jobs := w1.jobs.(preFlush := []));
    DrainStep(w2, fuel);
    TickClearStep(w, w0, w1, w2, Drain(w2, fuel));
  }

  /** The three parts of a tick, with the pre-flush list emptied between
      the second and the third. */
  lemma TickClearStep<T>(w: World, w0: World, w1: World, w2: World, q: Outcome<T>)
    requires w0 == w.(jobs := w.jobs.(pending := false)) && Valid(w)
    requires FlushStep(w0, w1) && w2 == w1.(jobs := w1.jobs.(preFlush := []))
    requires FlushPost(w2, q)
    ensures !q.Exhausted? ==> Valid(q.w) && Grows(w, q.w) && (Reach(w) ==> Reach(q.w) && QuietJobs(w, q.w))
    ensures q.Done? && !w.shouldTrack && !w1.shouldTrack ==> !q.w.shouldTrack
    ensures !q.Exhausted? && q.w.jobs.pending ==> SomeScheduled(w.log, q.w.log)
    ensures !q.Exhausted? && !q.w.jobs.pending ==> q.w.jobs.preFlush == []
  {
    if !q.Exhausted? {
      GrowsTrans(w0, w1, q.w);
      PendingTrans(w0, w1, q.w);
      if Reach(w) {
        TickClearQuiet(w, w0, w1, w2, q.w);
      }
    }
  }

  lemma TickClearQuiet(w: World, w0: World, w1: World, w2: World, w3: World)
    requires w0 == w.(jobs := w.jobs.(pending := false)) && Reach(w)
    requires FlushStep(w0, w1) && w2 == w1.(jobs := w1.jobs.(preFlush := []))
    requires FlushStep(w2, w3)
    ensures Reach(w3) && QuietJobs(w, w3)
  {
    ReachPendingOff(w);
    ReachPreCleared(w1);
    forall x | 0 <= x < |w.effects| && !w.effects[x].active && NoJobsOf(w, x)
      ensures Quiet(w, w3, x)
    {
      TickClearQuietAt(w, w0, w1, w2, w3, x);
    }
  }

  lemma TickClearQuietAt(w: World, w0: World, w1: World, w2: World, w3: World, x: EffectId)
    requires w0 == w.(jobs := w.jobs.(pending := false)) && Reach(w0) && Reach(w2)
    requires FlushStep(w0, w1) && w2 == w1.(jobs := w1.jobs.(preFlush := []))
    requires FlushStep(w2, w3)
    requires 0 <= x < |w.effects| && !w.effects[x].active && NoJobsOf(w, x)
    ensures Quiet(w, w3, x)
  {
    assert NoJobsOf(w0, x);
    assert Quiet(w0, w1, x);
    assert SameEffect(w.effects[x], w1.effects[x]);
    assert NoJobsOf(w2, x);
    assert Quiet(w2, w3, x);
    QuietTrans(w0, w1, w3, x);
  }

  /** Clearing the pending flag keeps the invariant. */
  lemma ReachPendingOff(w: World)
    requires Reach(w)
    ensures Reach(w.(jobs := w.jobs.(pending := false)))
  {
  }

  /** Emptying the pre-flush list keeps the invariant. */
  lemma ReachPreCleared(w: World)
    requires Reach(w)
    ensures Reach(w.(jobs := w.jobs.(preFlush := [])))
  {
  }
}

=== FILE: reactive_liveness.dfy ===
/** What the reactive engine does, not only what it keeps: who is notified
    by a write, in which order, and which callbacks a flush runs. These are
    stated for worlds whose effect functions only read. A function that also
    writes notifies further effects from inside the walk, and what it logs
    then depends on the whole program; the invariants of
    `ReactiveInvariants` still cover that case. */
module ReactiveLiveness {
  import opened Values
  import opened Wrappers
  import opened Shared
  import opened Scheduler
  import opened Reactivity
  import opened ReactiveInvariants

  // ---------------------------------------------------------------------
  // What a read returns, without tracking

  predicate ReadsOnly(ops: seq<Op>) {
    forall i :: 0 <= i < |ops| ==> ops[i].Read? || ops[i].ReadRef?
  }

  /** Every effect's function only reads. */
  predicate AllReadOnly(w: World) {
    forall e :: 0 <= e < |w.effects| ==> ReadsOnly(w.effects[e].body)
  }

  /** An own property of a raw object or function in a heap. */
  function Own(heap: map<HeapKey, map<string, Value>>, k: HeapKey, key: string): Value {
    if k in heap && key in heap[k] then heap[k][key] else Undefined
  }

  /** The value `obj[key]` evaluates to, read off the heap alone: the flag
      keys of a proxy, the raw property, a nested object wrapped by a
      non-shallow proxy; reading from null or undefined throws. */
  function Peek(heap: map<HeapKey, map<string, Value>>, obj: Value, key: string): Result<Value> {
    match obj
    case Undefined => Err(TypeError)
    case Null => Err(TypeError)
    case Obj(id) => Ok(Own(heap, ObjKey(id), key))
    case Func(fid) => Ok(Own(heap, FuncKey(fid), key))
    case Proxy(kind, t) =>
      if key == IS_REACTIVE then Ok(Bool(kind == Mutable))
      else if key == IS_READONLY then Ok(Bool(kind != Mutable))
      else
        (match Peek(heap, t, key)
         case Ok(res) => if kind != ShallowReadonly && IsObject(res) then Ok(Proxy(NestedKind(kind), res)) else Ok(res)
         case Err(e) => Err(e))
    case _ => Ok(Undefined)
  }

  /** The value one read gives, read off the heap and the ref cells. */
  function PeekOp(heap: map<HeapKey, map<string, Value>>, refs: seq<Value>, op: Op): Result<Value> {
    match op
    case Read(obj, key) => Peek(heap, obj, key)
    case ReadRef(r) => Ok(if r < |refs| then refs[r] else Undefined)
    case _ => Ok(Undefined)
  }

  /** The values a reading function returns, read off the heap and the ref
      cells, up to the first read that throws. */
  function PeekOps(heap: map<HeapKey, map<string, Value>>, refs: seq<Value>, ops: seq<Op>): Result<seq<Value>> {
    if |ops| == 0 then Ok([])
    else
      var v :- PeekOp(heap, refs, ops[0]);
      var vs :- PeekOps(heap, refs, ops[1..]);
      Ok([v] + vs)
  }

  // ---------------------------------------------------------------------
  // Reads only track

  /** An effect record without its dependency list. */
  function Shape(x: Effect): Effect {
    x.(deps := [])
  }

  /** The effects keep their functions, flags and schedulers. */
  predicate Bodies(w: World, p: World) {
    |p.effects| == |w.effects| && forall x :: 0 <= x < |w.effects| ==> Shape(p.effects[x]) == Shape(w.effects[x])
  }

  /** What a read does to the world: only subscriber sets and dependency
      lists change, and a set the active effect is already in, or any set
      when nothing tracks, stays as it was. */
  predicate ReadStep(w: World, p: World) {
    && p == w.(deps := p.deps, effects := p.effects)
    && Bodies(w, p)
    && (forall d :: d in w.deps && (!IsTracking(w) || w.activeEffect.value in w.deps[d]) ==>
          d in p.deps && p.deps[d] == w.deps[d])
  }

  lemma ReadStepTrans(w: World, p: World, q: World)
    requires ReadStep(w, p) && ReadStep(p, q)
    ensures ReadStep(w, q)
  {
  }

  lemma TrackReads(w: World, d: DepKey)
    requires Valid(w) && (d.RefKey? ==> d.r < |w.refs|)
    ensures ReadStep(w, Track(w, d))
  {
  }

  /** A read tracks, and returns what the heap holds: tracking never
      changes the value a read gives, and only null and undefined throw. */
  lemma GetReads(w: World, obj: Value, key: string)
    requires Valid(w)
    ensures ReadStep(w, Get(w, obj, key).w)
    ensures Get(w, obj, key).Done? <==> Peek(w.heap, obj, key).Ok?
    ensures Get(w, obj, key).Done? ==> Get(w, obj, key).val == Peek(w.heap, obj, key).value
  {
    GetTracks(w, obj, key);
    GetPeeks(w, obj, key);
  }

  lemma {:induction false} GetTracks(w: World, obj: Value, key: string)
    requires Valid(w)
    ensures ReadStep(w, Get(w, obj, key).w)
    decreases obj
  {
    if obj.Proxy? && key != IS_REACTIVE && key != IS_READONLY {
      GetTracks(w, obj.target, key);
      GetProxyTracks(w, obj.kind, obj.target, key);
    } else {
      assert Get(w, obj, key).w == w;
    }
  }

  lemma GetProxyTracks(w: World, kind: ProxyKind, t: Value, key: string)
    requires Valid(w) && key != IS_REACTIVE && key != IS_READONLY
    requires ReadStep(w, Get(w, t, key).w)
    ensures ReadStep(w, Get(w, Proxy(kind, t), key).w)
  {
    var g := Get(w, t, key);
    GetProxyWorld(w, kind, t, key);
    if g.Done? && kind == Mutable && !IsObject(g.val) {
      TrackReads(g.w, TargetKey(t, key));
      ReadStepTrans(w, g.w, Track(g.w, TargetKey(t, key)));
    }
  }

  lemma {:induction false} GetPeeks(w: World, obj: Value, key: string)
    requires Valid(w)
    ensures Get(w, obj, key).Done? <==> Peek(w.heap, obj, key).Ok?
    ensures Get(w, obj, key).Done? ==> Get(w, obj, key).val == Peek(w.heap, obj, key).value
    decreases obj
  {
    if obj.Proxy? && key != IS_REACTIVE && key != IS_READONLY {
      GetPeeks(w, obj.target, key);
    }
  }

  /** One read tracks, and gives what the heap or the ref cell holds. */
  lemma ExecOpReads(w: World, op: Op, fuel: nat)
    requires Valid(w) && (op.Read? || op.ReadRef?) && (op.ReadRef? ==> op.r < |w.refs|)
    ensures var r := ExecOp(w, op, fuel);
      !r.Exhausted? ==>
        && ReadStep(w, r.w)
        && (r.Done? <==> PeekOp(w.heap, w.refs, op).Ok?)
        && (r.Done? ==> r.val == [PeekOp(w.heap, w.refs, op).value])
  {
    if fuel > 0 {
      if op.Read? {
        GetReads(w, op.obj, op.key);
      } else {
        TrackReads(w, RefKey(op.r));
      }
    }
  }

  /** The outcome of the rest of a function, with the values read before
      it in front. */
  function After(v: seq<Value>, q: Outcome<seq<Value>>): (r: Outcome<seq<Value>>)
    ensures r.Done? <==> q.Done?
    ensures r.Thrown? <==> q.Thrown?
    ensures !q.Exhausted? ==> r.w == q.w
    ensures q.Done? ==> r.val == v + q.val
  {
    match q
    case Done(x, vs) => Done(x, v + vs)
    case Thrown(x, err) => Thrown(x, err)
    case Exhausted => Exhausted
  }

  /** One step of a function: its first operation, then the rest. */
  lemma ExecOpsUnfold(w: World, ops: seq<Op>, fuel: nat, p: World, v: seq<Value>)
    requires Valid(w) && BodyValid(|w.refs|, ops) && |ops| > 0
    requires ExecOp(w, ops[0], fuel) == Done(p, v)
    ensures Valid(p) && BodyValid(|p.refs|, ops[1..])
    ensures ExecOps(w, ops, fuel + 1) == After(v, ExecOps(p, ops[1..], fuel))
  {
    BodyValidTail(|w.refs|, ops);
  }

  lemma ReadsOnlyTail(ops: seq<Op>)
    requires |ops| > 0 && ReadsOnly(ops)
    ensures ops[0].Read? || ops[0].ReadRef?
    ensures ReadsOnly(ops[1..])
  {
    assert forall i :: 0 <= i < |ops[1..]| ==> ops[1..][i] == ops[i + 1];
  }

  /** A reading function only tracks, and returns the values the heap and
      the ref cells hold, as `PeekOps` reads them; it throws exactly when
      one of its reads does. */
  lemma {:induction false} ExecOpsReads(w: World, ops: seq<Op>, fuel: nat)
    requires Valid(w) && BodyValid(|w.refs|, ops) && ReadsOnly(ops)
    ensures var r := ExecOps(w, ops, fuel);
      !r.Exhausted? ==>
        && ReadStep(w, r.w)
        && (r.Done? ==> PeekOps(w.heap, w.refs, ops) == Ok(r.val))
        && (r.Thrown? ==> PeekOps(w.heap, w.refs, ops).Err?)
    decreases fuel, 2
  {
    if fuel > 0 && |ops| > 0 {
      ExecOpsFirst(w, ops, fuel - 1, ExecOp(w, ops[0], fuel - 1));
    }
  }

  /** The same, once the first operation's outcome `p` is known. */
  lemma {:induction false} ExecOpsFirst(w: World, ops: seq<Op>, fuel: nat, p: Outcome<seq<Value>>)
    requires Valid(w) && BodyValid(|w.refs|, ops) && ReadsOnly(ops) && |ops| > 0
    requires p == ExecOp(w, ops[0], fuel)
    ensures var r := ExecOps(w, ops, fuel + 1);
      !r.Exhausted? ==>
        && ReadStep(w, r.w)
        && (r.Done? ==> PeekOps(w.heap, w.refs, ops) == Ok(r.val))
        && (r.Thrown? ==> PeekOps(w.heap, w.refs, ops).Err?)
    decreases fuel + 1, 1
  {
    ReadsOnlyTail(ops);
    assert ops[0].ReadRef? ==> ops[0].r < |w.refs|;
    ExecOpReads(w, ops[0], fuel);
    if p.Done? {
      ExecOpsTail(w, ops, fuel, p.w, p.val);
    } else {
      ExecOpsStopUnfold(w, ops, fuel);
    }
  }

  /** A function stops where its first operation stops. */
  lemma ExecOpsStopUnfold(w: World, ops: seq<Op>, fuel: nat)
    requires Valid(w) && BodyValid(|w.refs|, ops) && |ops| > 0 && !ExecOp(w, ops[0], fuel).Done?
    ensures ExecOps(w, ops, fuel + 1) == ExecOp(w, ops[0], fuel).PropagateFailure()
    ensures PeekOp(w.heap, w.refs, ops[0]).Err? ==> PeekOps(w.heap, w.refs, ops).Err?
  {
  }

  lemma {:induction false} ExecOpsTail(w: World, ops: seq<Op>, fuel: nat, p: World, v: seq<Value>)
    requires Valid(w) && BodyValid(|w.refs|, ops) && |ops| > 0 && ReadsOnly(ops[1..])
    requires ExecOp(w, ops[0], fuel) == Done(p, v)
    requires ReadStep(w, p) && PeekOp(w.heap, w.refs, ops[0]).Ok? && v == [PeekOp(w.heap, w.refs, ops[0]).value]
    ensures var r := ExecOps(w, ops, fuel + 1);
      !r.Exhausted? ==>
        && ReadStep(w, r.w)
        && (r.Done? ==> PeekOps(w.heap, w.refs, ops) == Ok(r.val))
        && (r.Thrown? ==> PeekOps(w.heap, w.refs, ops).Err?)
    decreases fuel + 1, 0
  {
    ExecOpsUnfold(w, ops, fuel, p, v);
    ExecOpsReads(p, ops[1..], fuel);
    var q := ExecOps(p, ops[1..], fuel);
    if !q.Exhausted? {
      ReadStepTrans(w, p, q.w);
    }
  }

  /** The event that notifying `e` logs: a run, or a scheduler call. */
  function Notice(w: World, e: EffectId): Event {
    if e < |w.effects| && w.effects[e].scheduler.NoScheduler? then Ran(e) else Scheduled(e)
  }

  /** The events notifying `es` in order logs. */
  function Notified(w: World, es: seq<EffectId>): (r: seq<Event>)
    ensures |r| == |es|
  {
    if |es| == 0 then [] else [Notice(w, es[0])] + Notified(w, es[1..])
  }

  /** Effects that keep their schedulers log the same notices. */
  lemma {:induction false} NotifiedBodies(w: World, p: World, es: seq<EffectId>)
    requires Bodies(w, p)
    ensures Notified(p, es) == Notified(w, es)
  {
    if |es| > 0 {
      if es[0] < |w.effects| {
        assert Shape(p.effects[es[0]]) == Shape(w.effects[es[0]]);
      }
      NotifiedBodies(w, p, es[1..]);
    }
  }

  /** What a notification of a reading effect keeps: the effects' functions
      and flags, the heap, the ref cells and `d`'s subscriber set. */
  predicate Calm(w: World, p: World, d: DepKey) {
    Bodies(w, p) && p.heap == w.heap && p.refs == w.refs && d in w.deps && d in p.deps && p.deps[d] == w.deps[d]
  }

  lemma CalmTrans(w: World, p: World, q: World, d: DepKey)
    requires Calm(w, p, d) && Calm(p, q, d)
    ensures Calm(w, q, d)
  {
  }

  /** Each job's run, in order. */
  function RanAll(js: seq<Job>): (r: seq<Event>)
    ensures |r| == |js|
  {
    if |js| == 0 then [] else [Ran(js[0].e)] + RanAll(js[1..])
  }

  /** The log after the run at `i` and then the runs after it. */
  lemma RanAllLog(log0: seq<Event>, log1: seq<Event>, log2: seq<Event>, js: seq<Job>, i: nat)
    requires i < |js|
    requires log1 == log0 + [Ran(js[i].e)] && log2 == log1 + RanAll(js[i + 1..])
    ensures log2 == log0 + RanAll(js[i..])
  {
    assert js[i..][1..] == js[i + 1..];
  }

  // ---------------------------------------------------------------------
  // Running a reading effect

  /** What `run` of an effect whose function only reads does to the world,
      when it completes or throws: its one run is all it logs, it queues
      nothing, it keeps the heap, the ref cells and every effect's function
      and flags, and a set the effect is already in stays as it was. */
  predicate ReadRun(w: World, e: EffectId, r: Outcome<seq<Value>>)
    requires e < |w.effects|
  {
    !r.Exhausted? ==>
      && r.w.log == w.log + [Ran(e)]
      && r.w.heap == w.heap && r.w.refs == w.refs && r.w.jobs == w.jobs
      && Bodies(w, r.w)
      && (w.effects[e].active ==> forall d :: d in w.deps && e in w.deps[d] ==> d in r.w.deps && r.w.deps[d] == w.deps[d])
  }

  /** What it returns: the values the heap and the ref cells hold, and it
      throws exactly when one of its reads does. */
  predicate ReadValues(w: World, e: EffectId, r: Outcome<seq<Value>>)
    requires e < |w.effects|
  {
    && (r.Done? ==> PeekOps(w.heap, w.refs, w.effects[e].body) == Ok(r.val))
    && (r.Thrown? ==> PeekOps(w.heap, w.refs, w.effects[e].body).Err?)
  }

  /** `run` of an effect whose function only reads keeps `ReadRun` and
      `ReadValues`. */
  lemma RunEffectReads(w: World, e: EffectId, fuel: nat)
    requires Valid(w) && e < |w.effects| && ReadsOnly(w.effects[e].body)
    ensures ReadRun(w, e, RunEffect(w, e, fuel)) && ReadValues(w, e, RunEffect(w, e, fuel))
  {
    if fuel > 0 {
      RunEffectSucc(w, e, fuel - 1);
    }
  }

  lemma RunEffectSucc(w: World, e: EffectId, fuel: nat)
    requires Valid(w) && e < |w.effects| && ReadsOnly(w.effects[e].body)
    ensures ReadRun(w, e, RunEffect(w, e, fuel + 1)) && ReadValues(w, e, RunEffect(w, e, fuel + 1))
  {
    RunEffectUnfold(w, e, fuel + 1);
    RunEffectBody(w, e, fuel, ExecOps(StartRun(w, e), w.effects[e].body, fuel));
  }

  /** How `run` ends, given the outcome `q` of the function. */
  function Finish(w: World, e: EffectId, q: Outcome<seq<Value>>): Outcome<seq<Value>>
    requires e < |w.effects|
  {
    if q.Done? && w.effects[e].active then Done(q.w.(shouldTrack := false), q.val) else q
  }

  lemma RunEffectUnfold(w: World, e: EffectId, fuel: nat)
    requires Valid(w) && e < |w.effects| && fuel > 0
    ensures Valid(StartRun(w, e)) && BodyValid(|StartRun(w, e).refs|, w.effects[e].body)
    ensures RunEffect(w, e, fuel) == Finish(w, e, ExecOps(StartRun(w, e), w.effects[e].body, fuel - 1))
  {
  }

  /** The same, once the function's outcome `q` is known. */
  lemma RunEffectBody(w: World, e: EffectId, fuel: nat, q: Outcome<seq<Value>>)
    requires Valid(w) && e < |w.effects| && ReadsOnly(w.effects[e].body)
    requires q == ExecOps(StartRun(w, e), w.effects[e].body, fuel)
    ensures ReadRun(w, e, Finish(w, e, q)) && ReadValues(w, e, Finish(w, e, q))
  {
    ExecOpsReads(StartRun(w, e), w.effects[e].body, fuel);
  }

  /** A subscriber set all of whose members are active. */
  ghost predicate Live(w: World, d: DepKey) {
    d in w.deps && forall i :: 0 <= i < |w.deps[d]| ==> w.deps[d][i] < |w.effects| && w.effects[w.deps[d][i]].active
  }

  /** In a reachable world every subscriber is active. */
  lemma ReachLive(w: World, d: DepKey)
    requires Reach(w) && d in w.deps
    ensures Live(w, d)
  {
    forall i | 0 <= i < |w.deps[d]|
      ensures w.effects[w.deps[d][i]].active
    {
      assert d in w.effects[w.deps[d][i]].deps;
    }
  }

  /** Notifying an active subscriber of `d` logs its one notice and leaves
      `d`'s set, the heap and the ref cells as they were. */
  lemma DispatchReads(w: World, d: DepKey, e: EffectId, fuel: nat)
    requires Valid(w) && AllReadOnly(w) && e < |w.effects| && w.effects[e].active
    requires d in w.deps && e in w.deps[d]
    ensures var r := Dispatch(w, e, fuel);
      r.Done? ==> r.w.log == w.log + [Notice(w, e)] && Calm(w, r.w, d)
  {
    if w.effects[e].scheduler.NoScheduler? && fuel > 0 {
      DispatchRunReads(w, d, e, fuel - 1);
    }
  }

  lemma DispatchRunReads(w: World, d: DepKey, e: EffectId, fuel: nat)
    requires Valid(w) && AllReadOnly(w) && e < |w.effects| && w.effects[e].active
    requires d in w.deps && e in w.deps[d] && w.effects[e].scheduler.NoScheduler?
    ensures var r := Dispatch(w, e, fuel + 1);
      r.Done? ==> r.w.log == w.log + [Notice(w, e)] && Calm(w, r.w, d)
  {
    RunEffectReads(w, e, fuel);
  }

  /** Effects that keep their functions keep them reading. */
  lemma BodiesReadOnly(w: World, p: World)
    requires Bodies(w, p) && AllReadOnly(w)
    ensures AllReadOnly(p)
  {
    forall x | 0 <= x < |p.effects|
      ensures ReadsOnly(p.effects[x].body)
    {
      assert Shape(p.effects[x]) == Shape(w.effects[x]);
    }
  }

  lemma BodiesTrans(w: World, p: World, q: World)
    requires Bodies(w, p) && Bodies(p, q)
    ensures Bodies(w, q)
  {
  }

  /** Effects that keep their flags keep a kept set live. */
  lemma CalmLive(w: World, p: World, d: DepKey)
    requires Calm(w, p, d) && Live(w, d)
    ensures Live(p, d)
  {
    forall k | 0 <= k < |p.deps[d]|
      ensures p.effects[p.deps[d][k]].active
    {
      assert Shape(p.effects[w.deps[d][k]]) == Shape(w.effects[w.deps[d][k]]);
    }
  }

  /** The walk over `d`'s set from index `i`: each subscriber is notified
      once, in insertion order, and nothing else is logged. */
  lemma {:induction false} TriggerEffectsReads(w: World, d: DepKey, i: nat, fuel: nat)
    requires Valid(w) && AllReadOnly(w) && Live(w, d) && i <= |w.deps[d]|
    ensures var r := TriggerEffects(w, d, i, fuel);
      r.Done? ==> r.w.log == w.log + Notified(w, w.deps[d][i..]) && Calm(w, r.w, d)
    decreases fuel, 2
  {
    if fuel > 0 && i < |w.deps[d]| {
      TriggerEffectsFirst(w, d, i, fuel - 1, Dispatch(w, w.deps[d][i], fuel - 1));
    }
  }

  /** The same, once the first notification's outcome `p` is known. */
  lemma {:induction false} TriggerEffectsFirst(w: World, d: DepKey, i: nat, fuel: nat, p: Outcome<()>)
    requires Valid(w) && AllReadOnly(w) && Live(w, d) && i < |w.deps[d]|
    requires p == Dispatch(w, w.deps[d][i], fuel)
    ensures var r := TriggerEffects(w, d, i, fuel + 1);
      r.Done? ==> r.w.log == w.log + Notified(w, w.deps[d][i..]) && Calm(w, r.w, d)
    decreases fuel + 1, 1
  {
    DispatchReads(w, d, w.deps[d][i], fuel);
    if p.Done? {
      TriggerEffectsUnfold(w, d, i, fuel, p.w);
      BodiesReadOnly(w, p.w);
      TriggerEffectsTail(w, d, i, fuel, p.w);
    }
  }

  /** The rest of the walk, from the world the first notification left. */
  lemma {:induction false} TriggerEffectsTail(w: World, d: DepKey, i: nat, fuel: nat, p: World)
    requires Live(w, d) && i < |w.deps[d]|
    requires Valid(p) && AllReadOnly(p) && Calm(w, p, d)
    requires p.log == w.log + [Notice(w, w.deps[d][i])]
    ensures var r := TriggerEffects(p, d, i + 1, fuel);
      r.Done? ==> r.w.log == w.log + Notified(w, w.deps[d][i..]) && Calm(w, r.w, d)
    decreases fuel + 1, 0
  {
    CalmLive(w, p, d);
    TriggerEffectsReads(p, d, i + 1, fuel);
    var r := TriggerEffects(p, d, i + 1, fuel);
    if r.Done? {
      CalmTrans(w, p, r.w, d);
      NotifiedStep(w, p, w.deps[d], i, r.w.log);
    }
  }

  /** The log after the first notice and then the rest of the walk. */
  lemma NotifiedStep(w: World, p: World, es: seq<EffectId>, i: nat, log: seq<Event>)
    requires Bodies(w, p) && i < |es|
    requires p.log == w.log + [Notice(w, es[i])]
    requires log == p.log + Notified(p, es[i + 1..])
    ensures log == w.log + Notified(w, es[i..])
  {
    var rest := es[i + 1..];
    NotifiedBodies(w, p, rest);
    assert es[i..][1..] == rest;
    assert Notified(w, es[i..]) == [Notice(w, es[i])] + Notified(w, rest);
  }

  // ---------------------------------------------------------------------
  // Writes notify every subscriber

  /** `trigger` of a key whose subscribers are all active: it completes
      only for a tracked key, and then every subscriber was notified once,
      in insertion order, by its scheduler if it has one and by running it
      otherwise. */
  lemma TriggerReads(w: World, d: DepKey, fuel: nat)
    requires Valid(w) && AllReadOnly(w) && (d in w.deps ==> Live(w, d))
    ensures var r := Trigger(w, d, fuel);
      r.Done? ==> d in w.deps && r.w.log == w.log + Notified(w, w.deps[d]) && Calm(w, r.w, d)
  {
    if fuel > 0 && d in w.deps {
      TriggerEffectsReads(w, d, 0, fuel - 1);
      assert w.deps[d][0..] == w.deps[d];
    }
  }

  /** The same in a reachable world, where every subscriber is active. */
  lemma TriggerNotifies(w: World, d: DepKey, fuel: nat)
    requires Reach(w) && AllReadOnly(w)
    ensures var r := Trigger(w, d, fuel);
      r.Done? ==> d in w.deps && r.w.log == w.log + Notified(w, w.deps[d])
  {
    if d in w.deps {
      ReachLive(w, d);
    }
    TriggerReads(w, d, fuel);
  }

  /** A write through a mutable proxy over a raw object: the raw write,
      then the trigger of the key. */
  lemma SetMutableUnfold(w: World, t: Value, key: string, v: Value, fuel: nat)
    requires Valid(w) && (t.Obj? || t.Func?)
    ensures Valid(WriteProp(w, KeyOf(t).value, key, v))
    ensures var r := Set(w, Proxy(Mutable, t), key, v, fuel + 1);
      var q := Trigger(WriteProp(w, KeyOf(t).value, key, v), TargetKey(t, key), fuel);
      (r.Done? <==> q.Done?) && (r.Done? ==> r.w == q.w)
  {
    assert Set(w, t, key, v, fuel) == Done(WriteProp(w, KeyOf(t).value, key, v), true);
  }

  /** A world that differs only in its heap or its ref cells has the same
      live sets. */
  lemma SameLive(w: World, p: World, d: DepKey)
    requires p.deps == w.deps && p.effects == w.effects && d in w.deps && Live(w, d)
    ensures Live(p, d) && Bodies(w, p)
  {
  }

  /** A write through a reactive proxy stores the value in the target and
      then notifies every subscriber of the key, in insertion order. */
  lemma SetNotifies(w: World, t: Value, key: string, v: Value, fuel: nat)
    requires Reach(w) && AllReadOnly(w) && (t.Obj? || t.Func?)
    ensures var r := Set(w, Proxy(Mutable, t), key, v, fuel);
      r.Done? ==>
        && TargetKey(t, key) in w.deps
        && r.w.heap == WriteProp(w, KeyOf(t).value, key, v).heap
        && r.w.log == w.log + Notified(w, w.deps[TargetKey(t, key)])
  {
    if fuel > 0 {
      SetNotifiesSucc(w, t, key, v, fuel - 1);
    }
  }

  lemma SetNotifiesSucc(w: World, t: Value, key: string, v: Value, fuel: nat)
    requires Reach(w) && AllReadOnly(w) && (t.Obj? || t.Func?)
    ensures var r := Set(w, Proxy(Mutable, t), key, v, fuel + 1);
      r.Done? ==>
        && TargetKey(t, key) in w.deps
        && r.w.heap == WriteProp(w, KeyOf(t).value, key, v).heap
        && r.w.log == w.log + Notified(w, w.deps[TargetKey(t, key)])
  {
    SetMutableUnfold(w, t, key, v, fuel);
    SetWalk(w, t, key, v, fuel);
  }

  lemma SetWalk(w: World, t: Value, key: string, v: Value, fuel: nat)
    requires Reach(w) && AllReadOnly(w) && (t.Obj? || t.Func?)
    requires Valid(WriteProp(w, KeyOf(t).value, key, v))
    ensures var r := Trigger(WriteProp(w, KeyOf(t).value, key, v), TargetKey(t, key), fuel);
      r.Done? ==>
        && TargetKey(t, key) in w.deps
        && r.w.heap == WriteProp(w, KeyOf(t).value, key, v).heap
        && r.w.log == w.log + Notified(w, w.deps[TargetKey(t, key)])
  {
    var d := TargetKey(t, key);
    var p := WriteProp(w, KeyOf(t).value, key, v);
    if d in w.deps {
      ReachLive(w, d);
      SameLive(w, p, d);
      BodiesReadOnly(w, p);
      NotifiedBodies(w, p, w.deps[d]);
    }
    TriggerReads(p, d, fuel);
  }

  /** A ref write of a different value stores it and then notifies every
      subscriber of the ref, in insertion order. */
  lemma RefSetNotifies(w: World, rid: RefId, v: Value, fuel: nat)
    requires Reach(w) && AllReadOnly(w) && rid < |w.refs| && !SameValue(w.refs[rid], v)
    ensures var r := RefSet(w, rid, v, fuel);
      r.Done? ==>
        && r.w.refs == w.refs[rid := v]
        && r.w.log == w.log + Notified(w, w.deps[RefKey(rid)])
  {
    if fuel > 0 {
      RefSetNotifiesSucc(w, rid, v, fuel - 1);
    }
  }

  lemma RefSetNotifiesSucc(w: World, rid: RefId, v: Value, fuel: nat)
    requires Reach(w) && AllReadOnly(w) && rid < |w.refs| && !SameValue(w.refs[rid], v)
    ensures var r := RefSet(w, rid, v, fuel + 1);
      r.Done? ==>
        && r.w.refs == w.refs[rid := v]
        && r.w.log == w.log + Notified(w, w.deps[RefKey(rid)])
  {
    RefSetUnfold(w, rid, v, fuel);
    RefWalk(w, rid, v, fuel);
  }

  lemma RefWalk(w: World, rid: RefId, v: Value, fuel: nat)
    requires Reach(w) && AllReadOnly(w) && rid < |w.refs| && Valid(w.(refs := w.refs[rid := v]))
    ensures var r := TriggerEffects(w.(refs := w.refs[rid := v]), RefKey(rid), 0, fuel);
      r.Done? ==>
        && r.w.refs == w.refs[rid := v]
        && r.w.log == w.log + Notified(w, w.deps[RefKey(rid)])
  {
    var d := RefKey(rid);
    var p := w.(refs := w.refs[rid := v]);
    ReachLive(w, d);
    SameLive(w, p, d);
    BodiesReadOnly(w, p);
    NotifiedBodies(w, p, w.deps[d]);
    TriggerEffectsReads(p, d, 0, fuel);
    assert p.deps[d][0..] == p.deps[d];
  }

  // ---------------------------------------------------------------------
  // The flush runs every callback, pre-flush callbacks first

  /** The pre-flush pass from `i` runs each remaining callback once, in
      list order, and queues nothing. */
  lemma {:induction false} FlushPreReads(w: World, i: nat, fuel: nat)
    requires Valid(w) && AllReadOnly(w) && i <= |w.jobs.preFlush|
    ensures var r := FlushPre(w, i, fuel);
      r.Done? ==> r.w.log == w.log + RanAll(w.jobs.preFlush[i..]) && r.w.jobs == w.jobs && Bodies(w, r.w)
    decreases fuel, 2
  {
    if fuel > 0 && i < |w.jobs.preFlush| {
      assert w.jobs.preFlush[i] in w.jobs.preFlush;
      FlushPreFirst(w, i, fuel - 1, RunEffect(w, w.jobs.preFlush[i].e, fuel - 1));
    }
  }

  /** The same, once the first callback's outcome `p` is known. */
  lemma {:induction false} FlushPreFirst(w: World, i: nat, fuel: nat, p: Outcome<seq<Value>>)
    requires Valid(w) && AllReadOnly(w) && i < |w.jobs.preFlush| && w.jobs.preFlush[i].e < |w.effects|
    requires p == RunEffect(w, w.jobs.preFlush[i].e, fuel)
    ensures var r := FlushPre(w, i, fuel + 1);
      r.Done? ==> r.w.log == w.log + RanAll(w.jobs.preFlush[i..]) && r.w.jobs == w.jobs && Bodies(w, r.w)
    decreases fuel + 1, 1
  {
    RunEffectReads(w, w.jobs.preFlush[i].e, fuel);
    if p.Done? {
      FlushPreUnfold(w, i, fuel, p.w, p.val);
      BodiesReadOnly(w, p.w);
      FlushPreTail(w, i, fuel, p.w);
    }
  }

  /** The rest of the pass, from the world the first callback left. */
  lemma {:induction false} FlushPreTail(w: World, i: nat, fuel: nat, p: World)
    requires i < |w.jobs.preFlush| && Valid(p) && AllReadOnly(p) && Bodies(w, p)
    requires p.jobs == w.jobs && p.log == w.log + [Ran(w.jobs.preFlush[i].e)]
    ensures var r := FlushPre(p, i + 1, fuel);
      r.Done? ==> r.w.log == w.log + RanAll(w.jobs.preFlush[i..]) && r.w.jobs == w.jobs && Bodies(w, r.w)
    decreases fuel + 1, 0
  {
    FlushPreReads(p, i + 1, fuel);
    var r := FlushPre(p, i + 1, fuel);
    if r.Done? {
      BodiesTrans(w, p, r.w);
      RanAllLog(w.log, p.log, r.w.log, w.jobs.preFlush, i);
    }
  }

  /** Taking the first job off the queue keeps the world well formed. */
  lemma ShiftValid(w: World)
    requires Valid(w) && |w.jobs.queue| > 0
    ensures Valid(w.(jobs := Shift(w.jobs).1)) && w.jobs.queue[0].e < |w.effects|
  {
    assert w.jobs.queue[0] in w.jobs.queue;
    assert forall j :: j in w.jobs.queue[1..] ==> j in w.jobs.queue;
  }

  /** The job loop runs every queued job once, oldest first, and leaves
      the queue empty and the rest of the queues as they were. */
  lemma {:induction false} DrainReads(w: World, fuel: nat)
    requires Valid(w) && AllReadOnly(w)
    ensures var r := Drain(w, fuel);
      r.Done? ==> r.w.log == w.log + RanAll(w.jobs.queue) && r.w.jobs == w.jobs.(queue := [])
    decreases fuel, 2
  {
    if fuel > 0 && |w.jobs.queue| > 0 {
      ShiftValid(w);
      DrainFirst(w, fuel - 1, RunEffect(w.(jobs := Shift(w.jobs).1), w.jobs.queue[0].e, fuel - 1));
    }
  }

  /** The same, once the oldest job's outcome `p` is known. */
  lemma {:induction false} DrainFirst(w: World, fuel: nat, p: Outcome<seq<Value>>)
    requires Valid(w) && AllReadOnly(w) && |w.jobs.queue| > 0
    requires Valid(w.(jobs := Shift(w.jobs).1)) && w.jobs.queue[0].e < |w.effects|
    requires p == RunEffect(w.(jobs := Shift(w.jobs).1), w.jobs.queue[0].e, fuel)
    ensures var r := Drain(w, fuel + 1);
      r.Done? ==> r.w.log == w.log + RanAll(w.jobs.queue) && r.w.jobs == w.jobs.(queue := [])
    decreases fuel + 1, 1
  {
    var w0 := w.(jobs := Shift(w.jobs).1);
    RunEffectReads(w0, w.jobs.queue[0].e, fuel);
    if p.Done? {
      assert Drain(w, fuel + 1) == Drain(p.w, fuel);
      BodiesReadOnly(w0, p.w);
      DrainTail(w, fuel, p.w);
    }
  }

  /** The rest of the loop, from the world the oldest job left. */
  lemma {:induction false} DrainTail(w: World, fuel: nat, p: World)
    requires |w.jobs.queue| > 0 && Valid(p) && AllReadOnly(p)
    requires p.jobs == w.jobs.(queue := w.jobs.queue[1..]) && p.log == w.log + [Ran(w.jobs.queue[0].e)]
    ensures var r := Drain(p, fuel);
      r.Done? ==> r.w.log == w.log + RanAll(w.jobs.queue) && r.w.jobs == w.jobs.(queue := [])
    decreases fuel + 1, 0
  {
    DrainReads(p, fuel);
    var r := Drain(p, fuel);
    if r.Done? {
      assert w.jobs.queue[1..] == p.jobs.queue;
      RanAllLog(w.log, p.log, r.w.log, w.jobs.queue, 0);
      assert w.jobs.queue[0..] == w.jobs.queue;
    }
  }

  /** A microtask turn with a flush pending runs every pre-flush callback,
      in list order, before any job, then every job, oldest first; it
      leaves both queues empty and no flush pending. */
  lemma TickRunsAll(w: World, fuel: nat)
    requires Valid(w) && AllReadOnly(w) && w.jobs.pending
    ensures var r := Tick(w, fuel);
      r.Done? ==>
        && r.w.log == w.log + RanAll(w.jobs.preFlush) + RanAll(w.jobs.queue)
        && r.w.jobs == Empty()
  {
    TickRest(w, fuel, FlushPre(w.(jobs := w.jobs.(pending := false)), 0, fuel));
  }

  lemma TickRest(w: World, fuel: nat, p: Outcome<()>)
    requires Valid(w) && AllReadOnly(w) && w.jobs.pending
    requires p == FlushPre(w.(jobs := w.jobs.(pending := false)), 0, fuel)
    ensures var r := Tick(w, fuel);
      r.Done? ==>
        && r.w.log == w.log + RanAll(w.jobs.preFlush) + RanAll(w.jobs.queue)
        && r.w.jobs == Empty()
  {
    TickPre(w, fuel, p);
    if p.Done? {
      match p.val { case () => }
      TickUnfold(w, fuel, p.w);
      TickDrain(w, fuel, p.w.(jobs := p.w.jobs.(preFlush := [])));
    }
  }

  /** The pre-flush pass of a turn runs every callback in list order. */
  lemma TickPre(w: World, fuel: nat, p: Outcome<()>)
    requires Valid(w) && AllReadOnly(w) && w.jobs.pending
    requires p == FlushPre(w.(jobs := w.jobs.(pending := false)), 0, fuel)
    ensures p.Done? ==>
      && AllReadOnly(p.w)
      && p.w.log == w.log + RanAll(w.jobs.preFlush)
      && p.w.jobs == Queues(w.jobs.queue, w.jobs.preFlush, false)
  {
    var w0 := w.(jobs := w.jobs.(pending := false));
    FlushPreReads(w0, 0, fuel);
    if p.Done? {
      assert w.jobs.preFlush[0..] == w.jobs.preFlush;
      BodiesReadOnly(w0, p.w);
    }
  }

  /** The job loop of a turn, on the world the pre-flush pass left. */
  lemma TickDrain(w: World, fuel: nat, x: World)
    requires Valid(x) && AllReadOnly(x)
    requires x.log == w.log + RanAll(w.jobs.preFlush) && x.jobs.queue == w.jobs.queue
    ensures var r := Drain(x, fuel);
      r.Done? ==>
        && r.w.log == w.log + RanAll(w.jobs.preFlush) + RanAll(w.jobs.queue)
        && r.w.jobs == x.jobs.(queue := [])
  {
    DrainReads(x, fuel);
  }

  /** The turn as written logs the same runs in the same order, but keeps
      the pre-flush list for the next turn. */
  lemma TickAsWrittenRunsAll(w: World, fuel: nat)
    requires Valid(w) && AllReadOnly(w) && w.jobs.pending
    ensures var r := TickAsWritten(w, fuel);
      r.Done? ==>
        && r.w.log == w.log + RanAll(w.jobs.preFlush) + RanAll(w.jobs.queue)
        && r.w.jobs == Queues([], w.jobs.preFlush, false)
  {
    TickAsWrittenRest(w, fuel, FlushPre(w.(jobs := w.jobs.(pending := false)), 0, fuel));
  }

  lemma TickAsWrittenRest(w: World, fuel: nat, p: Outcome<()>)
    requires Valid(w) && AllReadOnly(w) && w.jobs.pending
    requires p == FlushPre(w.(jobs := w.jobs.(pending := false)), 0, fuel)
    ensures var r := TickAsWritten(w, fuel);
      r.Done? ==>
        && r.w.log == w.log + RanAll(w.jobs.preFlush) + RanAll(w.jobs.queue)
        && r.w.jobs == Queues([], w.jobs.preFlush, false)
  {
    TickPre(w, fuel, p);
    if p.Done? {
      match p.val { case () => }
      TickAsWrittenUnfold(w, fuel, p.w);
      TickDrain(w, fuel, p.w);
    }
  }
}

=== FILE: reactive_properties.dfy ===
/** What the reactive engine promises at its public surface: `effect`,
    `ref`, `stop` and the flush keep the invariants of `ReactiveInvariants`;
    a stopped effect is never run or scheduled again by a write or a flush;
    and the scenarios of the engine's own tests (effect.spec.ts, ref.spec.ts
    and apiWatch.spec.ts) come out as those tests expect. */
module ReactiveProperties {
  import opened Values
  import opened Wrappers
  import opened Scheduler
  import opened Reactivity
  import opened ReactiveInvariants

  // ---------------------------------------------------------------------
  // The public operations keep the invariant

  lemma InitialReach()
    ensures Reach(Initial()) && !Initial().shouldTrack
  {
  }

  /** `ref(v)` keeps the invariant: the new cell's set is empty. */
  lemma NewRefKeepsReach(w: World, v: Value)
    requires Reach(w)
    ensures Reach(NewRef(w, v).0)
    ensures NewRef(w, v).0.deps[RefKey(NewRef(w, v).1)] == []
  {
    var (w1, rid) := NewRef(w, v);
    forall d, i | d in w1.deps && 0 <= i < |w1.deps[d]|
      ensures d in w1.effects[w1.deps[d][i]].deps
    {
      assert d != RefKey(rid);
    }
  }

  /** `effect(fn)` keeps the invariant, and no effect stopped before it runs
      or is scheduled while the new effect's first run lasts. */
  lemma CreateEffectKeepsReach(w: World, body: seq<Op>, scheduler: SchedulerKind, onStop: bool, fuel: nat)
    requires Reach(w) && BodyValid(|w.refs|, body)
    ensures var r := CreateEffect(w, body, scheduler, onStop, fuel);
      !r.Exhausted? ==>
        && Reach(r.w)
        && (forall x :: 0 <= x < |w.effects| && !w.effects[x].active ==> Quiet(w, r.w, x))
  {
    var w1 := AddEffect(w, body, scheduler, onStop);
    var e := |w.effects|;
    assert Reach(w1) by {
      assert forall x :: 0 <= x < |w.effects| ==> w1.effects[x] == w.effects[x];
    }
    var p := RunEffect(w1, e, fuel);
    RunEffectStep(w1, e, fuel);
    if !p.Exhausted? {
      forall x | 0 <= x < |w.effects| && !w.effects[x].active
        ensures Quiet(w, p.w, x)
      {
        assert w1.effects[x] == w.effects[x];
        assert Quiet(w1, p.w, x);
      }
    }
  }

  /** `stop` keeps the invariant, unless it stops the effect that tracking
      is still switched on for (possible only after that effect's function
      threw), and afterwards no subscriber set holds the effect. */
  lemma StopKeepsReach(w: World, e: EffectId)
    requires Reach(w) && e < |w.effects|
    requires !(w.shouldTrack && w.activeEffect == Some(e))
    ensures Reach(Stop(w, e))
    ensures forall d :: d in Stop(w, e).deps ==> e !in Stop(w, e).deps[d]
  {
    var r := Stop(w, e);
    var eff := w.effects[e];
    if eff.active {
      forall d, i | d in r.deps && 0 <= i < |r.deps[d]|
        ensures d in r.effects[r.deps[d][i]].deps
      {
        var x := r.deps[d][i];
        assert x in r.deps[d];
        assert x in w.deps[d];
        var k :| 0 <= k < |w.deps[d]| && w.deps[d][k] == x;
      }
    }
  }

  /** Stopping twice is stopping once. */
  lemma StopIdempotent(w: World, e: EffectId)
    requires Valid(w) && e < |w.effects|
    ensures Stop(Stop(w, e), e) == Stop(w, e)
    ensures |Stop(w, e).log| <= |w.log| + 1
  {
  }

  // ---------------------------------------------------------------------
  // A stopped effect stays stopped

  /** No event of effect `e` was logged between the two worlds. */
  ghost predicate Silent(w: World, w': World, e: EffectId) {
    forall i :: |w.log| <= i < |w'.log| ==> w'.log[i] != Ran(e) && w'.log[i] != Scheduled(e)
  }

  /** After `stop(runner)`, a write through any proxy neither runs the
      effect nor calls its scheduler, and queues no work for it. */
  lemma StoppedEffectIgnoresSet(w: World, e: EffectId, obj: Value, key: string, v: Value, fuel: nat)
    requires Reach(w) && e < |w.effects| && !(w.shouldTrack && w.activeEffect == Some(e))
    ensures var w1 := Stop(w, e);
      var r := Set(w1, obj, key, v, fuel);
      !r.Exhausted? ==> Silent(w1, r.w, e) && (NoJobsOf(w1, e) ==> NoJobsOf(r.w, e))
  {
    var w1 := Stop(w, e);
    StopKeepsReach(w, e);
    SetStep(w1, obj, key, v, fuel);
  }

  /** The same for a write to a ref. */
  lemma StoppedEffectIgnoresRefSet(w: World, e: EffectId, rid: RefId, v: Value, fuel: nat)
    requires Reach(w) && e < |w.effects| && rid < |w.refs| && !(w.shouldTrack && w.activeEffect == Some(e))
    ensures var w1 := Stop(w, e);
      var r := RefSet(w1, rid, v, fuel);
      !r.Exhausted? ==> Silent(w1, r.w, e) && (NoJobsOf(w1, e) ==> NoJobsOf(r.w, e))
  {
    var w1 := Stop(w, e);
    StopKeepsReach(w, e);
    RefSetStep(w1, rid, v, fuel);
  }

  /** A flush does not run a stopped effect that has no work queued. */
  lemma StoppedEffectIgnoresTick(w: World, e: EffectId, fuel: nat)
    requires Reach(w) && e < |w.effects| && !w.effects[e].active && NoJobsOf(w, e)
    ensures var r := Tick(w, fuel);
      !r.Exhausted? ==> Silent(w, r.w, e) && NoJobsOf(r.w, e)
  {
    TickStep(w, fuel);
  }
}

=== FILE: reactive_scenarios.dfy ===
/** The scenarios of the reactive engine's tests, run symbolically: a
    reactive object `user` (raw object 0) whose `age` holds a primitive, and
    one effect whose function reads `user.age`. Each lemma takes one step of
    a test (create the effect, write the key, flush) from any world of the
    stated shape, and states exactly which runs, scheduler calls and queue
    changes it makes. */
module ReactiveScenarios {
  import opened Values
  import opened Wrappers
  import opened Shared
  import opened Scheduler
  import opened Reactivity

  function User(): Value { Proxy(Mutable, Obj(0)) }
  function AgeKey(): DepKey { TargetKey(Obj(0), "age") }
  function AgeBody(): seq<Op> { [Read(User(), "age")] }
  function Age(w: World): Value { ReadProp(w, ObjKey(0), "age") }

  /** A world whose only effect is the age effect, subscribed to `age`. */
  ghost predicate AgeOnly(w: World) {
    && Valid(w) && |w.effects| == 1 && w.effects[0].body == AgeBody() && w.effects[0].active
    && AgeKey() in w.effects[0].deps
    && w.deps == map[AgeKey() := [0]] && !IsObject(Age(w))
  }

  /** `user.age` inside a run: tracked, and the stored value is read. */
  lemma ReadAge(w: World, fuel: nat)
    requires Valid(w) && fuel >= 2 && !IsObject(Age(w))
    ensures ExecOps(w, AgeBody(), fuel) == Done(Track(w, AgeKey()), [Age(w)])
  {
    var w3 := Track(w, AgeKey());
    assert Get(w, User(), "age") == Done(w3, Age(w));
    assert ExecOp(w, AgeBody()[0], fuel - 1) == Done(w3, [Age(w)]);
    assert ExecOps(w3, AgeBody()[1..], fuel - 1) == Done(w3, []);
    assert [Age(w)] + [] == [Age(w)];
  }

  /** The world after an active age effect ran again. */
  function Rerun(w: World): World
    requires Valid(w) && |w.effects| > 0
  {
    Track(StartRun(w, 0), AgeKey()).(shouldTrack := false)
  }

  /** What a run of the active age effect changes. */
  lemma RerunFacts(w: World)
    requires Valid(w) && |w.effects| > 0 && w.effects[0].active
    ensures Rerun(w).log == w.log + [Ran(0)] && !Rerun(w).shouldTrack && Rerun(w).activeEffect == Some(0)
    ensures Rerun(w).heap == w.heap && Rerun(w).jobs == w.jobs && |Rerun(w).effects| == |w.effects|
    ensures Rerun(w).effects[0] == w.effects[0].(deps := w.effects[0].deps + [AgeKey()])
    ensures AgeKey() in w.deps && 0 in w.deps[AgeKey()] ==> Rerun(w).deps == w.deps
  {
  }

  /** Running the active age effect: one run, tracking `age` once more. */
  lemma RunAge(w: World, fuel: nat)
    requires Valid(w) && |w.effects| > 0 && w.effects[0].body == AgeBody() && w.effects[0].active
    requires fuel >= 3 && !IsObject(Age(w))
    ensures RunEffect(w, 0, fuel) == Done(Rerun(w), [Age(w)])
    ensures Rerun(w).log == w.log + [Ran(0)] && !Rerun(w).shouldTrack && Rerun(w).activeEffect == Some(0)
    ensures Rerun(w).heap == w.heap && Rerun(w).jobs == w.jobs && |Rerun(w).effects| == |w.effects|
    ensures Rerun(w).effects[0] == w.effects[0].(deps := w.effects[0].deps + [AgeKey()])
    ensures AgeKey() in w.deps && 0 in w.deps[AgeKey()] ==> Rerun(w).deps == w.deps
  {
    var f := fuel - 1;
    var c := StartRun(w, 0);
    assert Age(c) == Age(w);
    ReadAge(c, f);
    RunActiveUnfold(w, 0, f, Track(c, AgeKey()), [Age(w)]);
    assert f + 1 == fuel;
    RerunFacts(w);
  }

  /** Running the age effect after it was stopped: the function still runs
      and reads, and nothing is tracked. */
  lemma RunStoppedAge(w: World, fuel: nat)
    requires Valid(w) && |w.effects| > 0 && w.effects[0].body == AgeBody() && !w.effects[0].active
    requires fuel >= 3 && !IsObject(Age(w)) && !w.shouldTrack
    ensures RunEffect(w, 0, fuel) == Done(w.(log := w.log + [Ran(0)]), [Age(w)])
  {
    var c := StartRun(w, 0);
    assert c == w.(log := w.log + [Ran(0)]);
    assert Age(c) == Age(w);
    ReadAge(c, fuel - 1);
  }

  // ---------------------------------------------------------------------
  // effect.spec.ts: happy path and scheduler

  /** `effect(fn, { scheduler })` in a world without effects: `fn` runs
      once, through `run` and never the scheduler, and the new effect is
      subscribed to `age`. */
  lemma CreateAge(w: World, scheduler: SchedulerKind, fuel: nat)
    requires Valid(w) && w.effects == [] && w.deps == map[] && !IsObject(Age(w)) && fuel >= 3
    ensures var r := CreateEffect(w, AgeBody(), scheduler, false, fuel);
      && r.Done? && r.val == 0
      && AgeOnly(r.w)
      && r.w.effects[0] == Effect(AgeBody(), [AgeKey()], true, scheduler, false)
      && r.w.log == w.log + [Ran(0)]
      && r.w.heap == w.heap && r.w.jobs == w.jobs && !r.w.shouldTrack
  {
    var w1 := AddEffect(w, AgeBody(), scheduler, false);
    RunAge(w1, fuel);
    var w2 := Rerun(w1);
    assert w2.deps == map[AgeKey() := [0]];
    assert [] + [AgeKey()] == [AgeKey()];
    assert w2.effects[0] == Effect(AgeBody(), [AgeKey()], true, scheduler, false);
    assert w2.effects == [Effect(AgeBody(), [AgeKey()], true, scheduler, false)];
  }

  /** `user.age = n` with the age effect subscribed and no scheduler: the
      value is stored, then the effect runs once more and sees it. */
  lemma SetReruns(w: World, n: Value, fuel: nat)
    requires AgeOnly(w) && w.effects[0].scheduler == NoScheduler && fuel >= 7 && !IsObject(n)
    ensures var r := Set(w, User(), "age", n, fuel);
      && r.Done? && r.val
      && Age(r.w) == n
      && r.w.log == w.log + [Ran(0)]
      && r.w.effects[0].deps == w.effects[0].deps + [AgeKey()]
      && r.w.deps == w.deps && r.w.jobs == w.jobs
  {
    var f := fuel - 1;
    var b := WriteProp(w, ObjKey(0), "age", n);
    assert AgeOnly(b);
    TriggerAge(b, f);
    RerunFacts(b);
    SetProxyUnfold(w, Obj(0), "age", n, f, b, Rerun(b));
    assert f + 1 == fuel;
  }

  lemma TriggerAge(b: World, fuel: nat)
    requires AgeOnly(b) && b.effects[0].scheduler == NoScheduler && fuel >= 6
    ensures Trigger(b, AgeKey(), fuel) == Done(Rerun(b), ())
  {
    var g := fuel - 1;
    WalkAge(b, g);
    TriggerUnfold(b, AgeKey(), g);
    assert g + 1 == fuel;
  }

  /** The walk over `age`'s subscribers: the age effect runs once. */
  lemma WalkAge(b: World, g: nat)
    requires AgeOnly(b) && b.effects[0].scheduler == NoScheduler && g >= 5
    ensures TriggerEffects(b, AgeKey(), 0, g) == Done(Rerun(b), ())
  {
    var f := g - 2;
    var d := Rerun(b);
    DispatchAge(b, f);
    assert b.deps[AgeKey()][0] == 0;
    TriggerEffectsUnfold(b, AgeKey(), 0, f + 1, d);
    TriggerEffectsEndUnfold(d, AgeKey(), 1, f);
    assert f + 1 + 1 == g;
  }

  /** Notifying the age effect without a scheduler runs it. */
  lemma DispatchAge(b: World, f: nat)
    requires AgeOnly(b) && b.effects[0].scheduler == NoScheduler && f >= 3
    ensures Dispatch(b, 0, f + 1) == Done(Rerun(b), ())
    ensures Rerun(b).deps == b.deps
  {
    RunAge(b, f);
    DispatchRunUnfold(b, 0, f, Rerun(b), [Age(b)]);
  }

  /** The queues after the age effect's scheduler was called once. */
  function AfterScheduler(q: Queues<Job>, scheduler: SchedulerKind): Queues<Job> {
    match scheduler
    case PreFlushScheduler => QueuePreFlushCb(q, WatchJob(0))
    case JobScheduler => QueueJob(q, RunnerJob(0))
    case _ => q
  }

  /** `user.age = n` when the age effect has a scheduler: the value is
      stored and the scheduler is called once instead of the function. */
  lemma SetSchedules(w: World, n: Value, fuel: nat)
    requires AgeOnly(w) && !w.effects[0].scheduler.NoScheduler? && fuel >= 4
    ensures var r := Set(w, User(), "age", n, fuel);
      && r.Done? && r.val
      && Age(r.w) == n
      && r.w.log == w.log + [Scheduled(0)]
      && r.w.effects == w.effects && r.w.deps == w.deps
      && r.w.shouldTrack == w.shouldTrack
      && r.w.jobs == AfterScheduler(w.jobs, w.effects[0].scheduler)
  {
    SetCallsScheduler(w, n, fuel);
    ScheduledFacts(w, n);
  }

  /** The world after `user.age = n` handed the age effect to its scheduler. */
  function ScheduledWorld(w: World, n: Value): World
    requires Valid(w) && |w.effects| > 0
  {
    var b := WriteProp(w, ObjKey(0), "age", n);
    b.(log := b.log + [Scheduled(0)], jobs := AfterScheduler(b.jobs, b.effects[0].scheduler))
  }

  lemma ScheduledFacts(w: World, n: Value)
    requires AgeOnly(w)
    ensures var c := ScheduledWorld(w, n);
      && Age(c) == n && c.log == w.log + [Scheduled(0)]
      && c.effects == w.effects && c.deps == w.deps && c.shouldTrack == w.shouldTrack
      && c.jobs == AfterScheduler(w.jobs, w.effects[0].scheduler)
      && AgeOnly(c) == !IsObject(n)
  {
  }

  lemma SetCallsScheduler(w: World, n: Value, fuel: nat)
    requires AgeOnly(w) && !w.effects[0].scheduler.NoScheduler? && fuel >= 4
    ensures Set(w, User(), "age", n, fuel) == Done(ScheduledWorld(w, n), true)
  {
    var g := fuel - 4;
    var b := WriteProp(w, ObjKey(0), "age", n);
    TriggerSchedules(w, n, g);
    SetProxyUnfold(w, Obj(0), "age", n, g + 1 + 1 + 1, b, ScheduledWorld(w, n));
    assert g + 1 + 1 + 1 + 1 == fuel;
  }

  /** The trigger after the raw write hands the age effect to its scheduler. */
  lemma TriggerSchedules(w: World, n: Value, g: nat)
    requires AgeOnly(w) && !w.effects[0].scheduler.NoScheduler?
    ensures var b := WriteProp(w, ObjKey(0), "age", n);
      && Valid(b) && Trigger(b, AgeKey(), g + 1 + 1 + 1) == Done(ScheduledWorld(w, n), ())
  {
    var b := WriteProp(w, ObjKey(0), "age", n);
    var c := ScheduledWorld(w, n);
    assert Valid(b) && b.deps == w.deps && b.effects == w.effects;
    assert b.deps[AgeKey()][0] == 0;
    assert Dispatch(b, 0, g + 1) == Done(c, ());
    TriggerEffectsUnfold(b, AgeKey(), 0, g + 1, c);
    TriggerEffectsEndUnfold(c, AgeKey(), 1, g);
    TriggerUnfold(b, AgeKey(), g + 1 + 1);
  }

  /** The scheduler test: the write calls the scheduler and does not run
      the function; calling the runner afterwards runs it on the new value. */
  lemma SchedulerThenRunner(w: World, n: Value, fuel: nat)
    requires AgeOnly(w) && w.effects[0].scheduler.SpyScheduler? && fuel >= 4 && !IsObject(n)
    ensures var r := Set(w, User(), "age", n, fuel);
      && r.Done?
      && r.w.log == w.log + [Scheduled(0)]
      && RunEffect(r.w, 0, fuel) == Done(Rerun(r.w), [n])
      && Rerun(r.w).log == w.log + [Scheduled(0), Ran(0)]
  {
    SetCallsScheduler(w, n, fuel);
    RunnerAfterSchedule(w, n, fuel);
  }

  lemma RunnerAfterSchedule(w: World, n: Value, fuel: nat)
    requires AgeOnly(w) && fuel >= 3 && !IsObject(n)
    ensures var c := ScheduledWorld(w, n);
      && c.log == w.log + [Scheduled(0)]
      && RunEffect(c, 0, fuel) == Done(Rerun(c), [n])
      && Rerun(c).log == w.log + [Scheduled(0), Ran(0)]
  {
    var c := ScheduledWorld(w, n);
    ScheduledFacts(w, n);
    RunAgeOf(c, fuel);
    assert w.log + [Scheduled(0)] + [Ran(0)] == w.log + [Scheduled(0), Ran(0)];
  }

  // ---------------------------------------------------------------------
  // apiWatch.spec.ts, and the pre-flush list

  /** The pre-flush pass with the age effect's job as the only callback:
      the function runs once. */
  lemma FlushWatch(w: World, fuel: nat)
    requires AgeOnly(w) && w.jobs.preFlush == [WatchJob(0)] && fuel >= 4
    ensures FlushPre(w, 0, fuel) == Done(Rerun(w), ())
  {
    var g := fuel - 2;
    FlushWatchAt(w, g);
    assert g + 1 + 1 == fuel;
  }

  lemma FlushWatchAt(w: World, g: nat)
    requires AgeOnly(w) && w.jobs.preFlush == [WatchJob(0)] && g >= 2
    ensures FlushPre(w, 0, g + 1 + 1) == Done(Rerun(w), ())
  {
    var p := Rerun(w);
    RunAgeKeepsJobs(w, g + 1);
    assert w.jobs.preFlush[0].e == 0;
    FlushPreUnfold(w, 0, g + 1, p, [Age(w)]);
    FlushPreEndUnfold(p, 1, g);
  }

  lemma RunAgeOf(w: World, fuel: nat)
    requires AgeOnly(w) && fuel >= 3
    ensures RunEffect(w, 0, fuel) == Done(Rerun(w), [Age(w)]) && Rerun(w).log == w.log + [Ran(0)]
  {
    RunAge(w, fuel);
  }

  lemma RunAgeKeepsJobs(w: World, fuel: nat)
    requires AgeOnly(w) && fuel >= 3
    ensures RunEffect(w, 0, fuel) == Done(Rerun(w), [Age(w)]) && Rerun(w).jobs == w.jobs
  {
    RunAge(w, fuel);
  }

  /** `await nextTick()` after `state.count++` in the watchEffect test: the
      queued callback runs the function once, and the corrected flush leaves
      both queues empty and no flush pending. */
  lemma TickRunsWatch(w: World, fuel: nat)
    requires AgeOnly(w) && w.jobs == Queues([], [WatchJob(0)], true) && fuel >= 4
    ensures var r := Tick(w, fuel);
      && r.Done?
      && r.w.log == w.log + [Ran(0)]
      && Age(r.w) == Age(w) && r.w.deps == w.deps
      && r.w.jobs == Empty()
  {
    var w0 := w.(jobs := w.jobs.(pending := false));
    FlushWatch(w0, fuel);
    var p := Rerun(w0);
    RerunFacts(w0);
    TickUnfold(w, fuel, p);
    var p1 := p.(jobs := p.jobs.(preFlush := []));
    DrainEmptyUnfold(p1, fuel - 1);
    assert fuel - 1 + 1 == fuel;
  }

  /** The same turn as written: the function runs once too, but the
      callback stays queued for every later flush. */
  lemma TickAsWrittenKeepsWatch(w: World, fuel: nat)
    requires AgeOnly(w) && w.jobs == Queues([], [WatchJob(0)], true) && fuel >= 4
    ensures var r := TickAsWritten(w, fuel);
      && r.Done?
      && r.w.log == w.log + [Ran(0)]
      && r.w.jobs == Queues([], [WatchJob(0)], false)
  {
    var w0 := w.(jobs := w.jobs.(pending := false));
    FlushWatch(w0, fuel);
    var p := Rerun(w0);
    RerunFacts(w0);
    TickAsWrittenUnfold(w, fuel, p);
    DrainEmptyUnfold(p, fuel - 1);
    assert fuel - 1 + 1 == fuel;
  }

  /** The whole watchEffect test on the corrected flush: creation runs the
      function, the write only queues the callback, and the flush runs it on
      the new value. */
  lemma WatchEffectRunsBeforeFlush(w: World, n: Value, fuel: nat)
    requires Valid(w) && w.effects == [] && w.deps == map[] && !IsObject(Age(w)) && !IsObject(n)
    requires w.jobs == Empty() && fuel >= 4
    ensures var c := WatchEffect(w, AgeBody(), fuel);
      && c.Done? && c.w.log == w.log + [Ran(0)]
      && var s := Set(c.w, User(), "age", n, fuel);
      && s.Done? && s.w.log == c.w.log + [Scheduled(0)] && Age(s.w) == n
      && var t := Tick(s.w, fuel);
      && t.Done? && t.w.log == s.w.log + [Ran(0)]
      && Age(t.w) == n && t.w.jobs == Empty()
  {
    var c := WatchEffect(w, AgeBody(), fuel);
    assert c == CreateEffect(w, AgeBody(), PreFlushScheduler, false, fuel);
    CreateAge(w, PreFlushScheduler, fuel);
    assert AgeOnly(c.w) && c.w.effects[0].scheduler.PreFlushScheduler? && c.w.jobs == Empty();
    var s := Set(c.w, User(), "age", n, fuel);
    SetSchedules(c.w, n, fuel);
    assert s.w.jobs == Queues([], [WatchJob(0)], true);
    assert AgeOnly(s.w) by {
      assert s.w.effects == c.w.effects && s.w.deps == c.w.deps;
    }
    TickRunsWatch(s.w, fuel);
  }

  /** The "stopping the watch" test: after the returned closure runs, the
      write neither calls the scheduler nor asks for a flush, and the next
      turn does nothing. */
  lemma StoppedWatchStaysStill(w: World, n: Value, fuel: nat)
    requires AgeOnly(w) && w.effects[0].scheduler.PreFlushScheduler? && !w.effects[0].onStop
    requires w.jobs == Empty() && fuel >= 3
    ensures var w1 := Stop(w, 0);
      var s := Set(w1, User(), "age", n, fuel);
      && s.Done? && s.w.log == w.log && Age(s.w) == n
      && s.w.jobs == Empty()
      && Tick(s.w, fuel) == Done(s.w, ())
  {
    StopAge(w);
    QuietWrite(Stop(w, 0), n, fuel);
  }

  /** Stopping the age effect empties its one subscriber set and leaves the
      log and the queues alone when it has no onStop hook. */
  lemma StopAge(w: World)
    requires AgeOnly(w) && !w.effects[0].onStop
    ensures var w1 := Stop(w, 0);
      && w1.deps == map[AgeKey() := []] && w1.log == w.log && w1.jobs == w.jobs
  {
  }

  /** A write of `age` nobody subscribes to only stores the value. */
  lemma QuietWrite(w1: World, n: Value, fuel: nat)
    requires Valid(w1) && w1.deps == map[AgeKey() := []] && w1.jobs == Empty() && fuel >= 3
    ensures var s := Set(w1, User(), "age", n, fuel);
      && s.Done? && s.w.log == w1.log && Age(s.w) == n
      && s.w.jobs == Empty()
      && Tick(s.w, fuel) == Done(s.w, ())
  {
    var b := WriteProp(w1, ObjKey(0), "age", n);
    assert Set(w1, Obj(0), "age", n, fuel - 1) == Done(b, true);
  }

  /** The flush as written runs a stopped watchEffect again: after the first
      flush left the callback queued, `stop()` and then any other request
      for a flush (a component update, say) make the next turn run the
      stopped effect's function. */
  lemma StaleCallbackRunsStoppedEffect(w: World, fuel: nat)
    requires AgeOnly(w) && w.jobs == Queues([], [WatchJob(0)], false) && !w.shouldTrack && fuel >= 4
    ensures var w1 := Stop(w, 0);
      var w2 := w1.(jobs := QueueFlush(w1.jobs).0);
      var r := TickAsWritten(w2, fuel);
      && !w1.effects[0].active
      && r.Done? && r.w.log == w1.log + [Ran(0)]
  {
    var w1 := Stop(w, 0);
    assert Valid(w1) && |w1.effects| == 1 && w1.effects[0].body == AgeBody() && !w1.effects[0].active;
    assert w1.jobs == w.jobs && !w1.shouldTrack && Age(w1) == Age(w);
    StaleTurn(w1, fuel);
  }

  /** The as-written turn on a world whose stopped age effect is still the
      one queued pre-flush callback: the effect runs once more. */
  lemma StaleTurn(w1: World, fuel: nat)
    requires Valid(w1) && |w1.effects| == 1 && w1.effects[0].body == AgeBody() && !w1.effects[0].active
    requires w1.jobs == Queues([], [WatchJob(0)], false) && !w1.shouldTrack && !IsObject(Age(w1)) && fuel >= 4
    ensures var w2 := w1.(jobs := QueueFlush(w1.jobs).0);
      var r := TickAsWritten(w2, fuel);
      r.Done? && r.w.log == w1.log + [Ran(0)]
  {
    var w2 := w1.(jobs := QueueFlush(w1.jobs).0);
    var w0 := w2.(jobs := w2.jobs.(pending := false));
    assert w0 == w1;
    RunStoppedAge(w1, fuel - 1);
    var p := w1.(log := w1.log + [Ran(0)]);
    assert FlushPre(p, 1, fuel - 1) == Done(p, ());
    assert FlushPre(w1, 0, fuel) == Done(p, ());
    assert Drain(p, fuel) == Done(p, ());
  }

  /** The same sequence on the corrected flush: the first turn emptied the
      list, so after `stop()` a later turn runs nothing. */
  lemma StoppedWatchNotRerun(w: World, fuel: nat)
    requires AgeOnly(w) && w.jobs == Empty() && fuel >= 1
    ensures var w1 := Stop(w, 0);
      var w2 := w1.(jobs := QueueFlush(w1.jobs).0);
      Tick(w2, fuel) == Done(w1, ())
  {
    var w1 := Stop(w, 0);
    assert FlushPre(w1, 0, fuel) == Done(w1, ());
    assert Drain(w1, fuel) == Done(w1, ());
  }

  // ---------------------------------------------------------------------
  // ref.spec.ts: an effect reading `a.value`

  /** A world whose only effect reads ref 0 and is subscribed to it. */
  ghost predicate RefOnly(w: World) {
    && Valid(w) && |w.refs| == 1 && |w.effects| == 1
    && w.effects[0].body == [ReadRef(0)] && w.effects[0].active
    && w.effects[0].scheduler.NoScheduler?
    && RefKey(0) in w.effects[0].deps
    && w.deps == map[RefKey(0) := [0]]
  }

  /** The function of the ref effect, run from its start world. */
  lemma RunRef(c: World, fuel: nat)
    requires Valid(c) && |c.refs| == 1 && IsTracking(c) && fuel >= 2
    ensures ExecOps(c, [ReadRef(0)], fuel) == Done(Track(c, RefKey(0)), [c.refs[0]])
  {
    var c1 := Track(c, RefKey(0));
    assert ExecOp(c, ReadRef(0), fuel - 1) == Done(c1, [c.refs[0]]);
    assert ExecOps(c1, [ReadRef(0)][1..], fuel - 1) == Done(c1, []);
    assert [c.refs[0]] + [] == [c.refs[0]];
  }

  /** `a.value = v` with a new value: stored, then the effect runs once and
      reads it; the same value written again changes nothing. */
  lemma RefSetReruns(w: World, v: Value, fuel: nat)
    requires RefOnly(w) && !SameValue(w.refs[0], v) && fuel >= 6
    ensures var r := RefSet(w, 0, v, fuel);
      && r.Done?
      && r.w.refs == [v]
      && r.w.log == w.log + [Ran(0)]
      && r.w.deps == w.deps
      && RefSet(r.w, 0, v, fuel) == Done(r.w, ())
  {
    var g := fuel - 4;
    RefSetUnfold(w, 0, v, g + 1 + 1 + 1);
    var b := w.(refs := w.refs[0 := v]);
    var c := StartRun(b, 0);
    RunRef(c, g);
    var c1 := Track(c, RefKey(0));
    assert b.effects[0].body == [ReadRef(0)] && c.refs[0] == v;
    RunActiveUnfold(b, 0, g, c1, [v]);
    var d := c1.(shouldTrack := false);
    DispatchRunUnfold(b, 0, g + 1, d, [v]);
    assert b.deps[RefKey(0)][0] == 0;
    TriggerEffectsUnfold(b, RefKey(0), 0, g + 1 + 1, d);
    assert d.deps == w.deps && d.refs == [v];
    TriggerEffectsEndUnfold(d, RefKey(0), 1, g + 1);
    assert g + 1 + 1 + 1 + 1 == fuel;
    assert SameValue(v, v);
  }

  // ---------------------------------------------------------------------
  // A function that throws

  /** Reads `user.age`, then `null.x`. */
  function ThrowBody(): seq<Op> { [Read(User(), "age"), Read(Null, "x")] }

  /** `run` has no `finally`: when the function throws, tracking stays on
      with the effect still active, so a read made afterwards outside any
      effect subscribes that effect, even once it has been stopped. */
  lemma ThrowLeavesTrackingOn(w: World, fuel: nat)
    requires Valid(w) && w.effects == [] && w.deps == map[] && !IsObject(Age(w)) && fuel >= 4
    ensures var r := CreateEffect(w, ThrowBody(), NoScheduler, false, fuel);
      && r.Thrown? && r.err == TypeError
      && r.w.shouldTrack && r.w.activeEffect == Some(0)
      && var s := Stop(r.w, 0);
      && !s.effects[0].active && AgeKey() in s.deps && 0 !in s.deps[AgeKey()]
      && var g := Get(s, User(), "age");
      && g.Done? && AgeKey() in g.w.deps && 0 in g.w.deps[AgeKey()]
  {
    var c1 := ThrowRun(w, fuel);
    StopThenRead(c1);
  }

  /** The throwing effect's first run: `user.age` subscribes it, and the
      read of `null.x` throws with tracking still on. */
  lemma ThrowRun(w: World, fuel: nat) returns (c1: World)
    requires Valid(w) && w.effects == [] && w.deps == map[] && !IsObject(Age(w)) && fuel >= 4
    ensures Valid(c1) && CreateEffect(w, ThrowBody(), NoScheduler, false, fuel) == Thrown(c1, TypeError)
    ensures |c1.effects| == 1 && c1.effects[0].active && c1.effects[0].deps == [AgeKey()]
    ensures c1.deps == map[AgeKey() := [0]] && c1.shouldTrack && c1.activeEffect == Some(0) && Age(c1) == Age(w)
  {
    var w1 := AddEffect(w, ThrowBody(), NoScheduler, false);
    var c := StartRun(w1, 0);
    c1 := Track(c, AgeKey());
    assert Get(c, User(), "age") == Done(c1, Age(w));
    assert ExecOp(c, ThrowBody()[0], fuel - 2) == Done(c1, [Age(w)]);
    assert ExecOp(c1, Read(Null, "x"), fuel - 3) == Thrown(c1, TypeError);
    assert ExecOps(c1, ThrowBody()[1..], fuel - 2) == Thrown(c1, TypeError);
    assert ExecOps(c, ThrowBody(), fuel - 1) == Thrown(c1, TypeError);
  }

  /** With tracking left on for effect 0, stopping it unsubscribes it, and
      the next read outside any effect subscribes it again. */
  lemma StopThenRead(c1: World)
    requires Valid(c1) && |c1.effects| == 1 && c1.effects[0].active && c1.effects[0].deps == [AgeKey()]
    requires c1.deps == map[AgeKey() := [0]] && c1.shouldTrack && c1.activeEffect == Some(0) && !IsObject(Age(c1))
    ensures var s := Stop(c1, 0);
      && !s.effects[0].active && AgeKey() in s.deps && 0 !in s.deps[AgeKey()]
      && var g := Get(s, User(), "age");
      && g.Done? && AgeKey() in g.w.deps && 0 in g.w.deps[AgeKey()]
  {
    var s := Stop(c1, 0);
    assert s.deps[AgeKey()] == Remove([0], 0);
    assert IsTracking(s);
    assert Get(s, User(), "age") == Done(Track(s, AgeKey()), Age(s));
  }

  /** `unRef(ref(1))` outside any effect: the getter as written answers
      `undefined`; the corrected one answers 1 and tracks nothing. */
  lemma RefReadOutsideEffect(w: World)
    requires Valid(w) && !IsTracking(w)
    ensures var (w1, rid) := NewRef(w, Num(NonZero(1.0)));
      && RefGetAsWritten(w1, rid) == (w1, Undefined)
      && RefGet(w1, rid) == (w1, Num(NonZero(1.0)))
  {
    var (w1, rid) := NewRef(w, Num(NonZero(1.0)));
    assert !IsTracking(w1);
  }
}

=== FILE: reactivity.dfy ===
/** The reactive dependency engine of packages/reactivity/src/effect.ts and
    packages/reactivity/src/reactive.ts, the ref cell of
    src/reactivity/ref.ts, `watchEffect` and the flush of the scheduler, as
    one functional state machine.

    The world holds the raw objects, the ref cells, the dependency store
    (`targetMap`, flattened to one map from a target/key pair or a ref to its
    subscriber set), the effect records, the two globals `activeEffect` and
    `shouldTrack`, the scheduler queues and a log of the observable calls
    (an effect's function running, a scheduler being called, an `onStop`
    hook, a readonly warning).

    An effect's function is a sequence of property reads and writes; its
    return value is the sequence of values it read. Because an effect can
    trigger itself without end, every step of the mutually recursive
    semantics spends one unit of `fuel`; `Exhausted` is the outcome when the
    fuel runs out. A JavaScript exception is the outcome `Thrown`, carrying
    the world as it was when the exception escaped. */
module Reactivity {
  import opened Values
  import opened Wrappers
  import opened Shared
  import opened Scheduler

  const IS_REACTIVE: string := "__v_isReactive"
  const IS_READONLY: string := "__v_isReadonly"

  type EffectId = nat
  type RefId = nat

  /** The identity of a raw object or function in the heap. */
  datatype HeapKey = ObjKey(id: nat) | FuncKey(fid: nat)

  /** Where a subscriber set lives: under a target and key of `targetMap`,
      or in a ref cell. */
  datatype DepKey = TargetKey(target: Value, key: string) | RefKey(r: RefId)

  /** One step of an effect's function. */
  datatype Op =
    | Read(obj: Value, key: string)            // obj[key]
    | Write(obj: Value, key: string, v: Value) // obj[key] = v
    | ReadRef(r: RefId)                        // ref.value
    | WriteRef(r: RefId, v: Value)             // ref.value = v

  /** The scheduler an effect was given: none, one that only records the
      call, the one `watchEffect` installs (queue the effect's job as a
      pre-flush callback), or one that queues the effect's runner as a job. */
  datatype SchedulerKind = NoScheduler | SpyScheduler | PreFlushScheduler | JobScheduler

  /** A `ReactiveEffect`. `deps` lists every subscriber set the effect was
      added to, in order and with repetitions. */
  datatype Effect = Effect(body: seq<Op>, deps: seq<DepKey>, active: bool, scheduler: SchedulerKind, onStop: bool)

  /** The two kinds of scheduled work: the `job` closure of a watchEffect
      and an effect's runner. Both run the effect. */
  datatype Job = WatchJob(e: EffectId) | RunnerJob(e: EffectId)

  datatype Event =
    | Ran(e: EffectId)        // the effect's function was executed
    | Scheduled(e: EffectId)  // the effect's scheduler was called
    | StopHook(e: EffectId)   // the effect's onStop was called
    | Warned(key: string)     // a readonly proxy refused a write

  datatype World = World(
    heap: map<HeapKey, map<string, Value>>,
    refs: seq<Value>,
    deps: map<DepKey, seq<EffectId>>,
    effects: seq<Effect>,
    activeEffect: Option<EffectId>,
    shouldTrack: bool,
    jobs: Queues<Job>,
    log: seq<Event>)

  /** The result of a step that may run user code. */
  datatype Outcome<T> = Done(w: World, val: T) | Thrown(w: World, err: JsError) | Exhausted
  {
    predicate IsFailure() { !Done? }

    function PropagateFailure<U>(): Outcome<U>
      requires !Done?
    {
      if Thrown? then Thrown(w, err) else Exhausted
    }

    function Extract(): (World, T)
      requires Done?
    {
      (w, val)
    }
  }

  function Initial(): World {
    World(map[], [], map[], [], None, false, Empty(), [])
  }

  // ---------------------------------------------------------------------
  // Well-formedness and the invariants of reachable worlds

  predicate BodyValid(nrefs: nat, body: seq<Op>) {
    forall i :: 0 <= i < |body| ==> (body[i].ReadRef? || body[i].WriteRef? ==> body[i].r < nrefs)
  }

  /** Every identity the world mentions exists, and subscriber sets hold no
      effect twice. */
  ghost predicate Valid(w: World) {
    && (forall d :: d in w.deps ==> NoDup(w.deps[d]))
    && (forall d, i :: d in w.deps && 0 <= i < |w.deps[d]| ==> w.deps[d][i] < |w.effects|)
    && (forall d :: d in w.deps && d.RefKey? ==> d.r < |w.refs|)
    && (forall r :: 0 <= r < |w.refs| ==> RefKey(r) in w.deps)
    && (forall e :: 0 <= e < |w.effects| ==> BodyValid(|w.refs|, w.effects[e].body))
    && (w.activeEffect.Some? ==> w.activeEffect.value < |w.effects|)
    && (forall j :: j in w.jobs.queue ==> j.e < |w.effects|)
    && (forall j :: j in w.jobs.preFlush ==> j.e < |w.effects|)
  }

  /** What every step keeps: effects and refs keep their identities, no
      subscriber set disappears, and the log is only extended. */
  predicate Keeps(w: World, w': World) {
    |w'.effects| == |w.effects| && |w'.refs| == |w.refs| && w.deps.Keys <= w'.deps.Keys && w.log <= w'.log
  }

  /** The promise every step of the core makes about its outcome. */
  ghost predicate Fine<T>(w: World, r: Outcome<T>) {
    !r.Exhausted? ==> Valid(r.w) && Keeps(w, r.w)
  }


  // ---------------------------------------------------------------------
  // Heap access

  function KeyOf(v: Value): Option<HeapKey> {
    match v
    case Obj(id) => Some(ObjKey(id))
    case Func(fid) => Some(FuncKey(fid))
    case _ => None
  }

  /** An own property of a raw object or function; a missing one reads as
      undefined. */
  function ReadProp(w: World, k: HeapKey, key: string): Value {
    if k in w.heap && key in w.heap[k] then w.heap[k][key] else Undefined
  }

  function WriteProp(w: World, k: HeapKey, key: string, v: Value): (r: World)
    ensures r == w.(heap := r.heap)
    ensures ReadProp(r, k, key) == v
    ensures forall k', key' :: (k', key') != (k, key) ==> ReadProp(r, k', key') == ReadProp(w, k', key')
  {
    var own := if k in w.heap then w.heap[k] else map[];
    w.(heap := w.heap[k := own[key := v]])
  }

  // ---------------------------------------------------------------------
  // track

  /** `isTracking`. */
  predicate IsTracking(w: World) {
    w.activeEffect.Some? && w.shouldTrack
  }

  /** `track`/`trackEffects`: when tracking, the active effect joins the
      subscriber set (creating it if missing) and the set is appended to the
      effect's dependency list, even when it is already there. */
  function Track(w: World, d: DepKey): (r: World)
    requires Valid(w) && (d.RefKey? ==> d.r < |w.refs|)
    ensures Valid(r) && Keeps(w, r)
    ensures r == w.(deps := r.deps, effects := r.effects)
    ensures !IsTracking(w) ==> r == w
    ensures IsTracking(w) ==>
      var e := w.activeEffect.value;
      && d in r.deps && e in r.deps[d]
      && (d in w.deps && e in w.deps[d] ==> r.deps[d] == w.deps[d])
      && (d in w.deps && e !in w.deps[d] ==> r.deps[d] == w.deps[d] + [e])
      && (d !in w.deps ==> r.deps[d] == [e])
      && r.effects == w.effects[e := w.effects[e].(deps := w.effects[e].deps + [d])]
      && (forall d' :: d' in w.deps && d' != d ==> r.deps[d'] == w.deps[d'])
  {
    if !IsTracking(w) then w
    else
      var e := w.activeEffect.value;
      var dep := if d in w.deps then w.deps[d] else [];
      var dep' := if e in dep then dep else dep + [e];
      assert NoDup(dep');
      w.(deps := w.deps[d := dep'],
         effects := w.effects[e := w.effects[e].(deps := w.effects[e].deps + [d])])
  }

  // ---------------------------------------------------------------------
  // Proxies

  /** `reactive`, `readonly`, `shallowReadonly`: `new Proxy(raw, handlers)`,
      which throws unless the target is an object or a function. The proxy
      is a new value, never the target itself. */
  function MakeProxy(kind: ProxyKind, raw: Value): (r: Result<Value>)
    ensures r.Ok? <==> raw.Obj? || raw.Func? || raw.Proxy?
    ensures r.Ok? ==> r.value == Proxy(kind, raw) && r.value != raw
    ensures r.Err? ==> r.error == TypeError
  {
    if raw.Obj? || raw.Func? || raw.Proxy? then
      assert raw < Proxy(kind, raw);
      Ok(Proxy(kind, raw))
    else Err(TypeError)
  }

  /** The variant a nested object is wrapped in by a non-shallow getter. */
  function NestedKind(kind: ProxyKind): ProxyKind {
    if kind == Mutable then Mutable else Readonly
  }

  /** A property read `obj[key]`. Through a proxy it is the getter of
      `createGetter`: the two flag keys answer from the variant; otherwise
      the target is read, a shallow proxy returns that as is, an object is
      returned wrapped (without tracking), and the mutable variant tracks
      any other value. Reading from undefined or null throws; other
      primitives have no own properties here. */
  function Get(w: World, obj: Value, key: string): (r: Outcome<Value>)
    requires Valid(w)
    ensures !r.Exhausted? && Valid(r.w) && Keeps(w, r.w)
    ensures r.w == w.(deps := r.w.deps, effects := r.w.effects)
    ensures obj.Undefined? || obj.Null? ==> r == Thrown(w, TypeError)
    ensures obj.Obj? || obj.Func? ==> r == Done(w, ReadProp(w, KeyOf(obj).value, key))
    ensures obj.Bool? || obj.Num? || obj.Str? ==> r == Done(w, Undefined)
    ensures obj.Proxy? && key == IS_REACTIVE ==> r == Done(w, Bool(obj.kind == Mutable))
    ensures obj.Proxy? && key == IS_READONLY ==> r == Done(w, Bool(obj.kind != Mutable))
    ensures obj.Proxy? && key != IS_REACTIVE && key != IS_READONLY && (obj.target.Obj? || obj.target.Func?) ==>
      var raw := ReadProp(w, KeyOf(obj.target).value, key);
      && r.Done?
      && (obj.kind == ShallowReadonly ==> r == Done(w, raw))
      && (obj.kind != ShallowReadonly && IsObject(raw) ==> r == Done(w, Proxy(NestedKind(obj.kind), raw)))
      && (obj.kind == Readonly && !IsObject(raw) ==> r == Done(w, raw))
      && (obj.kind == Mutable && !IsObject(raw) ==> r == Done(Track(w, TargetKey(obj.target, key)), raw))
  {
    match obj
    case Undefined => Thrown(w, TypeError)
    case Null => Thrown(w, TypeError)
    case Obj(id) => Done(w, ReadProp(w, ObjKey(id), key))
    case Func(fid) => Done(w, ReadProp(w, FuncKey(fid), key))
    case Proxy(kind, t) =>
      if key == IS_REACTIVE then Done(w, Bool(kind == Mutable))
      else if key == IS_READONLY then Done(w, Bool(kind != Mutable))
      else
        (match Get(w, t, key)
         case Done(w1, res) =>
           if kind == ShallowReadonly then Done(w1, res)
           else if IsObject(res) then Done(w1, Proxy(NestedKind(kind), res))
           else if kind == Mutable then Done(Track(w1, TargetKey(t, key)), res)
           else Done(w1, res)
         case Thrown(w1, err) => Thrown(w1, err)
         case Exhausted => Exhausted)
    case _ => Done(w, Undefined)
  }

  /** `isReactive`: `!!value.__v_isReactive`. */
  function IsReactive(w: World, v: Value): (r: Result<bool>)
    requires Valid(w)
    ensures v.Proxy? ==> r == Ok(v.kind == Mutable)
    ensures v.Obj? || v.Func? ==> r == Ok(Truthy(ReadProp(w, KeyOf(v).value, IS_REACTIVE)))
    ensures v.Undefined? || v.Null? ==> r == Err(TypeError)
  {
    match Get(w, v, IS_REACTIVE)
    case Done(_, x) => Ok(Truthy(x))
    case _ => Err(TypeError)
  }

  /** `isReadOnly`: `!!value.__v_isReadonly`. */
  function IsReadonly(w: World, v: Value): (r: Result<bool>)
    requires Valid(w)
    ensures v.Proxy? ==> r == Ok(v.kind != Mutable)
    ensures v.Obj? || v.Func? ==> r == Ok(Truthy(ReadProp(w, KeyOf(v).value, IS_READONLY)))
    ensures v.Undefined? || v.Null? ==> r == Err(TypeError)
  {
    match Get(w, v, IS_READONLY)
    case Done(_, x) => Ok(Truthy(x))
    case _ => Err(TypeError)
  }

  /** `isProxy`: `isReactive(value) || isReadOnly(value)`. */
  function IsProxy(w: World, v: Value): (r: Result<bool>)
    requires Valid(w)
    ensures v.Proxy? ==> r == Ok(true)
    ensures (v.Obj? || v.Func?) ==>
      r == Ok(Truthy(ReadProp(w, KeyOf(v).value, IS_REACTIVE)) || Truthy(ReadProp(w, KeyOf(v).value, IS_READONLY)))
    ensures v.Undefined? || v.Null? ==> r == Err(TypeError)
  {
    var a :- IsReactive(w, v);
    if a then Ok(true) else IsReadonly(w, v)
  }

  // ---------------------------------------------------------------------
  // The mutually recursive core: set, trigger, run

  /** A property write `obj[key] = v`. Through a mutable proxy it is the
      setter of `createSetter`: the write goes to the target first, then
      `trigger(target, key)` runs, whatever the old value was. A readonly
      proxy only warns and reports success. Writing to a primitive throws
      (module code is strict). */
  function Set(w: World, obj: Value, key: string, v: Value, fuel: nat): (r: Outcome<bool>)
    requires Valid(w)
    ensures Fine(w, r)
    ensures !obj.Proxy? && !obj.Obj? && !obj.Func? ==> r == Thrown(w, TypeError)
    ensures obj.Obj? || obj.Func? ==> r == Done(WriteProp(w, KeyOf(obj).value, key, v), true)
    ensures obj.Proxy? && obj.kind != Mutable ==> r == Done(w.(log := w.log + [Warned(key)]), true)
    ensures obj.Proxy? && obj.kind == Mutable && (obj.target.Obj? || obj.target.Func?) && fuel > 2
            && TargetKey(obj.target, key) !in w.deps ==>
      r == Thrown(WriteProp(w, KeyOf(obj.target).value, key, v), TypeError)
    decreases fuel
  {
    match obj
    case Obj(id) => Done(WriteProp(w, ObjKey(id), key, v), true)
    case Func(fid) => Done(WriteProp(w, FuncKey(fid), key, v), true)
    case Proxy(kind, t) =>
      if kind != Mutable then Done(w.(log := w.log + [Warned(key)]), true)
      else if fuel == 0 then Exhausted
      else
        var p :- Set(w, t, key, v, fuel - 1);
        var q :- Trigger(p.0, TargetKey(t, key), fuel - 1);
        Done(q.0, p.1)
    case _ => Thrown(w, TypeError)
  }

  /** `trigger(target, key)`: a key nobody ever tracked has no entry, and
      iterating the missing set throws. */
  function Trigger(w: World, d: DepKey, fuel: nat): (r: Outcome<()>)
    requires Valid(w)
    ensures Fine(w, r)
    ensures fuel > 0 && d !in w.deps ==> r == Thrown(w, TypeError)
    ensures fuel > 1 && d in w.deps && w.deps[d] == [] ==> r == Done(w, ())
    decreases fuel
  {
    if fuel == 0 then Exhausted
    else if d !in w.deps then Thrown(w, TypeError)
    else TriggerEffects(w, d, 0, fuel - 1)
  }

  /** `triggerEffects`: for each subscriber, in insertion order, call its
      scheduler if it has one and its `run` otherwise. The set is re-read at
      every step, so a subscriber added during the loop is visited too, as
      JavaScript's Set iteration does. */
  function TriggerEffects(w: World, d: DepKey, i: nat, fuel: nat): (r: Outcome<()>)
    requires Valid(w) && d in w.deps
    ensures Fine(w, r)
    ensures fuel > 0 && i >= |w.deps[d]| ==> r == Done(w, ())
    decreases fuel
  {
    if fuel == 0 then Exhausted
    else if i >= |w.deps[d]| then Done(w, ())
    else
      var p :- Dispatch(w, w.deps[d][i], fuel - 1);
      TriggerEffects(p.0, d, i + 1, fuel - 1)
  }

  /** One subscriber's notification: its scheduler when it has one, else
      its `run`. */
  function Dispatch(w: World, e: EffectId, fuel: nat): (r: Outcome<()>)
    requires Valid(w) && e < |w.effects|
    ensures Fine(w, r)
    ensures w.effects[e].scheduler.SpyScheduler? ==> r == Done(w.(log := w.log + [Scheduled(e)]), ())
    ensures w.effects[e].scheduler.PreFlushScheduler? ==>
      r == Done(w.(log := w.log + [Scheduled(e)], jobs := QueuePreFlushCb(w.jobs, WatchJob(e))), ())
    ensures w.effects[e].scheduler.JobScheduler? ==>
      r == Done(w.(log := w.log + [Scheduled(e)], jobs := QueueJob(w.jobs, RunnerJob(e))), ())
    ensures w.effects[e].scheduler.NoScheduler? && !r.Exhausted? ==>
      |r.w.log| > |w.log| && r.w.log[|w.log|] == Ran(e)
    decreases fuel
  {
    match w.effects[e].scheduler
    case SpyScheduler => Done(w.(log := w.log + [Scheduled(e)]), ())
    case PreFlushScheduler => Done(w.(log := w.log + [Scheduled(e)], jobs := QueuePreFlushCb(w.jobs, WatchJob(e))), ())
    case JobScheduler => Done(w.(log := w.log + [Scheduled(e)], jobs := QueueJob(w.jobs, RunnerJob(e))), ())
    case NoScheduler =>
      if fuel == 0 then Exhausted
      else
        var p :- RunEffect(w, e, fuel - 1);
        Done(p.0, ())
  }

  /** The world an effect's function starts in: an active effect switches
      tracking on and becomes the active effect; a stopped one touches
      neither. */
  function StartRun(w: World, e: EffectId): (r: World)
    requires Valid(w) && e < |w.effects|
    ensures Valid(r) && Keeps(w, r) && r.log == w.log + [Ran(e)]
    ensures w.effects[e].active ==> IsTracking(r) && r.activeEffect == Some(e)
    ensures !w.effects[e].active ==> r.activeEffect == w.activeEffect && r.shouldTrack == w.shouldTrack
    ensures r == w.(shouldTrack := r.shouldTrack, activeEffect := r.activeEffect, log := r.log)
  {
    if w.effects[e].active then w.(shouldTrack := true, activeEffect := Some(e), log := w.log + [Ran(e)])
    else w.(log := w.log + [Ran(e)])
  }

  /** `ReactiveEffect.run`: executes the function, after `StartRun`; an
      active effect switches tracking off again when the function returns.
      The previous active effect is not restored, and an exception leaves
      tracking on. The result is what the function returns. */
  function RunEffect(w: World, e: EffectId, fuel: nat): (r: Outcome<seq<Value>>)
    requires Valid(w) && e < |w.effects|
    ensures Fine(w, r)
    ensures !r.Exhausted? ==> |r.w.log| > |w.log| && r.w.log[|w.log|] == Ran(e)
    ensures r.Done? ==> |r.val| == CountReads(w.effects[e].body)
    ensures r.Done? && w.effects[e].active ==> !r.w.shouldTrack
    decreases fuel
  {
    if fuel == 0 then Exhausted
    else
      var r := ExecOps(StartRun(w, e), w.effects[e].body, fuel - 1);
      if r.Done? && w.effects[e].active then Done(r.w.(shouldTrack := false), r.val) else r
  }

  function CountReads(ops: seq<Op>): nat {
    if |ops| == 0 then 0 else (if ops[0].Read? || ops[0].ReadRef? then 1 else 0) + CountReads(ops[1..])
  }

  /** Executes an effect's function; the values read are its result. */
  function ExecOps(w: World, ops: seq<Op>, fuel: nat): (r: Outcome<seq<Value>>)
    requires Valid(w) && BodyValid(|w.refs|, ops)
    ensures Fine(w, r)
    ensures r.Done? ==> |r.val| == CountReads(ops)
    decreases fuel
  {
    if fuel == 0 then Exhausted
    else if |ops| == 0 then Done(w, [])
    else
      var p :- ExecOp(w, ops[0], fuel - 1);
      var q :- ExecOps(p.0, ops[1..], fuel - 1);
      Done(q.0, p.1 + q.1)
  }

  function ExecOp(w: World, op: Op, fuel: nat): (r: Outcome<seq<Value>>)
    requires Valid(w) && (op.ReadRef? || op.WriteRef? ==> op.r < |w.refs|)
    ensures Fine(w, r)
    ensures r.Done? ==> |r.val| == (if op.Read? || op.ReadRef? then 1 else 0)
    decreases fuel
  {
    if fuel == 0 then Exhausted
    else
      match op
      case Read(obj, key) =>
        var p :- Get(w, obj, key);
        Done(p.0, [p.1])
      case Write(obj, key, v) =>
        var p :- Set(w, obj, key, v, fuel - 1);
        Done(p.0, [])
      case ReadRef(rid) =>
        var (w1, v) := RefGet(w, rid);
        Done(w1, [v])
      case WriteRef(rid, v) =>
        var p :- RefSet(w, rid, v, fuel - 1);
        Done(p.0, [])
  }

  /** The `value` setter of a ref: a value equal under Object.is changes
      nothing; another is stored first and then every subscriber of the
      ref is notified. */
  function RefSet(w: World, rid: RefId, v: Value, fuel: nat): (r: Outcome<()>)
    requires Valid(w) && rid < |w.refs|
    ensures Fine(w, r)
    ensures SameValue(w.refs[rid], v) ==> r == Done(w, ())
    ensures !SameValue(w.refs[rid], v) && fuel > 1 && w.deps[RefKey(rid)] == [] ==>
      r == Done(w.(refs := w.refs[rid := v]), ())
    decreases fuel
  {
    if SameValue(w.refs[rid], v) then Done(w, ())
    else if fuel == 0 then Exhausted
    else TriggerEffects(w.(refs := w.refs[rid := v]), RefKey(rid), 0, fuel - 1)
  }

  // ---------------------------------------------------------------------
  // Refs

  /** `ref(value)`: a cell holding the value as given, with an empty
      subscriber set of its own. */
  function NewRef(w: World, v: Value): (r: (World, RefId))
    requires Valid(w)
    ensures Valid(r.0) && r.1 == |w.refs| && r.0.refs == w.refs + [v]
    ensures RefKey(r.1) !in w.deps && r.0.deps == w.deps[RefKey(r.1) := []]
    ensures r.0 == w.(refs := r.0.refs, deps := r.0.deps)
  {
    var rid := |w.refs|;
    (w.(refs := w.refs + [v], deps := w.deps[RefKey(rid) := []]), rid)
  }

  /** The `value` getter of a ref, corrected: it tracks when tracking and
      returns the stored value in every case. */
  function RefGet(w: World, rid: RefId): (r: (World, Value))
    requires Valid(w) && rid < |w.refs|
    ensures r.1 == w.refs[rid]
    ensures Valid(r.0) && Keeps(w, r.0) && r.0 == w.(deps := r.0.deps, effects := r.0.effects)
    ensures !IsTracking(w) ==> r.0 == w
    ensures IsTracking(w) ==> w.activeEffect.value in r.0.deps[RefKey(rid)]
  {
    (Track(w, RefKey(rid)), w.refs[rid])
  }

  /** The `value` getter of a ref as src/reactivity/ref.ts writes it:
      outside an effect it returns before reaching the stored value. */
  function RefGetAsWritten(w: World, rid: RefId): (r: (World, Value))
    requires Valid(w) && rid < |w.refs|
    ensures !IsTracking(w) ==> r == (w, Undefined)
    ensures IsTracking(w) ==> r == RefGet(w, rid)
  {
    if !IsTracking(w) then (w, Undefined)
    else (Track(w, RefKey(rid)), w.refs[rid])
  }

  // ---------------------------------------------------------------------
  // effect, stop, watchEffect

  /** The world with one more, active, effect that has no dependencies. */
  function AddEffect(w: World, body: seq<Op>, scheduler: SchedulerKind, onStop: bool): (r: World)
    requires Valid(w) && BodyValid(|w.refs|, body)
    ensures Valid(r) && r.effects == w.effects + [Effect(body, [], true, scheduler, onStop)]
    ensures r == w.(effects := r.effects)
  {
    w.(effects := w.effects + [Effect(body, [], true, scheduler, onStop)])
  }

  /** `effect(fn, options)`: a new active effect with the options' scheduler
      and onStop, run once at once (through `run`, never the scheduler). The
      effect's identity stands for the returned runner. */
  function CreateEffect(w: World, body: seq<Op>, scheduler: SchedulerKind, onStop: bool, fuel: nat): (r: Outcome<EffectId>)
    requires Valid(w) && BodyValid(|w.refs|, body)
    ensures !r.Exhausted? ==>
      && Valid(r.w) && |r.w.effects| == |w.effects| + 1 && w.log <= r.w.log
      && (r.Done? ==> r.val == |w.effects| && !r.w.shouldTrack)
      && |r.w.log| > |w.log| && r.w.log[|w.log|] == Ran(|w.effects|)
  {
    var e := |w.effects|;
    var p :- RunEffect(AddEffect(w, body, scheduler, onStop), e, fuel);
    Done(p.0, e)
  }

  /** `watchEffect(fn)`: an effect whose scheduler queues its job as a
      pre-flush callback, run once at once; the returned closure is `Stop`. */
  function WatchEffect(w: World, body: seq<Op>, fuel: nat): (r: Outcome<EffectId>)
    requires Valid(w) && BodyValid(|w.refs|, body)
    ensures !r.Exhausted? ==>
      && Valid(r.w) && |r.w.effects| == |w.effects| + 1 && w.log <= r.w.log
      && (r.Done? ==> r.val == |w.effects| && !r.w.shouldTrack)
      && |r.w.log| > |w.log| && r.w.log[|w.log|] == Ran(|w.effects|)
  {
    CreateEffect(w, body, PreFlushScheduler, false, fuel)
  }

  /** Removes `x` from a subscriber set, keeping the order of the others. */
  function Remove(s: seq<EffectId>, x: EffectId): (r: seq<EffectId>)
    ensures forall y :: y in r <==> y in s && y != x
    ensures NoDup(s) ==> NoDup(r)
    ensures x !in s ==> r == s
    ensures NoDup(s) && x in s ==> exists k :: 0 <= k < |s| && s[k] == x && r == s[..k] + s[k + 1..]
  {
    if |s| == 0 then []
    else
      var rest := Remove(s[1..], x);
      if s[0] == x then RemoveHit(s, x, rest); rest
      else RemoveKeep(s, x, rest); [s[0]] + rest
  }

  /** What `Remove(s, x)` promises of its result `r`, as one fact. */
  ghost predicate RemovedFrom(s: seq<EffectId>, x: EffectId, r: seq<EffectId>) {
    && (forall y :: y in r <==> y in s && y != x)
    && (NoDup(s) ==> NoDup(r))
    && (x !in s ==> r == s)
    && (NoDup(s) && x in s ==> exists k :: 0 <= k < |s| && s[k] == x && r == s[..k] + s[k + 1..])
  }

  /** The step of `Remove` past a head equal to `x`. */
  lemma RemoveHit(s: seq<EffectId>, x: EffectId, rest: seq<EffectId>)
    requires |s| > 0 && s[0] == x && RemovedFrom(s[1..], x, rest)
    ensures RemovedFrom(s, x, rest)
  {
    assert forall j :: 0 <= j < |s[1..]| ==> s[1..][j] == s[j + 1];
    assert NoDup(s) ==> x !in s[1..] && NoDup(s[1..]);
    assert s[..0] + s[1..] == s[1..];
  }

  /** The step of `Remove` past a head that is kept. */
  lemma RemoveKeep(s: seq<EffectId>, x: EffectId, rest: seq<EffectId>)
    requires |s| > 0 && s[0] != x && RemovedFrom(s[1..], x, rest)
    ensures RemovedFrom(s, x, [s[0]] + rest)
  {
    var r := [s[0]] + rest;
    assert s == [s[0]] + s[1..];
    assert forall y :: y in r <==> y in s && y != x;
    if NoDup(s) {
      assert NoDup(s[1..]) && s[0] !in s[1..] by {
        assert forall j :: 0 <= j < |s[1..]| ==> s[1..][j] == s[j + 1];
      }
      NoDupCons(s[0], rest);
      if x in s {
        RemoveKeepOrder(s, x, rest);
      }
    }
  }

  lemma NoDupCons(a: EffectId, rest: seq<EffectId>)
    requires a !in rest && NoDup(rest)
    ensures NoDup([a] + rest)
  {
    assert forall j :: 0 <= j < |rest| ==> ([a] + rest)[j + 1] == rest[j];
  }

  lemma RemoveKeepOrder(s: seq<EffectId>, x: EffectId, rest: seq<EffectId>)
    requires |s| > 0
    requires exists k :: 0 <= k < |s[1..]| && s[1..][k] == x && rest == s[1..][..k] + s[1..][k + 1..]
    ensures exists k :: 0 <= k < |s| && s[k] == x && [s[0]] + rest == s[..k] + s[k + 1..]
  {
    var k :| 0 <= k < |s[1..]| && s[1..][k] == x && rest == s[1..][..k] + s[1..][k + 1..];
    assert s[..k + 1] == [s[0]] + s[1..][..k];
    assert s[k + 2..] == s[1..][k + 1..];
    assert s[k + 1] == x && [s[0]] + rest == s[..k + 1] + s[k + 2..];
  }

  /** `dep.delete(effect)` for every set `ds` lists. */
  function RemoveFrom(deps: map<DepKey, seq<EffectId>>, ds: seq<DepKey>, e: EffectId): (r: map<DepKey, seq<EffectId>>)
    ensures r.Keys == deps.Keys
    ensures forall d :: d in deps ==> r[d] == (if d in ds then Remove(deps[d], e) else deps[d])
  {
    map d | d in deps :: if d in ds then Remove(deps[d], e) else deps[d]
  }

  /** Removing an effect from subscriber sets keeps them duplicate-free
      and within the effect table. */
  lemma RemoveFromKeeps(deps: map<DepKey, seq<EffectId>>, ds: seq<DepKey>, e: EffectId, n: nat)
    requires forall d :: d in deps ==> NoDup(deps[d])
    requires forall d, i :: d in deps && 0 <= i < |deps[d]| ==> deps[d][i] < n
    ensures forall d :: d in RemoveFrom(deps, ds, e) ==> NoDup(RemoveFrom(deps, ds, e)[d])
    ensures forall d, i :: d in RemoveFrom(deps, ds, e) && 0 <= i < |RemoveFrom(deps, ds, e)[d]| ==> RemoveFrom(deps, ds, e)[d][i] < n
  {
    var r := RemoveFrom(deps, ds, e);
    forall d, i | d in r && 0 <= i < |r[d]|
      ensures r[d][i] < n
    {
      assert r[d][i] in r[d];
      assert r[d][i] in deps[d];
    }
  }

  /** `ReactiveEffect.stop` (and `stop(runner)`): the first call removes the
      effect from every set in its dependency list, empties the list, calls
      onStop and marks the effect stopped; later calls do nothing. */
  function Stop(w: World, e: EffectId): (r: World)
    requires Valid(w) && e < |w.effects|
    ensures Valid(r) && |r.effects| == |w.effects| && r.deps.Keys == w.deps.Keys
    ensures !r.effects[e].active
    ensures !w.effects[e].active ==> r == w
    ensures w.effects[e].active ==>
      && r.effects == w.effects[e := w.effects[e].(deps := [], active := false)]
      && r.log == w.log + (if w.effects[e].onStop then [StopHook(e)] else [])
      && (forall d :: d in w.deps ==> r.deps[d] == (if d in w.effects[e].deps then Remove(w.deps[d], e) else w.deps[d]))
      && r == w.(deps := r.deps, effects := r.effects, log := r.log)
  {
    var eff := w.effects[e];
    if !eff.active then w
    else
      var deps' := RemoveFrom(w.deps, eff.deps, e);
      var r := w.(deps := deps',
                  effects := w.effects[e := eff.(deps := [], active := false)],
                  log := if eff.onStop then w.log + [StopHook(e)] else w.log);
      RemoveFromKeeps(w.deps, eff.deps, e, |w.effects|);
      r
  }

  // ---------------------------------------------------------------------
  // The flush

  /** One microtask turn, corrected. When a flush is pending: the flag is
      cleared, every pre-flush callback runs (the list is re-read at each
      index), the list is emptied, then jobs are shifted off the queue and
      run until it is empty. Without a pending flush there is no microtask
      to run. */
  function Tick(w: World, fuel: nat): (r: Outcome<()>)
    requires Valid(w)
    ensures Fine(w, r)
    ensures !w.jobs.pending ==> r == Done(w, ())
    ensures r.Done? && w.jobs.pending ==> r.w.jobs.queue == []
  {
    if !w.jobs.pending then Done(w, ())
    else
      var p :- FlushPre(w.(jobs := w.jobs.(pending := false)), 0, fuel);
      Drain(p.0.(jobs := p.0.jobs.(preFlush := [])), fuel)
  }

  /** One microtask turn as src/runtime-core/scheduler.ts writes it: the
      pre-flush list is never emptied, so every later flush runs every
      callback ever queued again. */
  function TickAsWritten(w: World, fuel: nat): (r: Outcome<()>)
    requires Valid(w)
    ensures Fine(w, r)
    ensures !w.jobs.pending ==> r == Done(w, ())
    ensures r.Done? && w.jobs.pending ==> r.w.jobs.queue == []
  {
    if !w.jobs.pending then Done(w, ())
    else
      var p :- FlushPre(w.(jobs := w.jobs.(pending := false)), 0, fuel);
      Drain(p.0, fuel)
  }

  /** `flushPreFlushCbs` from index `i` on. */
  function FlushPre(w: World, i: nat, fuel: nat): (r: Outcome<()>)
    requires Valid(w)
    ensures Fine(w, r)
    decreases fuel
  {
    if fuel == 0 then Exhausted
    else if i >= |w.jobs.preFlush| then Done(w, ())
    else
      var p :- RunEffect(w, w.jobs.preFlush[i].e, fuel - 1);
      FlushPre(p.0, i + 1, fuel - 1)
  }

  /** The job loop: `while ((job = queue.shift())) job()`. */
  function Drain(w: World, fuel: nat): (r: Outcome<()>)
    requires Valid(w)
    ensures Fine(w, r)
    ensures r.Done? ==> r.w.jobs.queue == []
    decreases fuel
  {
    if fuel == 0 then Exhausted
    else if |w.jobs.queue| == 0 then Done(w, ())
    else
      var (job, rest) := Shift(w.jobs);
      var p :- RunEffect(w.(jobs := rest), job.value.e, fuel - 1);
      Drain(p.0, fuel - 1)
  }

  // ---------------------------------------------------------------------
  // Unfolding: one step of each function, each stated on its own so that
  // longer proofs can chain them without unfolding the definitions

  /** A write through a mutable proxy: the raw write, then the trigger. */
  lemma SetProxyUnfold(w: World, t: Value, key: string, v: Value, fuel: nat, p: World, q: World)
    requires Valid(w)
    requires Set(w, t, key, v, fuel) == Done(p, true)
    requires Valid(p) && Trigger(p, TargetKey(t, key), fuel) == Done(q, ())
    ensures Set(w, Proxy(Mutable, t), key, v, fuel + 1) == Done(q, true)
  {
  }

  /** A trigger of a key that has a subscriber set walks that set. */
  lemma TriggerUnfold(w: World, d: DepKey, fuel: nat)
    requires Valid(w) && d in w.deps
    ensures Trigger(w, d, fuel + 1) == TriggerEffects(w, d, 0, fuel)
  {
  }

  /** One subscriber notified, then the rest of the walk. */
  lemma TriggerEffectsUnfold(w: World, d: DepKey, i: nat, fuel: nat, p: World)
    requires Valid(w) && d in w.deps && i < |w.deps[d]|
    requires Dispatch(w, w.deps[d][i], fuel) == Done(p, ())
    ensures Valid(p) && d in p.deps
    ensures TriggerEffects(w, d, i, fuel + 1) == TriggerEffects(p, d, i + 1, fuel)
  {
  }

  /** The walk past the last subscriber is over. */
  lemma TriggerEffectsEndUnfold(w: World, d: DepKey, i: nat, fuel: nat)
    requires Valid(w) && d in w.deps && i >= |w.deps[d]|
    ensures TriggerEffects(w, d, i, fuel + 1) == Done(w, ())
  {
  }

  /** A run of an active effect: its function from the start world, and
      tracking off again afterwards. */
  lemma RunActiveUnfold(w: World, e: EffectId, fuel: nat, p: World, v: seq<Value>)
    requires Valid(w) && e < |w.effects| && w.effects[e].active
    requires ExecOps(StartRun(w, e), w.effects[e].body, fuel) == Done(p, v)
    ensures RunEffect(w, e, fuel + 1) == Done(p.(shouldTrack := false), v)
  {
  }

  /** A ref write of a different value walks the ref's subscriber set. */
  lemma RefSetUnfold(w: World, rid: RefId, v: Value, fuel: nat)
    requires Valid(w) && rid < |w.refs| && !SameValue(w.refs[rid], v)
    ensures Valid(w.(refs := w.refs[rid := v]))
    ensures RefSet(w, rid, v, fuel + 1) == TriggerEffects(w.(refs := w.refs[rid := v]), RefKey(rid), 0, fuel)
  {
  }

  /** A subscriber without a scheduler is notified by running it. */
  lemma DispatchRunUnfold(w: World, e: EffectId, fuel: nat, p: World, v: seq<Value>)
    requires Valid(w) && e < |w.effects| && w.effects[e].scheduler.NoScheduler?
    requires RunEffect(w, e, fuel) == Done(p, v)
    ensures Dispatch(w, e, fuel + 1) == Done(p, ())
  {
  }

  /** One step of the pre-flush pass: the callback at `i` runs, then the
      pass goes on from `i + 1`. */
  lemma FlushPreUnfold(w: World, i: nat, fuel: nat, p: World, v: seq<Value>)
    requires Valid(w) && i < |w.jobs.preFlush|
    requires RunEffect(w, w.jobs.preFlush[i].e, fuel) == Done(p, v)
    ensures Valid(p) && FlushPre(w, i, fuel + 1) == FlushPre(p, i + 1, fuel)
  {
  }

  /** The pre-flush pass past the last callback is over. */
  lemma FlushPreEndUnfold(w: World, i: nat, fuel: nat)
    requires Valid(w) && i >= |w.jobs.preFlush|
    ensures FlushPre(w, i, fuel + 1) == Done(w, ())
  {
  }

  /** A turn whose pre-flush pass finishes: the job loop runs on what the
      pass left, with the pre-flush list cleared. */
  lemma TickUnfold(w: World, fuel: nat, p: World)
    requires Valid(w) && w.jobs.pending
    requires FlushPre(w.(jobs := w.jobs.(pending := false)), 0, fuel) == Done(p, ())
    ensures Valid(p.(jobs := p.jobs.(preFlush := [])))
    ensures Tick(w, fuel) == Drain(p.(jobs := p.jobs.(preFlush := [])), fuel)
  {
  }

  /** The same for the flush as written. */
  lemma TickAsWrittenUnfold(w: World, fuel: nat, p: World)
    requires Valid(w) && w.jobs.pending
    requires FlushPre(w.(jobs := w.jobs.(pending := false)), 0, fuel) == Done(p, ())
    ensures Valid(p) && TickAsWritten(w, fuel) == Drain(p, fuel)
  {
  }

  /** The job loop over an empty queue does nothing. */
  lemma DrainEmptyUnfold(w: World, fuel: nat)
    requires Valid(w) && w.jobs.queue == []
    ensures Drain(w, fuel + 1) == Done(w, ())
  {
  }
}

=== FILE: renderer.dfy ===
/** The mount path of src/runtime-core/render.ts over the abstract host:
    `patch` dispatches on the vnode's type marker and shape flags to mount a
    fragment, a text node, an element or a component into a container.
    Component rendering is user code, so a component definition carries the
    vnode its `render` returns. */
module Renderer {
  import opened Values
  import opened Wrappers
  import opened ShapeFlags
  import opened VNodes
  import opened Host

  /** The outcome of mounting: the new host, the vnode with its `el` (and its
      children's) recorded, and the nodes appended to the container, in
      order. */
  datatype Mounted = Mounted(host: Host, vnode: VNode, roots: seq<NodeId>)

  /** The outcome of mounting a list of vnodes: one root list per item. */
  datatype MountedList = MountedList(host: Host, items: seq<VNode>, rootsPerItem: seq<seq<NodeId>>)

  function Flatten(ss: seq<seq<NodeId>>): seq<NodeId> {
    if |ss| == 0 then [] else ss[0] + Flatten(ss[1..])
  }

  /** What a mount into `container` may do to the host: append `roots`,
      all of them fresh, to the container's child list, create further fresh
      nodes, and leave every other existing node as it was. */
  ghost predicate MountEffect(h: Host, h': Host, container: NodeId, roots: seq<NodeId>)
    requires IsElement(h, container)
  {
    && Valid(h') && h.next <= h'.next
    && IsElement(h', container)
    && h'.nodes[container] == h.nodes[container].(data := h.nodes[container].data.(children := h.nodes[container].data.children + roots))
    && (forall id :: id in h.nodes && id != container ==> id in h'.nodes && h'.nodes[id] == h.nodes[id])
    && (forall x :: x in roots ==> h.next <= x < h'.next && x in h'.nodes && h'.nodes[x].parent == Some(container))
  }

  lemma MountEffectTrans(h: Host, h1: Host, h2: Host, container: NodeId, r1: seq<NodeId>, r2: seq<NodeId>)
    requires Valid(h) && IsElement(h, container)
    requires MountEffect(h, h1, container, r1)
    requires MountEffect(h1, h2, container, r2)
    ensures MountEffect(h, h2, container, r1 + r2)
  {
    assert h1.nodes[container].data.children + r2 == h.nodes[container].data.children + (r1 + r2);
    forall x | x in r1
      ensures x in h2.nodes && h2.nodes[x].parent == Some(container)
    {
      assert x in h1.nodes && x != container;
    }
  }

  // ---------------------------------------------------------------------
  // Props

  /** The attributes an element mount sets: every prop whose key is not
      event-shaped, with its value as is. */
  function AttrsOf(props: Props): map<string, Value> {
    if props.None? then map[] else map k | k in props.value && !IsOn(k) :: props.value[k]
  }

  /** The listeners an element mount adds: one per event-shaped key, named by
      the lower-cased rest of the key (null/undefined handlers add none). */
  function ListenersOf(props: Props): set<(string, Value)> {
    if props.None? then {}
    else set k | k in props.value && IsOn(k) && !props.value[k].Null? && !props.value[k].Undefined? :: (EventName(k), props.value[k])
  }

  /** One iteration of the props loop of `processElement`. */
  function MountProp(h: Host, el: NodeId, key: string, val: Value): (r: Host)
    requires Valid(h) && IsElement(h, el)
    ensures Valid(r) && IsElement(r, el) && r.next == h.next && r.nodes.Keys == h.nodes.Keys
    ensures forall id :: id in h.nodes && id != el ==> r.nodes[id] == h.nodes[id]
    ensures r.nodes[el].parent == h.nodes[el].parent
    ensures r.nodes[el].data.tag == h.nodes[el].data.tag && r.nodes[el].data.children == h.nodes[el].data.children
    ensures IsOn(key) ==> r.nodes[el].data.attrs == h.nodes[el].data.attrs
    ensures IsOn(key) && !val.Null? && !val.Undefined? ==>
      r.nodes[el].data.listeners == h.nodes[el].data.listeners + {(EventName(key), val)}
    ensures !IsOn(key) ==> r.nodes[el].data.attrs == h.nodes[el].data.attrs[key := val]
    ensures !IsOn(key) ==> r.nodes[el].data.listeners == h.nodes[el].data.listeners
  {
    if IsOn(key) then AddEventListener(h, el, EventName(key), val) else SetAttribute(h, el, key, val)
  }

  /** The props loop over the keys in the order given. */
  function FoldProps(h: Host, el: NodeId, keys: seq<string>, props: map<string, Value>): (r: Host)
    requires Valid(h) && IsElement(h, el)
    requires forall k :: k in keys ==> k in props
    ensures Valid(r) && IsElement(r, el) && r.next == h.next && r.nodes.Keys == h.nodes.Keys
    ensures forall id :: id in h.nodes && id != el ==> r.nodes[id] == h.nodes[id]
    ensures r.nodes[el].parent == h.nodes[el].parent
    ensures r.nodes[el].data.tag == h.nodes[el].data.tag && r.nodes[el].data.children == h.nodes[el].data.children
    decreases |keys|
  {
    if |keys| == 0 then h else FoldProps(MountProp(h, el, keys[0], props[keys[0]]), el, keys[1..], props)
  }

  /** All props applied at once. The result does not depend on the order
      the loop visits the keys in (see `FoldPropsAnyOrder`). */
  function ApplyProps(h: Host, el: NodeId, props: Props): (r: Host)
    requires Valid(h) && IsElement(h, el)
    ensures Valid(r) && IsElement(r, el) && r.next == h.next && r.nodes.Keys == h.nodes.Keys
    ensures forall id :: id in h.nodes && id != el ==> r.nodes[id] == h.nodes[id]
    ensures r.nodes[el].parent == h.nodes[el].parent
    ensures r.nodes[el].data.tag == h.nodes[el].data.tag && r.nodes[el].data.children == h.nodes[el].data.children
    ensures forall k :: k in AttrsOf(props) ==> k in r.nodes[el].data.attrs && r.nodes[el].data.attrs[k] == AttrsOf(props)[k]
    ensures forall k :: k in r.nodes[el].data.attrs ==> k in AttrsOf(props) || k in h.nodes[el].data.attrs
    ensures r.nodes[el].data.listeners == h.nodes[el].data.listeners + ListenersOf(props)
  {
    var n := h.nodes[el];
    Host(h.nodes[el := n.(data := n.data.(attrs := n.data.attrs + AttrsOf(props),
                                          listeners := n.data.listeners + ListenersOf(props)))], h.next)
  }

  /** Running the props loop in any order that visits every key once gives
      the attributes and listeners of `ApplyProps`. */
  lemma {:induction false} FoldPropsAnyOrder(h: Host, el: NodeId, keys: seq<string>, props: map<string, Value>)
    requires Valid(h) && IsElement(h, el)
    requires forall k :: k in keys <==> k in props
    requires forall i, j :: 0 <= i < j < |keys| ==> keys[i] != keys[j]
    ensures FoldProps(h, el, keys, props) == ApplyProps(h, el, Some(props))
    decreases |keys|
  {
    if |keys| == 0 {
      var n := h.nodes[el];
      assert AttrsOf(Some(props)) == map[];
      assert ListenersOf(Some(props)) == {};
      assert n.data.attrs + map[] == n.data.attrs;
      assert n.data.listeners + {} == n.data.listeners;
      assert h.nodes[el := n] == h.nodes;
    } else {
      var k := keys[0];
      var rest := props - {k};
      var h1 := MountProp(h, el, k, props[k]);
      forall x ensures x in keys[1..] <==> x in rest {
        if x in keys[1..] {
          var j :| 0 <= j < |keys[1..]| && keys[1..][j] == x;
          assert keys[j + 1] == x;
        }
        if x in keys && x != k {
          var j :| 0 <= j < |keys| && keys[j] == x;
          assert keys[1..][j - 1] == x;
        }
      }
      FoldPropsRestrict(h1, el, keys[1..], props, rest);
      FoldPropsAnyOrder(h1, el, keys[1..], rest);
      MountPropThenRest(h, el, k, props);
    }
  }

  /** Mounting one prop and then applying the others is applying them all. */
  lemma MountPropThenRest(h: Host, el: NodeId, k: string, props: map<string, Value>)
    requires Valid(h) && IsElement(h, el) && k in props
    ensures ApplyProps(MountProp(h, el, k, props[k]), el, Some(props - {k})) == ApplyProps(h, el, Some(props))
  {
    var rest := props - {k};
    var n := h.nodes[el];
    if IsOn(k) {
      assert AttrsOf(Some(props)) == AttrsOf(Some(rest));
      var one: set<(string, Value)> := if props[k].Null? || props[k].Undefined? then {} else {(EventName(k), props[k])};
      assert ListenersOf(Some(props)) == ListenersOf(Some(rest)) + one;
      var h1 := MountProp(h, el, k, props[k]);
      assert h1.nodes[el] == n.(data := n.data.(listeners := n.data.listeners + one));
      assert n.data.listeners + one + ListenersOf(Some(rest)) == n.data.listeners + ListenersOf(Some(props));
    } else {
      assert AttrsOf(Some(props)) == AttrsOf(Some(rest))[k := props[k]];
      assert ListenersOf(Some(props)) == ListenersOf(Some(rest));
      assert n.data.attrs[k := props[k]] + AttrsOf(Some(rest)) == n.data.attrs + AttrsOf(Some(props));
    }
  }

  /** The loop only reads the values of the keys it visits. */
  lemma {:induction false} FoldPropsRestrict(h: Host, el: NodeId, keys: seq<string>, props: map<string, Value>, sub: map<string, Value>)
    requires Valid(h) && IsElement(h, el)
    requires forall k :: k in keys ==> k in sub && k in props && sub[k] == props[k]
    ensures FoldProps(h, el, keys, props) == FoldProps(h, el, keys, sub)
    decreases |keys|
  {
    if |keys| > 0 {
      FoldPropsRestrict(MountProp(h, el, keys[0], props[keys[0]]), el, keys[1..], props, sub);
    }
  }

  // ---------------------------------------------------------------------
  // patch

  /** `patch(vnode, container)`: Fragment and Text are recognised by their
      type marker; anything else by its ELEMENT or STATEFUL_COMPONENT flag;
      a vnode with neither changes nothing. */
  function Patch(h: Host, v: VNode, container: NodeId): (r: Result<Mounted>)
    requires Valid(h) && IsElement(h, container)
    ensures r.Ok? ==> MountEffect(h, r.value.host, container, r.value.roots)
    ensures r.Ok? ==> r.value.vnode.vtype == v.vtype && r.value.vnode.props == v.props && r.value.vnode.shapeFlag == v.shapeFlag
    // Fragment: the children go straight into the container, no host node of its own
    ensures v.vtype.FragmentType? && !v.children.ArrayChildren? ==> r == Err(TypeError)
    ensures v.vtype.FragmentType? && r.Ok? ==>
      && r.value.vnode.el == v.el
      && v.children.ArrayChildren? && r.value.vnode.children.ArrayChildren?
      && |r.value.vnode.children.items| == |v.children.items|
    ensures v.vtype.FragmentType? && v.children.ArrayChildren? ==>
      var m := MountChildren(h, v.children.items, container);
      && (m.Err? ==> r == Err(m.error))
      && (m.Ok? ==> r.Ok? && r.value.host == m.value.host && r.value.roots == Flatten(m.value.rootsPerItem)
                    && r.value.vnode.children == ArrayChildren(m.value.items))
    // Text: one text node holding the children string, recorded in el
    ensures v.vtype.TextType? ==> r.Ok?
    ensures v.vtype.TextType? && r.Ok? ==>
      && r.value.roots == [h.next] && r.value.vnode.el == Some(h.next)
      && r.value.host.nodes[h.next].data == TextNode(ChildrenToString(v.children))
      && r.value.vnode.children == v.children
    // Element
    ensures IsElementVNode(v) && r.Ok? ==>
      && v.vtype.Tag?
      && r.value.roots == [h.next] && r.value.vnode.el == Some(h.next)
      && r.value.host.nodes[h.next].data.Element?
      && r.value.host.nodes[h.next].data.tag == v.vtype.name
      && r.value.host.nodes[h.next].data.attrs == AttrsOf(v.props)
      && r.value.host.nodes[h.next].data.listeners == ListenersOf(v.props)
    ensures IsElementVNode(v) && !v.vtype.Tag? ==> r == Err(DomError)
    ensures (IsElementVNode(v) && !Has(v.shapeFlag, TEXT_CHILDREN) && Has(v.shapeFlag, ARRAY_CHILDREN)
             && !v.children.ArrayChildren?) ==> r.Err?
    // Component: the vnode takes the el of its rendered subtree
    ensures IsComponentVNode(v) && !(v.vtype.Component? && HasInstanceRender(v.vtype.def)) ==> r == Err(TypeError)
    // Neither
    ensures IsOtherVNode(v) ==> r == Ok(Mounted(h, v, []))
    decreases v, 2
  {
    match v.vtype
    case FragmentType =>
      if !v.children.ArrayChildren? then Err(TypeError)
      else
        var m :- MountChildren(h, v.children.items, container);
        Ok(Mounted(m.host, v.(children := ArrayChildren(m.items)), Flatten(m.rootsPerItem)))
    case TextType =>
      var (h1, t) := CreateText(h, ChildrenToString(v.children));
      Ok(Mounted(Append(h1, container, t), v.(el := Some(t)), [t]))
    case _ =>
      if Has(v.shapeFlag, ELEMENT) then ProcessElement(h, v, container)
      else if Has(v.shapeFlag, STATEFUL_COMPONENT) then ProcessComponent(h, v, container)
      else Ok(Mounted(h, v, []))
  }

  predicate IsElementVNode(v: VNode) {
    !v.vtype.FragmentType? && !v.vtype.TextType? && Has(v.shapeFlag, ELEMENT)
  }

  predicate IsComponentVNode(v: VNode) {
    !v.vtype.FragmentType? && !v.vtype.TextType? && !Has(v.shapeFlag, ELEMENT) && Has(v.shapeFlag, STATEFUL_COMPONENT)
  }

  predicate IsOtherVNode(v: VNode) {
    !v.vtype.FragmentType? && !v.vtype.TextType? && !Has(v.shapeFlag, ELEMENT) && !Has(v.shapeFlag, STATEFUL_COMPONENT)
  }

  /** `processElement`: create the element, record it in `el`, fill in its
      text or mount its children into it, apply the props, and append it to
      the container last. */
  function ProcessElement(h: Host, v: VNode, container: NodeId): (r: Result<Mounted>)
    requires Valid(h) && IsElement(h, container)
    ensures r.Ok? ==> MountEffect(h, r.value.host, container, r.value.roots)
    ensures r.Ok? ==> r.value.vnode.vtype == v.vtype && r.value.vnode.props == v.props && r.value.vnode.shapeFlag == v.shapeFlag
    ensures !v.vtype.Tag? ==> r == Err(DomError)
    ensures !Has(v.shapeFlag, TEXT_CHILDREN) && Has(v.shapeFlag, ARRAY_CHILDREN) && !v.children.ArrayChildren? ==> r.Err?
    ensures r.Ok? ==>
      && v.vtype.Tag?
      && r.value.roots == [h.next] && r.value.vnode.el == Some(h.next)
      && r.value.host.nodes[h.next].data.Element?
      && r.value.host.nodes[h.next].data.tag == v.vtype.name
      && r.value.host.nodes[h.next].data.attrs == AttrsOf(v.props)
      && r.value.host.nodes[h.next].data.listeners == ListenersOf(v.props)
    decreases v, 1
  {
    if !v.vtype.Tag? then Err(DomError)
    else
      var (h1, el) := CreateElement(h, v.vtype.name);
      var filled :- FillElement(h1, el, v);
      var h3 := ApplyProps(filled.host, el, v.props);
      AppendMounts(h, h3, container, el);
      var h4 := Append(h3, container, el);
      Ok(Mounted(h4, filled.vnode.(el := Some(el)), [el]))
  }

  /** Appending a fresh, parentless node to a container that nothing else
      has touched is a mount of that one root. */
  lemma AppendMounts(h: Host, h3: Host, container: NodeId, el: NodeId)
    requires Valid(h) && IsElement(h, container) && el == h.next
    requires Valid(h3) && IsElement(h3, container) && el in h3.nodes && h3.nodes[el].parent == None
    requires h3.nodes[container] == h.nodes[container]
    requires forall id :: id in h.nodes ==> id in h3.nodes && h3.nodes[id] == h.nodes[id]
    ensures el != container
    ensures MountEffect(h, Append(h3, container, el), container, [el])
    ensures Append(h3, container, el).nodes[el].data == h3.nodes[el].data
  {
  }

  /** The children half of `processElement`: text children set the
      element's text, array children are mounted into it in order. */
  function FillElement(h: Host, el: NodeId, v: VNode): (r: Result<Mounted>)
    requires Valid(h) && IsElement(h, el) && h.nodes[el].data.children == []
    ensures r.Ok? ==> Valid(r.value.host) && h.next <= r.value.host.next && IsElement(r.value.host, el)
    ensures r.Ok? ==> forall id :: id in h.nodes && id != el ==> id in r.value.host.nodes && r.value.host.nodes[id] == h.nodes[id]
    ensures r.Ok? ==> r.value.host.nodes[el] == h.nodes[el].(data := h.nodes[el].data.(children := r.value.host.nodes[el].data.children))
    ensures r.Ok? ==> r.value.vnode.vtype == v.vtype && r.value.vnode.props == v.props && r.value.vnode.shapeFlag == v.shapeFlag && r.value.vnode.el == v.el
    ensures !Has(v.shapeFlag, TEXT_CHILDREN) && Has(v.shapeFlag, ARRAY_CHILDREN) && !v.children.ArrayChildren? ==> r == Err(TypeError)
    ensures r.Ok? && !Has(v.shapeFlag, TEXT_CHILDREN) && Has(v.shapeFlag, ARRAY_CHILDREN) ==>
      r.value.host.nodes[el].data.children == r.value.roots
    decreases v, 0
  {
    if Has(v.shapeFlag, TEXT_CHILDREN) then
      var h2 := SetElementText(h, el, TextContentOf(v.children));
      Ok(Mounted(h2, v, []))
    else if Has(v.shapeFlag, ARRAY_CHILDREN) then
      if !v.children.ArrayChildren? then Err(TypeError)
      else
        var m :- MountChildren(h, v.children.items, el);
        Ok(Mounted(m.host, v.(children := ArrayChildren(m.items)), Flatten(m.rootsPerItem)))
    else Ok(Mounted(h, v, []))
  }

  /** `mountComponent` + `setupRenderEffect`: the rendered subtree is mounted
      into the container and the component's vnode takes the subtree's `el`.
      A definition without `setup`, or without `render`, leaves
      `instance.render` undefined, and calling it throws. */
  function ProcessComponent(h: Host, v: VNode, container: NodeId): (r: Result<Mounted>)
    requires Valid(h) && IsElement(h, container)
    ensures r.Ok? ==> MountEffect(h, r.value.host, container, r.value.roots)
    ensures r.Ok? ==> r.value.vnode.vtype == v.vtype && r.value.vnode.props == v.props && r.value.vnode.shapeFlag == v.shapeFlag
    ensures !(v.vtype.Component? && HasInstanceRender(v.vtype.def)) ==> r == Err(TypeError)
    ensures v.vtype.Component? && HasInstanceRender(v.vtype.def) ==>
      var sub := Patch(h, v.vtype.def.render.value, container);
      && (sub.Err? ==> r == Err(sub.error))
      && (sub.Ok? ==> r.Ok? && r.value.vnode.el == sub.value.vnode.el && r.value.roots == sub.value.roots
                      && r.value.host == sub.value.host)
    decreases v, 1
  {
    if !(v.vtype.Component? && HasInstanceRender(v.vtype.def)) then Err(TypeError)
    else
      var sub :- Patch(h, v.vtype.def.render.value, container);
      Ok(Mounted(sub.host, v.(el := sub.vnode.el), sub.roots))
  }

  /** `mountChildren`: each child is patched into the container in list
      order. */
  function MountChildren(h: Host, items: seq<VNode>, container: NodeId): (r: Result<MountedList>)
    requires Valid(h) && IsElement(h, container)
    ensures r.Ok? ==> MountEffect(h, r.value.host, container, Flatten(r.value.rootsPerItem))
    ensures r.Ok? ==> |r.value.items| == |items| && |r.value.rootsPerItem| == |items|
    ensures r.Ok? ==> forall i :: 0 <= i < |items| ==> r.value.items[i].vtype == items[i].vtype
    decreases items
  {
    if |items| == 0 then
      assert h.nodes[container].data.children + [] == h.nodes[container].data.children;
      assert h.nodes[container := h.nodes[container]] == h.nodes;
      Ok(MountedList(h, [], []))
    else
      var first :- Patch(h, items[0], container);
      var rest :- MountChildren(first.host, items[1..], container);
      MountEffectTrans(h, first.host, rest.host, container, first.roots, Flatten(rest.rootsPerItem));
      assert Flatten([first.roots] + rest.rootsPerItem) == first.roots + Flatten(rest.rootsPerItem) by {
        assert ([first.roots] + rest.rootsPerItem)[1..] == rest.rootsPerItem;
      }
      Ok(MountedList(rest.host, [first.vnode] + rest.items, [first.roots] + rest.rootsPerItem))
  }

  /** Mounting a one-child list is patching that child. */
  lemma MountChildrenOne(h: Host, v: VNode, container: NodeId)
    requires Valid(h) && IsElement(h, container)
    ensures var p := Patch(h, v, container);
      var m := MountChildren(h, [v], container);
      && (p.Err? <==> m.Err?)
      && (p.Err? ==> m.error == p.error)
      && (p.Ok? ==> m.value == MountedList(p.value.host, [p.value.vnode], [p.value.roots]))
  {
    var p := Patch(h, v, container);
    if p.Ok? {
      assert [v][1..] == [];
      assert MountChildren(p.value.host, [], container) == Ok(MountedList(p.value.host, [], []));
    }
  }

  /** A list mount followed by mounting `ys` into the host it left: the
      vnodes and the root lists are concatenated, and the first error
      wins. */
  function ThenMount(a: Result<MountedList>, ys: seq<VNode>, container: NodeId): (r: Result<MountedList>)
    requires a.Ok? ==> Valid(a.value.host) && IsElement(a.value.host, container)
    ensures a.Err? ==> r == Err(a.error)
    ensures a.Ok? && r.Ok? ==> |a.value.items| <= |r.value.items| && r.value.items[..|a.value.items|] == a.value.items
  {
    if a.Err? then Err(a.error)
    else Join(a.value, MountChildren(a.value.host, ys, container))
  }

  /** Mounted `a`, then the outcome `b` of mounting more after it. */
  function Join(a: MountedList, b: Result<MountedList>): (r: Result<MountedList>)
    ensures r.Ok? ==> |a.items| <= |r.value.items| && r.value.items[..|a.items|] == a.items
  {
    if b.Err? then Err(b.error)
    else Ok(MountedList(b.value.host, a.items + b.value.items, a.rootsPerItem + b.value.rootsPerItem))
  }

  /** One mounted child in front of the outcome of mounting the rest. */
  function Cons(p: Mounted, a: Result<MountedList>): Result<MountedList> {
    if a.Err? then a
    else Ok(MountedList(a.value.host, [p.vnode] + a.value.items, [p.roots] + a.value.rootsPerItem))
  }

  /** Mounting `xs + ys` mounts `xs`, then `ys` into the host that left,
      with the vnodes and the root lists concatenated; an error in either
      half is the error of the whole. */
  lemma {:induction false} MountChildrenAppend(h: Host, xs: seq<VNode>, ys: seq<VNode>, container: NodeId)
    requires Valid(h) && IsElement(h, container)
    ensures MountChildren(h, xs + ys, container) == ThenMount(MountChildren(h, xs, container), ys, container)
    decreases |xs|
  {
    if |xs| == 0 {
      assert xs + ys == ys;
      var b := MountChildren(h, ys, container);
      if b.Ok? {
        assert [] + b.value.items == b.value.items && [] + b.value.rootsPerItem == b.value.rootsPerItem;
      }
    } else {
      var zs := xs + ys;
      assert zs[0] == xs[0] && zs[1..] == xs[1..] + ys;
      var p := Patch(h, xs[0], container);
      if p.Ok? {
        MountChildrenAppend(p.value.host, xs[1..], ys, container);
        MountChildrenCons(h, zs, container, p);
        MountChildrenCons(h, xs, container, p);
        ThenCons(p.value, MountChildren(p.value.host, xs[1..], container), ys, container);
      }
    }
  }

  lemma MountChildrenCons(h: Host, xs: seq<VNode>, container: NodeId, p: Result<Mounted>)
    requires Valid(h) && IsElement(h, container) && |xs| > 0
    requires p == Patch(h, xs[0], container) && p.Ok?
    ensures MountChildren(h, xs, container) == Cons(p.value, MountChildren(p.value.host, xs[1..], container))
  {
  }

  lemma ThenCons(p: Mounted, a: Result<MountedList>, ys: seq<VNode>, container: NodeId)
    requires a.Ok? ==> Valid(a.value.host) && IsElement(a.value.host, container)
    ensures ThenMount(Cons(p, a), ys, container) == Cons(p, ThenMount(a, ys, container))
  {
    if a.Ok? {
      JoinCons(p, a.value, MountChildren(a.value.host, ys, container));
    }
  }

  lemma JoinCons(p: Mounted, a: MountedList, b: Result<MountedList>)
    ensures Join(Cons(p, Ok(a)).value, b) == Cons(p, Join(a, b))
  {
    if b.Ok? {
      assert [p.vnode] + a.items + b.value.items == [p.vnode] + (a.items + b.value.items);
      assert [p.roots] + a.rootsPerItem + b.value.rootsPerItem == [p.roots] + (a.rootsPerItem + b.value.rootsPerItem);
    }
  }

  /** The array children of a mounted element are exactly the roots of
      mounting the children list into the new element, in order. */
  lemma ProcessElementChildren(h: Host, v: VNode, container: NodeId)
    requires Valid(h) && IsElement(h, container)
    requires v.vtype.Tag? && !Has(v.shapeFlag, TEXT_CHILDREN) && Has(v.shapeFlag, ARRAY_CHILDREN)
    ensures var r := ProcessElement(h, v, container);
      r.Ok? ==>
        && v.children.ArrayChildren?
        && var m := MountChildren(CreateElement(h, v.vtype.name).0, v.children.items, h.next);
        && m.Ok?
        && r.value.host.nodes[h.next].data.children == Flatten(m.value.rootsPerItem)
        && r.value.vnode.children == ArrayChildren(m.value.items)
  {
  }

  /** The text children of a mounted element: an empty string leaves it
      without children, any other string gives it one text node holding the
      string. Without text or array children it has no children at all. */
  lemma ProcessElementText(h: Host, v: VNode, container: NodeId)
    requires Valid(h) && IsElement(h, container)
    ensures var r := ProcessElement(h, v, container);
      r.Ok? && Has(v.shapeFlag, TEXT_CHILDREN) ==>
        var kids := r.value.host.nodes[h.next].data.children;
        && (TextContentOf(v.children) == "" ==> kids == [])
        && (TextContentOf(v.children) != "" ==>
              |kids| == 1 && kids[0] in r.value.host.nodes && r.value.host.nodes[kids[0]].data == TextNode(TextContentOf(v.children)))
    ensures var r := ProcessElement(h, v, container);
      r.Ok? && !Has(v.shapeFlag, TEXT_CHILDREN) && !Has(v.shapeFlag, ARRAY_CHILDREN) ==>
        r.value.host.nodes[h.next].data.children == []
  {
    if v.vtype.Tag? {
      FillElementText(CreateElement(h, v.vtype.name).0, h.next, v);
    }
  }

  /** Text children become the element's text content; with neither
      children flag the element stays empty. */
  lemma FillElementText(h: Host, el: NodeId, v: VNode)
    requires Valid(h) && IsElement(h, el) && h.nodes[el].data.children == []
    ensures var r := FillElement(h, el, v);
      r.Ok? && Has(v.shapeFlag, TEXT_CHILDREN) ==>
        var kids := r.value.host.nodes[el].data.children;
        && (TextContentOf(v.children) == "" ==> kids == [])
        && (TextContentOf(v.children) != "" ==>
              |kids| == 1 && kids[0] in r.value.host.nodes && r.value.host.nodes[kids[0]].data == TextNode(TextContentOf(v.children)))
    ensures var r := FillElement(h, el, v);
      r.Ok? && !Has(v.shapeFlag, TEXT_CHILDREN) && !Has(v.shapeFlag, ARRAY_CHILDREN) ==>
        r.value.host.nodes[el].data.children == []
  {
  }

  /** Array children are mounted into the element in order: an error while
      mounting them is the error of the whole, and otherwise the element's
      roots and the vnode's children are what mounting the list produced. */
  lemma FillElementChildren(h: Host, el: NodeId, v: VNode)
    requires Valid(h) && IsElement(h, el) && h.nodes[el].data.children == []
    requires !Has(v.shapeFlag, TEXT_CHILDREN) && Has(v.shapeFlag, ARRAY_CHILDREN) && v.children.ArrayChildren?
    ensures var r := FillElement(h, el, v);
      var m := MountChildren(h, v.children.items, el);
      && (m.Err? ==> r == Err(m.error))
      && (m.Ok? ==> r.Ok? && r.value.host == m.value.host && r.value.roots == Flatten(m.value.rootsPerItem)
                    && r.value.vnode.children == ArrayChildren(m.value.items))
  {
  }
}

=== FILE: scheduler.dfy ===
/** The queues of src/runtime-core/scheduler.ts: a job queue with identity
    de-duplication, a list of pre-flush callbacks without it, and a flag
    saying a flush is already scheduled on the microtask queue. Running the
    jobs is the business of the reactive world (see `Reactivity.Tick`);
    here are the queue operations, over any job type with identity. */
module Scheduler {
  import opened Wrappers

  datatype Queues<J> = Queues(queue: seq<J>, preFlush: seq<J>, pending: bool)

  function Empty<J>(): Queues<J> {
    Queues([], [], false)
  }

  predicate NoDup<J(==)>(s: seq<J>) {
    forall i, j :: 0 <= i < j < |s| ==> s[i] != s[j]
  }

  /** `queueFlush`: schedules the flush unless one is pending. `scheduled`
      tells whether a new microtask was queued. */
  function QueueFlush<J>(q: Queues<J>): (r: (Queues<J>, bool))
    ensures r.0.queue == q.queue && r.0.preFlush == q.preFlush
    ensures r.0.pending
    ensures r.1 <==> !q.pending
  {
    (q.(pending := true), !q.pending)
  }

  /** At most one flush is pending: a second `queueFlush` schedules nothing
      and changes nothing. */
  lemma QueueFlushOnce<J>(q: Queues<J>)
    ensures !QueueFlush(QueueFlush(q).0).1
    ensures QueueFlush(QueueFlush(q).0).0 == QueueFlush(q).0
  {
  }

  /** `queuePreFlushCb`: always appends, then asks for a flush. */
  function QueuePreFlushCb<J>(q: Queues<J>, cb: J): (r: Queues<J>)
    ensures r.preFlush == q.preFlush + [cb] && r.queue == q.queue && r.pending
    ensures |r.preFlush| == |q.preFlush| + 1
  {
    QueueFlush(q.(preFlush := q.preFlush + [cb])).0
  }

  /** `queueJobs`: appends the job unless the queue already holds it, then
      asks for a flush. */
  function QueueJob<J(==)>(q: Queues<J>, job: J): (r: Queues<J>)
    ensures r.preFlush == q.preFlush && r.pending
    ensures job in r.queue
    ensures job in q.queue ==> r.queue == q.queue
    ensures job !in q.queue ==> r.queue == q.queue + [job]
    ensures NoDup(q.queue) ==> NoDup(r.queue)
  {
    var q1 := if job in q.queue then q else q.(queue := q.queue + [job]);
    QueueFlush(q1).0
  }

  /** Queueing the same job twice is queueing it once. */
  lemma QueueJobIdempotent<J>(q: Queues<J>, job: J)
    ensures QueueJob(QueueJob(q, job), job) == QueueJob(q, job)
  {
  }

  /** The pre-flush list does not de-duplicate: queueing a callback twice
      leaves two more occurrences of it. */
  lemma PreFlushKeepsDuplicates<J>(q: Queues<J>, cb: J)
    ensures multiset(QueuePreFlushCb(QueuePreFlushCb(q, cb), cb).preFlush)[cb] == multiset(q.preFlush)[cb] + 2
  {
    assert QueuePreFlushCb(QueuePreFlushCb(q, cb), cb).preFlush == q.preFlush + [cb] + [cb];
  }

  /** `queue.shift()`: the oldest job, if any. */
  function Shift<J>(q: Queues<J>): (r: (Option<J>, Queues<J>))
    ensures |q.queue| == 0 ==> r.0 == None && r.1 == q
    ensures |q.queue| > 0 ==> r.0 == Some(q.queue[0]) && [q.queue[0]] + r.1.queue == q.queue
    ensures r.1.preFlush == q.preFlush && r.1.pending == q.pending
  {
    if |q.queue| == 0 then (None, q) else (Some(q.queue[0]), q.(queue := q.queue[1..]))
  }
}

=== FILE: shape_flags.dfy ===
/** The shape flags of src/shared/shapeFlags.ts. A vnode's flags classify its
    type (element or stateful component) and its children (text, array, slot
    object) as bits of one 32-bit integer, combined with `|` and tested with
    `&`. SLOT_CHILDREN is the value the bundled build uses. */
module ShapeFlags {

  type Flags = bv32

  const ELEMENT: Flags := 1
  const STATEFUL_COMPONENT: Flags := 1 << 1
  const TEXT_CHILDREN: Flags := 1 << 2
  const ARRAY_CHILDREN: Flags := 1 << 3
  const SLOT_CHILDREN: Flags := 1 << 4

  /** `flags & f` taken as a condition. */
  predicate Has(flags: Flags, f: Flags) {
    flags & f != 0
  }

  predicate IsFlag(f: Flags) {
    f == ELEMENT || f == STATEFUL_COMPONENT || f == TEXT_CHILDREN || f == ARRAY_CHILDREN || f == SLOT_CHILDREN
  }

  predicate IsTypeFlag(f: Flags) { f == ELEMENT || f == STATEFUL_COMPONENT }
  predicate IsChildrenFlag(f: Flags) { f == TEXT_CHILDREN || f == ARRAY_CHILDREN }

  lemma FlagValues()
    ensures ELEMENT == 1 && STATEFUL_COMPONENT == 2 && TEXT_CHILDREN == 4
    ensures ARRAY_CHILDREN == 8 && SLOT_CHILDREN == 16
  {
  }

  /** SLOT_CHILDREN, missing from the enum, is the next bit after
      ARRAY_CHILDREN in the bundled build. */
  lemma SlotFlagValue()
    ensures SLOT_CHILDREN == 16 && SLOT_CHILDREN == ARRAY_CHILDREN << 1
  {
  }

  /** Every flag is a single bit, so distinct flags share no bit. */
  lemma FlagsDisjoint()
    ensures forall f, g :: IsFlag(f) && IsFlag(g) && f != g ==> f & g == 0
    ensures forall f :: IsFlag(f) ==> f & f == f && f != 0
  {
  }

  /** Combining a type flag with a children flag loses neither, and adds no
      other flag. */
  lemma CombineAndTest(t: Flags, c: Flags)
    requires IsTypeFlag(t) && IsChildrenFlag(c)
    ensures (t | c) & t == t && (t | c) & c == c
    ensures forall f :: IsFlag(f) && f != t && f != c ==> (t | c) & f == 0
  {
  }
}

=== FILE: shared.dfy ===
/** The helpers of src/shared/index.ts: type tests, change detection,
    own-key membership and the event-name string transformations.
    Case mapping is ASCII only (`toUpperCase`/`toLowerCase` of other
    characters are left as they are). */
module Shared {
  import opened Values

  // ---------------------------------------------------------------------
  // Characters

  predicate IsLower(c: char) { 'a' <= c <= 'z' }
  predicate IsUpper(c: char) { 'A' <= c <= 'Z' }
  predicate IsLetter(c: char) { IsLower(c) || IsUpper(c) }
  predicate IsDigit(c: char) { '0' <= c <= '9' }

  /** The regular-expression class `\w`. */
  predicate IsWordChar(c: char) { IsLetter(c) || IsDigit(c) || c == '_' }

  function Upper(c: char): (r: char)
    ensures IsLower(c) ==> IsUpper(r)
    ensures !IsLower(c) ==> r == c
  {
    if IsLower(c) then (c as int - 32) as char else c
  }

  function Lower(c: char): (r: char)
    ensures IsUpper(c) ==> IsLower(r)
    ensures !IsUpper(c) ==> r == c
  {
    if IsUpper(c) then (c as int + 32) as char else c
  }

  lemma UpperLowerInverse(c: char)
    ensures IsUpper(c) ==> Upper(Lower(c)) == c
    ensures IsLower(c) ==> Lower(Upper(c)) == c
  {
  }

  /** `String.prototype.toLowerCase`, ASCII part. */
  function LowerAll(s: string): (r: string)
    ensures |r| == |s|
    ensures forall i :: 0 <= i < |s| ==> r[i] == Lower(s[i])
  {
    seq(|s|, i requires 0 <= i < |s| => Lower(s[i]))
  }

  // ---------------------------------------------------------------------
  // Type tests and comparisons

  /** `isObject`: non-null and of type "object" (so proxies of objects are
      objects, functions are not). */
  predicate IsObject(v: Value) {
    v != Null && TypeOf(v) == "object"
  }

  predicate IsString(v: Value) {
    TypeOf(v) == "string"
  }

  /** A value `new Proxy` could have produced: every proxy layer wraps an
      object or a function (a primitive target throws TypeError). */
  predicate WellFormed(v: Value) {
    match v
    case Proxy(_, t) => (t.Obj? || t.Func? || t.Proxy?) && WellFormed(t)
    case _ => true
  }

  lemma IsObjectCases(v: Value)
    requires WellFormed(v)
    ensures IsObject(v) <==> v.Obj? || (v.Proxy? && IsObject(v.target))
    ensures IsString(v) <==> v.Str?
  {
  }

  /** `isChanged`: the negation of `Object.is`. */
  predicate IsChanged(oldValue: Value, newValue: Value) {
    !SameValue(oldValue, newValue)
  }

  lemma IsChangedCases()
    ensures !IsChanged(Num(NaN), Num(NaN))
    ensures IsChanged(Num(Zero(false)), Num(Zero(true)))
    ensures forall v :: !IsChanged(v, v)
  {
  }

  /** `hasOwn`: membership in the object's OWN property table; inherited
      keys are not consulted. */
  predicate HasOwn(own: map<string, Value>, key: string) {
    key in own
  }

  // ---------------------------------------------------------------------
  // camelize / capitalize / toHandlerKey

  /** `camelize`: `str.replace(/-(\w)/g, c => c.toUpperCase())`. The global
      replace scans left to right; a match consumes the hyphen and the word
      character after it, and scanning resumes after the match. */
  function Camelize(s: string): (r: string)
    ensures |r| <= |s|
    ensures |s| > 0 ==> |r| > 0
    ensures '-' !in s ==> r == s
    decreases |s|
  {
    if |s| == 0 then ""
    else if s[0] == '-' && |s| >= 2 && IsWordChar(s[1]) then [Upper(s[1])] + Camelize(s[2..])
    else [s[0]] + Camelize(s[1..])
  }

  /** The opposite transformation (not part of the source): every upper-case
      letter becomes a hyphen followed by its lower-case form, as in
      `add-foo` for `addFoo`. */
  function Hyphenate(s: string): (r: string)
    ensures |r| >= |s|
  {
    if |s| == 0 then ""
    else if IsUpper(s[0]) then ['-', Lower(s[0])] + Hyphenate(s[1..])
    else [s[0]] + Hyphenate(s[1..])
  }

  /** camelize undoes hyphenation for every name without hyphens. */
  lemma {:induction false} CamelizeHyphenate(s: string)
    requires '-' !in s
    ensures Camelize(Hyphenate(s)) == s
  {
    if |s| > 0 {
      CamelizeHyphenate(s[1..]);
      assert '-' !in s[1..];
      if IsUpper(s[0]) {
        var h := ['-', Lower(s[0])] + Hyphenate(s[1..]);
        assert h[0] == '-' && h[1] == Lower(s[0]) && h[2..] == Hyphenate(s[1..]);
        UpperLowerInverse(s[0]);
      } else {
        var h := [s[0]] + Hyphenate(s[1..]);
        assert h[1..] == Hyphenate(s[1..]);
      }
    }
  }

  /** camelize is not idempotent: a hyphen before a hyphen survives and then
      faces a word character. */
  lemma CamelizeNotIdempotent()
    ensures Camelize("--a") == "-A"
    ensures Camelize(Camelize("--a")) == "A"
  {
    assert Camelize("a") == "a";
    assert Camelize("-a") == "A";
    assert Camelize("--a") == ['-'] + Camelize("-a");
    assert Camelize("A") == "A";
    assert Camelize("-A") == "A";
  }

  lemma CamelizeExamples()
    ensures Camelize("add") == "add"
    ensures Camelize("add-foo") == "addFoo"
  {
    assert '-' !in "add";
    CamelizeAddFoo();
  }

  lemma CamelizeAddFoo()
    ensures Camelize("add-foo") == "addFoo"
  {
    CamelizeReplaces("add", 'f', "oo");
    assert "add" + ['-', 'f'] + "oo" == "add-foo";
    assert '-' !in "add" && '-' !in "oo";
    assert "add" + [Upper('f')] + "oo" == "addFoo";
  }

  /** A prefix without hyphens is kept as it is. */
  lemma CamelizeKeeps(p: string, s: string)
    requires '-' !in p
    ensures Camelize(p + s) == p + Camelize(s)
  {
    assert |p| > 0 ==> p[|p| - 1] in p;
    CamelizeAppend(p, s);
  }

  /** camelize works piece by piece: a cut after any character other than
      a hyphen never splits a match. */
  lemma {:induction false} CamelizeAppend(p: string, s: string)
    requires |p| == 0 || p[|p| - 1] != '-'
    ensures Camelize(p + s) == Camelize(p) + Camelize(s)
    decreases |p|
  {
    if |p| == 0 {
      assert p + s == s;
    } else if p[0] == '-' && |p| >= 2 && IsWordChar(p[1]) {
      assert (p + s)[0] == '-' && (p + s)[1] == p[1];
      assert (p + s)[2..] == p[2..] + s;
      CamelizeAppend(p[2..], s);
    } else {
      assert (p + s)[0] == p[0];
      assert |p| == 1 ==> p[0] != '-';
      assert (p + s)[1..] == p[1..] + s;
      CamelizeAppend(p[1..], s);
    }
  }

  /** Every hyphen followed by a word character, and not itself consumed
      as the word character of an earlier match, is replaced by that
      character upper-cased; what precedes and what follows are camelized
      on their own. */
  lemma CamelizeReplaces(p: string, c: char, s: string)
    requires |p| == 0 || p[|p| - 1] != '-'
    requires IsWordChar(c)
    ensures Camelize(p + ['-', c] + s) == Camelize(p) + [Upper(c)] + Camelize(s)
  {
    var t := ['-', c] + s;
    assert p + ['-', c] + s == p + t;
    CamelizeAppend(p, t);
    assert t[2..] == s;
  }

  /** A hyphen followed by a character that is neither a word character nor
      a hyphen stays, together with that character. */
  lemma CamelizeKeepsDash(p: string, c: char, s: string)
    requires |p| == 0 || p[|p| - 1] != '-'
    requires !IsWordChar(c) && c != '-'
    ensures Camelize(p + ['-', c] + s) == Camelize(p) + ['-', c] + Camelize(s)
  {
    var t := ['-', c] + s;
    assert p + ['-', c] + s == p + t;
    CamelizeAppend(p, t);
    DashOther(c, s);
  }

  /** A hyphen followed by another hyphen stays, and the second hyphen
      starts the rest of the match; so `a--b` becomes `a-B`. */
  lemma CamelizeDashDash(p: string, s: string)
    requires |p| == 0 || p[|p| - 1] != '-'
    ensures Camelize(p + ['-', '-'] + s) == Camelize(p) + ['-'] + Camelize(['-'] + s)
  {
    var t := ['-', '-'] + s;
    assert Camelize(p + ['-', '-'] + s) == Camelize(p) + Camelize(t) by {
      assert p + ['-', '-'] + s == p + t;
      CamelizeAppend(p, t);
    }
    DashDash(s);
    Regroup(Camelize(p), ['-'], Camelize(['-'] + s));
  }

  lemma Regroup(a: string, b: string, c: string)
    ensures a + (b + c) == a + b + c
  {
  }

  lemma DashDash(s: string)
    ensures Camelize(['-', '-'] + s) == ['-'] + Camelize(['-'] + s)
  {
    var t := ['-', '-'] + s;
    assert t[0] == '-' && t[1] == '-' && !IsWordChar('-');
    assert t[1..] == ['-'] + s;
  }

  /** A hyphen at the very end stays. */
  lemma CamelizeTrailingDash(p: string)
    requires |p| == 0 || p[|p| - 1] != '-'
    ensures Camelize(p + ['-']) == Camelize(p) + ['-']
  {
    CamelizeAppend(p, ['-']);
    assert ['-'][1..] == [];
  }

  lemma DashOther(c: char, s: string)
    requires !IsWordChar(c) && c != '-'
    ensures Camelize(['-', c] + s) == ['-', c] + Camelize(s)
  {
    var d := ['-', c];
    assert d[1..] == [c] && [c][1..] == [];
    assert Camelize([c]) == [c];
    assert Camelize(d) == d;
    CamelizeAppend(d, s);
  }

  /** `capitalize`: the first character upper-cased. Reading `str[0]` of the
      empty string gives `undefined`, whose `toUpperCase` throws, so the
      argument must be non-empty. */
  function Capitalize(s: string): (r: string)
    requires |s| > 0
    ensures |r| == |s| && r[1..] == s[1..]
    ensures r[0] == Upper(s[0]) && !IsLower(r[0])
    ensures IsLower(s[0]) <==> r != s
  {
    [Upper(s[0])] + s[1..]
  }

  lemma CapitalizeIdempotent(s: string)
    requires |s| > 0
    ensures Capitalize(Capitalize(s)) == Capitalize(s)
  {
  }

  /** `toHandlerKey`: "on" followed by the capitalized name. */
  function ToHandlerKey(s: string): (r: string)
    requires |s| > 0
    ensures |r| == |s| + 2 && r[..2] == "on"
    ensures r[3..] == s[1..] && r[2] == Upper(s[0])
  {
    "on" + Capitalize(s)
  }
}

=== FILE: slots.dfy ===
/** Slots (packages/runtime-core/src/componentSlots.ts and
    packages/runtime-core/helpers/renderSlots.ts). `initSlots` copies every
    key of a component's object children into the instance's `slots`,
    each wrapped in a closure that calls the original value and makes its
    result an array; `renderSlots` calls a slot and wraps the result in a
    Fragment vnode. A user slot function is user code: what it returns is a
    parameter here. */
module Slots {
  import opened Values
  import opened Wrappers
  import opened ShapeFlags
  import opened VNodes

  /** An entry of `instance.slots`: the closure `initSlots` stores around a
      source value, or any other value placed there. */
  datatype SlotEntry = Normalized(source: SlotValue) | OtherEntry(v: Value)

  /** What a user slot function returns: an array of vnodes or one vnode. */
  datatype SlotReturn = ReturnsArray(items: seq<VNode>) | ReturnsNode(node: VNode)

  /** One call of a user slot function, with the props it was given. */
  datatype SlotCall = SlotCall(fid: nat, props: Value)

  /** The decimal spelling of an index, as `for (key in array)` yields it. */
  function IndexKey(n: nat): (r: string)
    ensures |r| > 0
  {
    var d := ['0' + (n % 10) as char];
    if n < 10 then d else IndexKey(n / 10) + d
  }

  /** `normalizeSlotValue`: arrays pass through, anything else becomes a
      one-element array. */
  function NormalizeSlotValue(ret: SlotReturn): (r: seq<VNode>)
    ensures ret.ReturnsArray? ==> r == ret.items
    ensures ret.ReturnsNode? ==> r == [ret.node]
  {
    match ret
    case ReturnsArray(items) => items
    case ReturnsNode(node) => [node]
  }

  /** Normalizing an already normalized result changes nothing. */
  lemma NormalizeIdempotent(ret: SlotReturn)
    ensures NormalizeSlotValue(ReturnsArray(NormalizeSlotValue(ret))) == NormalizeSlotValue(ret)
  {
  }

  /** The entries `for (key in children)` visits for array or string
      children: one per index, keyed by its decimal spelling. */
  function IndexedEntries(n: nat, slots: map<string, SlotEntry>, at: nat -> SlotValue): (r: map<string, SlotEntry>)
    ensures r.Keys == slots.Keys + IndexKeys(n)
    ensures forall k :: k in slots && k !in IndexKeys(n) ==> r[k] == slots[k]
    ensures n > 0 ==> r[IndexKey(n - 1)] == Normalized(at(n - 1))
  {
    if n == 0 then slots
    else IndexedEntries(n - 1, slots, at)[IndexKey(n - 1) := Normalized(at(n - 1))]
  }

  /** The keys `for (key in array)` visits for an array of length `n`. */
  function IndexKeys(n: nat): (r: set<string>)
    ensures forall i :: 0 <= i < n ==> IndexKey(i) in r
  {
    if n == 0 then {} else IndexKeys(n - 1) + {IndexKey(n - 1)}
  }

  /** `initSlots(instance, children)`: nothing unless the vnode carries
      SLOT_CHILDREN; then every key of the children gets an entry in the
      existing slots object, other entries staying as they were. `for ... in`
      over `null` or `undefined` visits nothing; over an array or a string it
      visits the indices. */
  function InitSlots(v: VNode, slots: map<string, SlotEntry>): (r: map<string, SlotEntry>)
    ensures !Has(v.shapeFlag, SLOT_CHILDREN) ==> r == slots
    ensures Has(v.shapeFlag, SLOT_CHILDREN) && v.children.ObjectChildren? ==>
      && r.Keys == slots.Keys + v.children.entries.Keys
      && (forall k :: k in v.children.entries ==> r[k] == Normalized(v.children.entries[k]))
      && (forall k :: k in slots && k !in v.children.entries ==> r[k] == slots[k])
    ensures Has(v.shapeFlag, SLOT_CHILDREN) && v.children.ArrayChildren? ==>
      r.Keys == slots.Keys + IndexKeys(|v.children.items|)
    ensures v.children.NoChildren? || v.children.NullChildren? ==> r == slots
  {
    if !Has(v.shapeFlag, SLOT_CHILDREN) then slots
    else
      match v.children
      case ObjectChildren(entries) =>
        map k | k in slots.Keys + entries.Keys :: if k in entries then Normalized(entries[k]) else slots[k]
      case ArrayChildren(items) =>
        IndexedEntries(|items|, slots, (i: nat) => if i < |items| then VNodeSlot(items[i]) else OtherSlot(Undefined))
      case TextChildren(s) =>
        IndexedEntries(|s|, slots, (i: nat) => if i < |s| then OtherSlot(Str([s[i]])) else OtherSlot(Undefined))
      case _ => slots
  }

  /** `renderSlots(slots, name, props)`: a missing entry or one that is not
      a function gives `undefined`. A stored closure calls its source with
      the props: a user function is called once, and its normalized result
      becomes the children of a Fragment with empty props; any other source
      is not callable and throws. An entry `initSlots` did not write is
      taken to hold a value that is not a function. */
  function RenderSlots(slots: map<string, SlotEntry>, name: string, props: Value, ret: SlotReturn): (r: Result<Option<(VNode, SlotCall)>>)
    ensures name !in slots ==> r == Ok(None)
    ensures name in slots && slots[name].OtherEntry? ==> r == Ok(None)
    ensures r.Ok? && r.value.Some? ==>
      && name in slots && slots[name].Normalized? && slots[name].source.FnSlot?
      && r.value.value.1 == SlotCall(slots[name].source.fid, props)
      && r.value.value.0.vtype == FragmentType && r.value.value.0.props == Some(map[])
      && r.value.value.0.children == ArrayChildren(NormalizeSlotValue(ret))
    ensures name in slots && slots[name].Normalized? && !slots[name].source.FnSlot? ==> r == Err(TypeError)
    ensures name in slots && slots[name].Normalized? && slots[name].source.FnSlot? ==>
      && r.Ok? && r.value.Some?
      && r.value.value.0 == CreateVNode(FragmentType, Some(map[]), ArrayChildren(NormalizeSlotValue(ret)))
  {
    if name !in slots then Ok(None)
    else
      match slots[name]
      case OtherEntry(_) => Ok(None)
      case Normalized(source) =>
        match source
        case FnSlot(fid) =>
          Ok(Some((CreateVNode(FragmentType, Some(map[]), ArrayChildren(NormalizeSlotValue(ret))), SlotCall(fid, props))))
        case _ => Err(TypeError)
  }

  /** A component whose object children hold a slot function under `name`:
      after `initSlots`, `renderSlots` calls that function once with the
      props and renders a Fragment of its normalized result; a vnode placed
      directly under the key is not callable. */
  lemma InitThenRender(v: VNode, name: string, props: Value, ret: SlotReturn)
    requires Has(v.shapeFlag, SLOT_CHILDREN) && v.children.ObjectChildren? && name in v.children.entries
    ensures var r := RenderSlots(InitSlots(v, map[]), name, props, ret);
      && (v.children.entries[name].FnSlot? ==>
            r == Ok(Some((CreateVNode(FragmentType, Some(map[]), ArrayChildren(NormalizeSlotValue(ret))),
                          SlotCall(v.children.entries[name].fid, props)))))
      && (!v.children.entries[name].FnSlot? ==> r == Err(TypeError))
  {
  }

  /** `initSlots` on a vnode built by `createVNode`: a component with object
      children gets one entry per key, an element never gets any. */
  lemma InitSlotsOfCreated(t: VType, props: Props, entries: map<string, SlotValue>, slots: map<string, SlotEntry>)
    ensures var v := CreateVNode(t, props, ObjectChildren(entries));
      && (t.Tag? ==> InitSlots(v, slots) == slots)
      && (!t.Tag? ==> InitSlots(v, slots).Keys == slots.Keys + entries.Keys)
  {
  }
}

=== FILE: template_ast.dfy ===
/** The template AST the compiler front end works on: the root the parser
    returns, and the ELEMENT, TEXT and INTERPOLATION nodes (an interpolation
    holds a SIMPLE_EXPRESSION, represented here by its content). Only the
    root and nodes a transform gave children have a `children` list. */
module TemplateAst {
  import opened Wrappers

  datatype AstNode =
    | Root(children: seq<AstNode>, codegenNode: Option<AstNode>)
    | Element(tag: string, elementChildren: ChildList)
    | Text(content: string)
    | Interpolation(expression: string)

  /** An element's `children`: absent, as the parser leaves it, or a list a
      transform put there. */
  datatype ChildList = Absent | Present(nodes: seq<AstNode>)

  /** `if (node.children)`: the root always has a list, an element may. */
  predicate HasChildren(n: AstNode) {
    n.Root? || (n.Element? && n.elementChildren.Present?)
  }

  /** `node.children`, or the empty list when there is none. */
  function ChildrenOf(n: AstNode): (r: seq<AstNode>)
    ensures forall i :: 0 <= i < |r| ==> r[i] < n
    ensures !HasChildren(n) ==> r == []
  {
    match n
    case Root(cs, _) => cs
    case Element(_, Present(cs)) => cs
    case _ => []
  }

  /** The node with its `children` list replaced. */
  function WithChildren(n: AstNode, cs: seq<AstNode>): (r: AstNode)
    requires HasChildren(n)
    ensures HasChildren(r) && ChildrenOf(r) == cs
  {
    match n
    case Root(_, cg) => Root(cs, cg)
    case Element(tag, _) => Element(tag, Present(cs))
  }
}

=== FILE: transform.dfy ===
/** The transform pass (src/compiler-core/src/transform.ts): a depth-first
    walk over the template AST that hands every node to each of the user's
    node transforms in turn before it visits the node's children.

    A node transform is user code that rewrites the node object it is given;
    here it is a function from the node's value to its new value. The
    children a walk visits are the list the node held BEFORE its transforms
    ran: a transform that replaces the list does not change what is
    visited, and the nodes of a replaced list, though visited, are no
    longer in the tree. */
module Transform {
  import opened Wrappers
  import opened TemplateAst
  import Parse

  type NodeTransform = AstNode -> AstNode

  /** The `options` object; `nodeTransforms` may be missing. */
  datatype TransformOptions = TransformOptions(nodeTransforms: Option<seq<NodeTransform>>)

  /** `createTransformContext(root, options)`: reading `nodeTransforms` of
      a missing options object throws; a missing list is the empty list. */
  function ContextTransforms(options: Option<TransformOptions>): (r: Result<seq<NodeTransform>>)
    ensures options.None? <==> r == Err(TypeError)
    ensures options.Some? && options.value.nodeTransforms.Some? ==> r == Ok(options.value.nodeTransforms.value)
    ensures options.Some? && options.value.nodeTransforms.None? ==> r == Ok([])
  {
    match options
    case None => Err(TypeError)
    case Some(o) => if o.nodeTransforms.Some? then Ok(o.nodeTransforms.value) else Ok([])
  }

  /** The transforms run one after the other on the same node, in list
      order. */
  function ApplyAll(ts: seq<NodeTransform>, n: AstNode): AstNode
  {
    if |ts| == 0 then n else ApplyAll(ts[1..], ts[0](n))
  }

  /** Running a list of transforms is running its first part, then the
      rest. */
  lemma {:induction false} ApplyAllAppend(ts1: seq<NodeTransform>, ts2: seq<NodeTransform>, n: AstNode)
    ensures ApplyAll(ts1 + ts2, n) == ApplyAll(ts2, ApplyAll(ts1, n))
  {
    if |ts1| > 0 {
      assert (ts1 + ts2)[0] == ts1[0];
      assert (ts1 + ts2)[1..] == ts1[1..] + ts2;
      ApplyAllAppend(ts1[1..], ts2, ts1[0](n));
    } else {
      assert ts1 + ts2 == ts2;
    }
  }

  /** The reference order: a node, then the pre-order of each child, left
      to right. */
  function PreOrder(n: AstNode): (r: seq<AstNode>)
    ensures |r| > 0 && r[0] == n
    decreases n
  {
    match n
    case Root(cs, _) => [n] + PreOrderList(cs)
    case Element(_, Present(cs)) => [n] + PreOrderList(cs)
    case _ => [n]
  }

  function PreOrderList(cs: seq<AstNode>): (r: seq<AstNode>)
    ensures |cs| == 0 <==> r == []
    decreases cs
  {
    if |cs| == 0 then [] else PreOrder(cs[0]) + PreOrderList(cs[1..])
  }

  /** A node's transformed value, with its `children` list walked when the
      transforms left the list the walk captured in place. */
  function Rebuild(n1: AstNode, captured: seq<AstNode>, walked: seq<AstNode>): (r: AstNode)
    ensures HasChildren(n1) && ChildrenOf(n1) == captured ==> HasChildren(r) && ChildrenOf(r) == walked
    ensures !(HasChildren(n1) && ChildrenOf(n1) == captured) ==> r == n1
  {
    if HasChildren(n1) && ChildrenOf(n1) == captured then WithChildren(n1, walked) else n1
  }

  /** `traverseNode(node, context)`: the node after the walk, and the
      nodes handed to the transforms, as they were when each was reached.
      Every node of the tree is reached once, parent before children,
      children left to right. */
  function Traverse(n: AstNode, ts: seq<NodeTransform>): (r: (AstNode, seq<AstNode>))
    ensures r.1 == PreOrder(n)
    ensures !HasChildren(n) ==> r.0 == ApplyAll(ts, n)
    decreases n
  {
    var n1 := ApplyAll(ts, n);
    match n
    case Root(cs, _) =>
      var (walked, seen) := TraverseList(cs, ts);
      (Rebuild(n1, cs, walked), [n] + seen)
    case Element(_, Present(cs)) =>
      var (walked, seen) := TraverseList(cs, ts);
      (Rebuild(n1, cs, walked), [n] + seen)
    case _ => (n1, [n])
  }

  /** The `for` loop over a captured children list. */
  function TraverseList(cs: seq<AstNode>, ts: seq<NodeTransform>): (r: (seq<AstNode>, seq<AstNode>))
    ensures |r.0| == |cs|
    ensures forall i :: 0 <= i < |cs| ==> r.0[i] == Traverse(cs[i], ts).0
    ensures r.1 == PreOrderList(cs)
    decreases cs
  {
    if |cs| == 0 then ([], [])
    else
      var (first, seen1) := Traverse(cs[0], ts);
      var (rest, seen2) := TraverseList(cs[1..], ts);
      ([first] + rest, seen1 + seen2)
  }

  /** `transform(root, options)`: the root after the walk. */
  function TransformRoot(root: AstNode, options: Option<TransformOptions>): (r: Result<AstNode>)
    ensures options.None? ==> r == Err(TypeError)
    ensures options.Some? ==> r.Ok?
    ensures options.Some? && options.value.nodeTransforms.None? && !HasChildren(root) ==> r == Ok(root)
  {
    var ts :- ContextTransforms(options);
    Ok(Traverse(root, ts).0)
  }

  // ---------------------------------------------------------------------
  // Properties

  /** With no transforms the walk changes nothing. */
  lemma {:induction false} TraverseIdentity(n: AstNode)
    ensures Traverse(n, []).0 == n
    decreases n
  {
    match n
    case Root(cs, _) =>
      TraverseListIdentity(cs);
    case Element(_, Present(cs)) =>
      TraverseListIdentity(cs);
    case _ =>
  }

  lemma {:induction false} TraverseListIdentity(cs: seq<AstNode>)
    ensures TraverseList(cs, []).0 == cs
    decreases cs
  {
    if |cs| > 0 {
      TraverseIdentity(cs[0]);
      TraverseListIdentity(cs[1..]);
      assert cs == [cs[0]] + cs[1..];
    }
  }

  /** `transform` with an options object lacking `nodeTransforms` leaves
      the tree unchanged; without an options object it throws. */
  lemma TransformWithoutTransforms(root: AstNode)
    ensures TransformRoot(root, Some(TransformOptions(None))) == Ok(root)
    ensures TransformRoot(root, None) == Err(TypeError)
  {
    TraverseIdentity(root);
  }

  /** The walk visits the tree's nodes exactly once each: as many visits as
      nodes, whatever the transforms do. */
  function Size(n: AstNode): (r: nat)
    decreases n
  {
    match n
    case Root(cs, _) => 1 + SizeList(cs)
    case Element(_, Present(cs)) => 1 + SizeList(cs)
    case _ => 1
  }

  function SizeList(cs: seq<AstNode>): nat
    decreases cs
  {
    if |cs| == 0 then 0 else Size(cs[0]) + SizeList(cs[1..])
  }

  lemma {:induction false} VisitsOncePerNode(n: AstNode, ts: seq<NodeTransform>)
    ensures |Traverse(n, ts).1| == Size(n)
    decreases n
  {
    match n
    case Root(cs, _) => VisitsListOncePerNode(cs, ts);
    case Element(_, Present(cs)) => VisitsListOncePerNode(cs, ts);
    case _ =>
  }

  lemma {:induction false} VisitsListOncePerNode(cs: seq<AstNode>, ts: seq<NodeTransform>)
    ensures |TraverseList(cs, ts).1| == SizeList(cs)
    decreases cs
  {
    if |cs| > 0 {
      VisitsOncePerNode(cs[0], ts);
      VisitsListOncePerNode(cs[1..], ts);
    }
  }

  /** A transform that replaces a node's children: the walk still visits
      the children the node had before, and the new list stays as the
      transform left it. */
  lemma ReplacedChildrenStillVisited(tag: string, before: seq<AstNode>, replaced: seq<AstNode>, ts: seq<NodeTransform>)
    requires ApplyAll(ts, Element(tag, Present(before))) == Element(tag, Present(replaced)) && replaced != before
    ensures var r := Traverse(Element(tag, Present(before)), ts);
      && r.0 == Element(tag, Present(replaced))
      && r.1 == [Element(tag, Present(before))] + PreOrderList(before)
  {
  }

  /** The transform of the transform test: text nodes get " mini-vue"
      appended, other nodes are left alone. */
  function AppendMiniVue(n: AstNode): (r: AstNode)
    ensures n.Text? ==> r == Text(n.content + " mini-vue")
    ensures !n.Text? ==> r == n
  {
    if n.Text? then Text(n.content + " mini-vue") else n
  }

  /** Parsing plain text and running the text transform over it: the one
      text node under the root gets the suffix. */
  lemma TextPluginOnParsedText(s: string)
    requires !(|s| >= 2 && s[..2] == "{{") && !Parse.StartsElement(s)
    ensures Parse.BaseParse(s).Ok?
    ensures TransformRoot(Parse.BaseParse(s).value, Some(TransformOptions(Some([AppendMiniVue]))))
      == Ok(Root([Text(s + " mini-vue")], None))
  {
    Parse.ParseTextRoundTrip(s);
    var root := Root([Text(s)], None);
    var ts: seq<NodeTransform> := [AppendMiniVue];
    assert ApplyAll(ts, root) == root;
    assert ApplyAll(ts, Text(s)) == Text(s + " mini-vue");
    assert TraverseList([Text(s)], ts).0 == [Text(s + " mini-vue")];
  }
}

=== FILE: values.dfy ===
/** JavaScript values as the runtime sees them: the primitives, object and
    function identities, and reactive proxies layered over a target.
    Numbers are kept in a canonical form, so that `Object.is` (the SameValue
    comparison of ECMAScript section 7.2.10) is plain structural equality,
    while `===` (IsStrictlyEqual, section 7.2.15) is stated separately. */
module Values {

  /** A JavaScript number: NaN, the two zeros, the two infinities, and every
      other finite value as a non-zero real. */
  datatype Number = NaN | Zero(negative: bool) | Inf(negative: bool) | NonZero(x: real)

  /** The three proxy variants of the reactivity package. */
  datatype ProxyKind = Mutable | Readonly | ShallowReadonly

  /** A value. `Obj` and `Func` carry an identity; `Proxy` is a wrapper around
      a target value (normally an `Obj`). */
  datatype Value =
    | Undefined
    | Null
    | Bool(b: bool)
    | Num(n: Number)
    | Str(s: string)
    | Obj(id: nat)
    | Func(fid: nat)
    | Proxy(kind: ProxyKind, target: Value)

  /** The result of the `typeof` operator. */
  function TypeOf(v: Value): string {
    match v
    case Undefined => "undefined"
    case Null => "object"
    case Bool(_) => "boolean"
    case Num(_) => "number"
    case Str(_) => "string"
    case Obj(_) => "object"
    case Func(_) => "function"
    case Proxy(_, t) => TypeOf(t)
  }

  /** ToBoolean (ECMAScript section 7.1.2). */
  predicate Truthy(v: Value) {
    match v
    case Undefined => false
    case Null => false
    case Bool(b) => b
    case Num(n) => !(n.NaN? || n.Zero?)
    case Str(s) => s != ""
    case _ => true
  }

  /** SameValue, the comparison behind `Object.is`. */
  predicate SameValue(a: Value, b: Value) {
    match (a, b)
    case (Num(NaN), Num(NaN)) => true
    case (Num(Zero(p)), Num(Zero(q))) => p == q
    case (Num(Inf(p)), Num(Inf(q))) => p == q
    case (Num(NonZero(x)), Num(NonZero(y))) => x == y
    case (Num(_), Num(_)) => false
    case _ => a == b
  }

  /** IsStrictlyEqual, the comparison behind `===`. */
  predicate StrictEquals(a: Value, b: Value) {
    match (a, b)
    case (Num(NaN), _) => false
    case (_, Num(NaN)) => false
    case (Num(Zero(_)), Num(Zero(_))) => true
    case _ => a == b
  }

  /** With canonical numbers, SameValue is exactly the identity of the
      representation. */
  lemma SameValueIsIdentity(a: Value, b: Value)
    ensures SameValue(a, b) <==> a == b
  {
  }

  /** The two comparisons differ exactly on NaN and on the pair of zeros. */
  lemma SameValueVersusStrict(a: Value, b: Value)
    ensures StrictEquals(a, b) ==> SameValue(a, b) || (a.Num? && a.n.Zero? && b.Num? && b.n.Zero?)
    ensures SameValue(a, b) ==> StrictEquals(a, b) || (a == b == Num(NaN))
    ensures SameValue(Num(NaN), Num(NaN)) && !StrictEquals(Num(NaN), Num(NaN))
    ensures !SameValue(Num(Zero(false)), Num(Zero(true))) && StrictEquals(Num(Zero(false)), Num(Zero(true)))
  {
  }
}

=== FILE: vnode.dfy ===
/** Virtual nodes (src/runtime-core/vnode.ts): the description of a host
    element, a text node, a fragment or a component, together with the shape
    flags computed once at creation. */
module VNodes {
  import opened Values
  import opened Wrappers
  import opened ShapeFlags

  type HostId = nat

  /** A vnode's `type`: a tag name, the `Fragment` or `Text` marker symbol, or
      a component definition. */
  datatype VType =
    | Tag(name: string)
    | FragmentType
    | TextType
    | Component(def: ComponentDef)

  /** A component definition. Its `setup` and `render` functions are user
      code: the model records whether a `setup` is given, and the vnode
      `render` returns (None when the definition has no render). */
  datatype ComponentDef = ComponentDef(name: string, setup: bool, render: Option<VNode>)

  /** Whether mounting finds a render function on the instance:
      `finishComponentSetup` copies `render` over only when reached from
      `handleSetupResult`, which runs only for a definition with `setup`. */
  predicate HasInstanceRender(d: ComponentDef) {
    d.setup && d.render.Some?
  }

  /** A value found under a key of an object `children` (a slot source). */
  datatype SlotValue =
    | FnSlot(fid: nat)        // a user function
    | VNodeSlot(node: VNode)  // a vnode placed directly under the key
    | OtherSlot(v: Value)     // any other value

  /** A vnode's `children`: `undefined`, `null`, a string, an array of vnodes,
      or a plain object (the slots of a component). */
  datatype Children =
    | NoChildren
    | NullChildren
    | TextChildren(text: string)
    | ArrayChildren(items: seq<VNode>)
    | ObjectChildren(entries: map<string, SlotValue>)

  /** `props` is `undefined`/`null` (None) or an object of own properties. */
  type Props = Option<map<string, Value>>

  datatype VNode = VNode(
    vtype: VType,
    props: Props,
    children: Children,
    el: Option<HostId>,
    shapeFlag: Flags)

  /** `typeof children === 'object'`: null, arrays and plain objects. */
  predicate ChildrenIsObject(c: Children) {
    c.NullChildren? || c.ArrayChildren? || c.ObjectChildren?
  }

  /** `getShapeFlag`: a string type is an element, anything else (the
      Fragment and Text symbols included) a stateful component. */
  function GetShapeFlag(t: VType): (f: Flags)
    ensures IsTypeFlag(f)
    ensures f == ELEMENT <==> t.Tag?
  {
    if t.Tag? then ELEMENT else STATEFUL_COMPONENT
  }

  /** `createVNode`: stores type, props and children unchanged, starts with
      no host element, and classifies type and children in the flags. */
  function CreateVNode(t: VType, props: Props, children: Children): (v: VNode)
    ensures v.vtype == t && v.props == props && v.children == children && v.el == None
    ensures Has(v.shapeFlag, ELEMENT) <==> t.Tag?
    ensures Has(v.shapeFlag, STATEFUL_COMPONENT) <==> !t.Tag?
    ensures Has(v.shapeFlag, TEXT_CHILDREN) <==> children.TextChildren?
    ensures Has(v.shapeFlag, ARRAY_CHILDREN) <==> children.ArrayChildren?
    ensures Has(v.shapeFlag, SLOT_CHILDREN) <==> !t.Tag? && ChildrenIsObject(children)
  {
    var base := GetShapeFlag(t);
    var withChildren :=
      if children.TextChildren? then base | TEXT_CHILDREN
      else if children.ArrayChildren? then base | ARRAY_CHILDREN
      else base;
    var flags :=
      if withChildren & STATEFUL_COMPONENT != 0 && ChildrenIsObject(children)
      then withChildren | SLOT_CHILDREN
      else withChildren;
    VNode(t, props, children, None, flags)
  }

  /** A vnode never carries both children flags. */
  lemma TextAndArrayExclusive(t: VType, props: Props, children: Children)
    ensures !(Has(CreateVNode(t, props, children).shapeFlag, TEXT_CHILDREN)
              && Has(CreateVNode(t, props, children).shapeFlag, ARRAY_CHILDREN))
  {
  }

  /** `createTextVNode`: a Text-typed vnode with empty props and the string
      as children. */
  function CreateTextVNode(text: string): (v: VNode)
    ensures v.vtype == TextType && v.props == Some(map[]) && v.children == TextChildren(text)
    ensures v.shapeFlag == STATEFUL_COMPONENT | TEXT_CHILDREN
  {
    CreateVNode(TextType, Some(map[]), TextChildren(text))
  }

  /** `String(children)`, the conversion `createTextNode` applies. Every vnode
      is a plain object and prints as "[object Object]"; arrays join with ",". */
  function ChildrenToString(c: Children): string {
    match c
    case NoChildren => "undefined"
    case NullChildren => "null"
    case TextChildren(s) => s
    case ObjectChildren(_) => "[object Object]"
    case ArrayChildren(items) => JoinObjects(|items|)
  }

  /** The conversion the `textContent` setter applies: it takes a nullable
      string, so `undefined` and `null` become the empty string. */
  function TextContentOf(c: Children): string {
    if c.NoChildren? || c.NullChildren? then "" else ChildrenToString(c)
  }

  function JoinObjects(n: nat): string {
    if n == 0 then "" else if n == 1 then "[object Object]" else JoinObjects(n - 1) + ",[object Object]"
  }
}

=== FILE: wrappers.dfy ===
/** Optional values, and results that either hold a value or carry the
    JavaScript exception the source would throw at that point. */
module Wrappers {

  datatype Option<+T> = None | Some(value: T)

  /** The exceptions the modelled code can raise.
      - TypeError: a property read on `undefined`/`null`, calling a
        non-function, iterating a non-iterable.
      - DomError: an element vnode whose type is not a tag string, which
        `document.createElement` cannot take; tag strings themselves are
        not validated. */
  datatype JsError = TypeError | DomError

  datatype Result<+T> = Ok(value: T) | Err(error: JsError) {
    predicate IsFailure() { Err? }

    function PropagateFailure<U>(): Result<U>
      requires Err?
    {
      Err(error)
    }

    function Extract(): T
      requires Ok?
    {
      value
    }
  }
}
